=== FILE: README.md ===
# libANISS decoding pipeline and event builders, in Dafny

libANISS reads the EBYEDATA data files of the ISS detector. A file is a
sequence of fixed-size blocks. Each block holds:

- a 24-byte `DATA_HEADER`;
- a payload of 64-bit words, written in one of four byte/word orders.

Each word is one of four kinds, chosen by its top two bits: a trace sample, a
trace header, an information word, or an ADC word. Information words with
code 4 carry 20-bit timestamp extensions. Module 63, the V1495 logic unit,
feeds the global clock; every other module feeds the ADC clock. Three example
scripts turn the words into hits and then into events:

- `make_tree.C` buffers ADC hits and writes them to a tree at every EBIS
  trigger.
- `make_tree_onlyadcstamps.C` stamps hits with a run-continuous ADC clock. It
  rebases that clock when it goes backwards after a change of run file.
- `analyse_tree_onlyadcstamps.C` filters the tree entries, groups them into
  fixed-width time windows, and maps each window onto STUB and Recoil detector
  records.

The project models each layer as pure functions over immutable datatypes,
one module per layer:

- `Header` is the header's byte layout.
- `BlockFile` (ISSFile) models the block-size probe and block addressing over
  a byte sequence that stands in for the memory mapping.
- `Buffer` (ISSBuffer) covers the header check, the word count, swap-mode
  detection and `GetWord`.
- `Swap` holds the three byte/word permutations.
- `ByteOrder` states that payload decoding is independent of the writer's
  byte order, provided the first payload word with bits 63:60 or 31:28 set
  has 63:60 set and 31:28 clear, which is what the swap detection assumes.
- `Word` extracts the fields of a word.
- `Timestamp` models ISSWord's latches and full timestamps.
- `Hits` (ISSHit) is the hit record with its timestamp order and a sort.
- `Flush` models `process_hits`/`treat_hit`, shared by both tree makers.
- `TriggerBuilder` models `make_tree.C`.
- `AdcBuilder` models `make_tree_onlyadcstamps.C`.
- `WindowBuilder` models the windowing loop and `treat_event`.
- `Mapping` models `do_detector_mapping` and the two populate functions.

The scripts' global state becomes an explicit `State` record. A step function
threads it through one word or one tree entry. The rows a script writes to its
ROOT tree become a growing sequence. Exceptions become `Result` values.

Some modelling choices:

- Native byte order is little-endian.
- `std::sort` is not stable, so `Flush.ProcessHits` accepts any
  timestamp-sorted permutation of the buffer. The builders use one such
  order, a stable insertion sort.
- The word layout is the one ISSWord.hh extracts:
  - the information field is bits 51:32 (ISSWord.hh:147-150);
  - the information code is bits 55:52 (ISSWord.hh:154-157);
  - `Set` keeps a single ADC extension latch, which every module other than
    the V1495 writes (ISSWord.hh:28-35).

## Model

| member | source | states |
|---|---|---|
| Header.Parse | ISSHeader.hh:10-18 | a parsed header has an 8-byte id, and it is valid exactly when bytes 0..7 are "EBYEDATA" |
| Header.Serialize | ISSHeader.hh:4 | a header occupies 24 bytes |
| Header.MagicSpellsEbyedata | ISSHeader.hh:11 | the identifier is the 8 ASCII characters of "EBYEDATA" |
| Header.Layout | ISSHeader.hh:10-18 | field offsets: id 0..7, sequence 8..11, stream 12..13, tape 14..15, MyEndian 16..17, DataEndian 18..19, dataLen 20..23 |
| Header.ParseSerialize | ISSHeader.hh:10-18 | writing a header and reading it back gives the same header |
| Header.SerializeParse | ISSHeader.hh:10-18 | reading 24 bytes and writing them back reproduces the bytes |
| Header.Swapped | ISSHeader.hh:15-16 | a header read in the wrong byte order keeps its identifier and is well formed exactly when the original is |
| Header.SerializeForeign | ISSHeader.hh:15-16 | a header written in the other byte order is still 24 bytes |
| Header.ForeignLayout | ISSHeader.hh:15-17 | a writer of the other byte order stores every integer field with its bytes reversed, and the identifier unchanged |
| Header.ParseForeign | ISSHeader.hh:15-17 | such a header reads back with every integer field byte-reversed |
| Header.Swap16ReversesBytes | ISSHeader.hh:15-16 | reading a 16-bit field in the wrong order yields its byte reversal |
| Header.EndianMarkers | ISSHeader.hh:15-17 | MyEndian and DataEndian read as 1 in native order and not in the other order; Swap32 of dataLen read in the other order recovers the length |
| Bytes.Reverse | ISSBuffer.hh:29-35 | reversal keeps the length and mirrors every index |
| Bytes.U64RoundTrip | ISSBuffer.hh:83 | a 64-bit word stored little-endian at any offset reads back unchanged |
| Swap.DocExamples | ISSBuffer.hh:29-57 | the three swaps give the values their source comments promise |
| Swap.Involutions | ISSBuffer.hh:29-57 | Swap32, SwapWords and Swap64 each undo themselves |
| Swap.Swap32Lanes | ISSBuffer.hh:30-35 | byte lane k of Swap32(x) is lane 3-k of x |
| Swap.MirroredLanes32 | ISSBuffer.hh:30-35 | 32-bit values with mirrored lanes store mirrored byte strings |
| Swap.Swap32ReversesBytes | ISSBuffer.hh:29-35 | the bytes of Swap32(x) are those of x in reverse order |
| Swap.Swap64Lanes | ISSBuffer.hh:48-57 | byte lane k of Swap64(x) is lane 7-k of x |
| Swap.MirroredLanes | ISSBuffer.hh:48-57 | 64-bit values with mirrored lanes store mirrored byte strings |
| Swap.Swap64ReversesBytes | ISSBuffer.hh:46-57 | the bytes of Swap64(x) are those of x in reverse order |
| Swap.SwapWordsLanes | ISSBuffer.hh:40-43 | byte lanes 0..3 and 4..7 trade places under SwapWords |
| Swap.RotatedLanes | ISSBuffer.hh:40-43 | values whose 32-bit halves trade places store their four-byte groups in the opposite order |
| Swap.SwapWordsExchangesHalves | ISSBuffer.hh:38-43 | the bytes of SwapWords(x) are those of x with the two four-byte halves exchanged |
| Swap.ForeignRead64 | ISSBuffer.hh:129-131 | a 64-bit word written in the other byte order reads as Swap64 of itself, and Swap64 of that read recovers it |
| Swap.ForeignRead32 | ISSBuffer.hh:89-90 | a 32-bit length written in the other byte order reads as Swap32 of itself |
| BlockFile.ErrorCode | ISSFile.hh:22-27 | the two errors the block-size probe throws have distinct negative codes: ERR_BAD_FILE is -3 and ERR_BAD_BLOCK_SIZE is -4 |
| BlockFile.Candidate | ISSFile.hh:43 | probed block sizes start at 256 |
| BlockFile.CandidateIsPow2 | ISSFile.hh:43 | every probed block size is a power of two |
| BlockFile.CandidatesGrow | ISSFile.hh:43 | probed block sizes strictly increase |
| BlockFile.Probe | ISSFile.hh:43-56 | the probe returns the first candidate below len whose offset holds the identifier; every earlier candidate lacks it; with no such candidate it fails with ERR_BAD_BLOCK_SIZE and every candidate below len lacks the identifier |
| BlockFile.ProbeFindsPow2 | ISSFile.hh:43 | a probe that succeeds returns a power of two |
| BlockFile.DetermineBlockSize | ISSFile.hh:31-57 | ERR_BAD_FILE exactly when bytes 0..7 lack the identifier; ERR_BAD_BLOCK_SIZE exactly when no candidate below len holds it; otherwise the smallest such candidate, a power of two with 256 <= blocksize and blocksize + 8 <= len |
| BlockFile.Open | ISSFile.hh:80-107 | opening succeeds exactly when the block size is found; the opened file keeps the region and that block size and satisfies the file invariant |
| BlockFile.Close | ISSFile.hh:111-122 | after closing, the file size and the block size are 0 |
| BlockFile.NBlocks | ISSFile.hh:138-140 | the block count is the number of whole blocks: count * blocksize <= len < (count + 1) * blocksize |
| BlockFile.GetBlock | ISSFile.hh:144-147 | no block exactly when n >= len / blocksize; otherwise offset n * blocksize, and the whole block fits in the region |
| BlockFile.BlockBytes | ISSFile.hh:144-147 | the bytes handed out for block n start at its offset and hold at least one block |
| BlockFileAsWritten.CandidateAt24 | ISSFile.hh:43 | the 24th doubling of 256 reaches 2^32 |
| BlockFileAsWritten.WrappedCandidate | ISSFile.hh:43 | the 32-bit probe variable agrees with the unbounded candidate up to step 23 and is 0 at step 24 |
| BlockFileAsWritten.ProbeAsWrittenVersusIntended | ISSFile.hh:43-52 | the 32-bit probe loop returns what the intended one does, or block size 0; it always agrees for regions up to 2^31 bytes |
| BlockFileAsWritten.BlockSizeAsWrittenVersusIntended | ISSFile.hh:31-57 | the 32-bit DetermineBlockSize departs from the intended one only by returning block size 0, and never for regions up to 2^31 bytes |
| BlockFileAsWritten.LoneHeaderRegion | ISSFile.hh:43-56 | the counterexample region is 2^31 + 8 bytes long |
| BlockFileAsWritten.LoneHeaderProbe | ISSFile.hh:43-56 | on a region whose only identifier is at offset 0, the intended probe fails and the 32-bit one returns 0 |
| BlockFileAsWritten.BlockSizeWrapsToZero | ISSFile.hh:43-56 | on a 2^31 + 8 byte region with one header, the intended result is ERR_BAD_BLOCK_SIZE but the 32-bit loop reports block size 0 |
| BlockFileAsWritten.ProbeAsWritten | ISSFile.hh:43-56 | the 32-bit probe loop fails only with ERR_BAD_BLOCK_SIZE; a block size it returns is below 2^32 and holds the identifier, and is 0 or one of the remaining candidates |
| BlockFileAsWritten.DetermineBlockSizeAsWritten | ISSFile.hh:31-57 | as written: ERR_BAD_FILE exactly when bytes 0..7 lack the identifier, and a returned block size is below 2^32 and holds the identifier; compared with the intended one by BlockFileAsWritten.BlockSizeAsWrittenVersusIntended |
| BlockFileAsWritten.GetBlockAsWritten | ISSFile.hh:144-147 | as written: a block exists exactly when n < len / blocksize, and its 32-bit offset is below 2^32 and never above n * blocksize |
| BlockFileAsWritten.GetBlockAsWrittenVersusIntended | ISSFile.hh:144-147 | the 32-bit GetBlock agrees with the intended one on whether a block exists, and on its offset exactly when n * blocksize < 2^32 |
| BlockFileAsWritten.GetBlockWraps | ISSFile.hh:146 | block 65536 of 64 KiB blocks starts at 2^32, but the 32-bit product sends it to offset 0 |
| Buffer.ModeBits | ISSBuffer.hh:21-26 | the swap flags are the bits 1, 2 and 4 of the mode integer |
| Buffer.Scan | ISSBuffer.hh:100-113 | SWAP_KNOWN becomes set exactly when some endian-corrected word has bits 63:60 or 31:28 set; SWAP_WORDS is added exactly when the first such word has 63:60 clear; SWAP_ENDIAN is untouched |
| Buffer.DetectSwap | ISSBuffer.hh:102-113 | the detection loop written as a loop decides the same three flags as Scan's contract |
| Buffer.Set | ISSBuffer.hh:70-114 | a null block gives no words and keeps the mode; a block without the identifier fails with ERR_BAD_HEADER; otherwise nwords is dataLen / 8, with dataLen byte-swapped when MyEndian != 1; a known mode is kept; SWAP_ENDIAN is never cleared and is added when DataEndian != 1; from an unknown mode, SWAP_KNOWN is set exactly when some corrected word has bits 63:60 or 31:28 set, and SWAP_WORDS exactly when the first such word has 63:60 clear |
| Buffer.New | ISSBuffer.hh:63-66 | a buffer constructed on a null block has no words and the unknown mode |
| Buffer.GetWord | ISSBuffer.hh:124-134 | 0 past the last word; otherwise the word that, with its halves exchanged back when SWAP_WORDS is set, equals the raw word after Swap64 when SWAP_ENDIAN is set |
| Buffer.NullBlockHasNoWords | ISSBuffer.hh:72-78 | after Set(NULL) every GetWord is 0 |
| Buffer.KnownModeIsFinal | ISSBuffer.hh:93-94 | once the mode is known, any number of further blocks leave it unchanged |
| ByteOrder.PayloadBytes | ISSHeader.hh:17 | a payload of n words is 8n bytes |
| ByteOrder.WriterHeader | ISSHeader.hh:10-18 | a writer's header is well formed and carries the identifier |
| ByteOrder.PayloadWord | ISSBuffer.hh:83 | word i of a written payload occupies bytes 8i..8i+7 |
| ByteOrder.SwapWordsNibbles | ISSBuffer.hh:101-112 | exchanging the halves of a word exchanges the two nibbles the detection tests |
| ByteOrder.ParsePrefix | ISSHeader.hh:10-18 | the header is read from the first 24 bytes only |
| ByteOrder.WriterWordCount | ISSBuffer.hh:89-91 | a dataLen of 8n bytes gives n words |
| ByteOrder.EncodedHeader | ISSBuffer.hh:82-91 | a written block is as long as its header, payload and trailer, and its header reads back with the identifier |
| ByteOrder.RawWordBehind | ISSBuffer.hh:83 | payload word i lies right after the 24-byte header |
| ByteOrder.EncodedRawWord | ISSBuffer.hh:83 | word i of a written block, read natively, is its stored form |
| ByteOrder.CorrectedWord | ISSBuffer.hh:103 | after the byte-order correction only the order of the halves can differ from the written word |
| ByteOrder.ScanRecognises | ISSBuffer.hh:100-113 | when the first marked word of a payload has bits 63:60 set and 31:28 clear, as a timestamp word does, the detection infers exactly the writer's half order |
| ByteOrder.WordsRecovered | examples/make_tree.C:178-188 | the words treat_buffer hands to treat_word, GetWord(0) up to GetWord(nwords - 1), are exactly the words written, whichever of the four orders the writer used, when the first payload word with bits 63:60 or 31:28 set has 63:60 set and 31:28 clear, as a timestamp word does and as the detection assumes (ISSBuffer.hh:100-113) |
| ByteOrder.DecodingIsOrderTransparent | ISSBuffer.hh:70-134 | when the first payload word with bits 63:60 or 31:28 set has 63:60 set and 31:28 clear, as a timestamp word does and as the detection assumes (ISSBuffer.hh:100-113), a fresh buffer infers the writer's mode, whichever of the four orders it used, and GetWord returns exactly the words written |
| ByteOrder.MisleadingPayloadMisread | ISSBuffer.hh:100-113 | the limit of the detection: when the first payload word with bits 63:60 or 31:28 set has only 31:28 set, a fresh buffer infers the opposite half order to the writer's, in any of the four orders, and GetWord returns every word with its halves exchanged |
| ByteOrder.MisreadExample | ISSBuffer.hh:100-113 | a native writer's lone word 0x0000_0000_1000_0000 reads back as 0x1000_0000_0000_0000 |
| Word.Key | ISSWord.hh:45-71 | the key is below 4 and selects exactly one of sample, trace header, information and ADC |
| Word.IsSample | ISSWord.hh:51-53 | key 0; characterised by Word.Key and Word.KeysPartition |
| Word.IsTraceHeader | ISSWord.hh:57-59 | key 1; characterised by Word.Key and Word.KeysPartition |
| Word.IsInfo | ISSWord.hh:63-65 | key 2; characterised by Word.Key and Word.KeysPartition |
| Word.IsAdc | ISSWord.hh:69-71 | key 3; characterised by Word.Key and Word.KeysPartition |
| Word.IsQLong | ISSWord.hh:75-78 | an ADC word with data ID 0; characterised by Word.AdcKinds |
| Word.IsQShort | ISSWord.hh:82-85 | an ADC word with data ID 1; characterised by Word.AdcKinds |
| Word.IsFineTiming | ISSWord.hh:89-92 | an ADC word with data ID 3; characterised by Word.AdcKinds |
| Word.HasExtendedTimestamp | ISSWord.hh:103-108 | holds exactly when bits 63:62 are 2 (information word) and bits 55:52 are 4 |
| Word.AdcBE | ISSWord.hh:196-199 | bit 52 of an ADC word; characterised by Word.AdcBEIsChannelBit |
| Word.TraceBE | ISSWord.hh:234-237 | tests the ADC key, as written; characterised by Word.TraceBEReadsAdcWords |
| Word.TraceRawFlag | ISSWord.hh:248-251 | bit 52 of a trace header; characterised by Word.RawFlagIsChannelBit |
| Word.KeysPartition | ISSWord.hh:45-71 | every word has exactly one of the four kinds |
| Word.LowTimestamp | ISSWord.hh:96-99 | below 2^28, and 0 on a word that is not an information word |
| Word.InfoField | ISSWord.hh:147-150 | below 2^20, and 0 on a word that is not an information word |
| Word.InfoCode | ISSWord.hh:154-157 | below 16, and 0 on a word that is not an information word |
| Word.InfoModule | ISSWord.hh:168-171 | below 64, and 0 on a word that is not an information word |
| Word.AdcDataId | ISSWord.hh:161-164 | below 4, and 0 on a word that is not an ADC word |
| Word.AdcConversion | ISSWord.hh:175-178 | below 2^16, and 0 on a word that is not an ADC word |
| Word.AdcId | ISSWord.hh:182-185 | below 2^12, and 0 on a word that is not an ADC word |
| Word.AdcChannel | ISSWord.hh:189-192 | below 64, and 0 on a word that is not an ADC word |
| Word.AdcModule | ISSWord.hh:203-206 | below 32, and 0 on a word that is not an ADC word |
| Word.TraceNSamples | ISSWord.hh:213-216 | below 2^16, and 0 on a word that is not a trace header |
| Word.TraceId | ISSWord.hh:220-223 | below 2^13, and 0 on a word that is not a trace header |
| Word.TraceChannel | ISSWord.hh:227-230 | below 64, and 0 on a word that is not a trace header |
| Word.TraceModule | ISSWord.hh:241-244 | below 32, and 0 on a word that is not a trace header |
| Word.InfoRoundTrip | ISSWord.hh:103-171 | an information word built from module, code, field and low bits yields exactly those values; it has an extended timestamp exactly when the code is 4 |
| Word.AdcRoundTrip | ISSWord.hh:161-206 | an ADC word built from module, data ID, channel and conversion yields exactly those values |
| Word.TraceHeaderRoundTrip | ISSWord.hh:213-251 | a trace header built from module, 6-bit channel and sample count yields exactly those values, and its raw flag is set exactly when channel bit 4 is |
| Word.AdcIdComposition | ISSWord.hh:181-206 | the ADC ID is the low four module bits, the data ID and the channel, side by side |
| Word.AdcBEIsChannelBit | ISSWord.hh:189-199 | the baseline/energy bit is bit 4 of the ADC channel |
| Word.TraceIdComposition | ISSWord.hh:219-244 | the trace channel is the trace ID modulo 64 and the trace module is the trace ID divided by 256 |
| Word.RawFlagIsChannelBit | ISSWord.hh:227-251 | the raw flag of a trace header is bit 4 of its channel |
| Word.TraceBEReadsAdcWords | ISSWord.hh:234-237 | GetTraceBE is false on every trace header and equals GetADCBE everywhere |
| Word.AdcKinds | ISSWord.hh:75-92 | QLong, QShort and fine timing are mutually exclusive, false off ADC words, and together cover the ADC words whose data ID is not 2 |
| Timestamp.FieldBits | ISSWord.hh:147-150 | the latched field is below 2^20 and equals GetInfoField on an information word |
| Timestamp.Latch | ISSWord.hh:28-35 | an extended-timestamp word from module 63 replaces the global extension and one from any other module the ADC extension; every other word leaves both; extensions stay below 2^20 |
| Timestamp.NewDecoder | ISSWord.hh:20-24 | a new decoder starts with both extensions 0, unless its word is an extended-timestamp word |
| Timestamp.SetGlobalExtended | ISSWord.hh:112-114 | sets the global extension and nothing else |
| Timestamp.SetAdcExtended | ISSWord.hh:118-120 | sets the ADC extension and nothing else |
| Timestamp.ComposeParts | ISSWord.hh:126-128 | a composed timestamp gives back its extension above bit 28 and the word's low 28 bits below |
| Timestamp.ComposeFits48 | ISSWord.hh:123-142 | a 20-bit extension gives a timestamp below 2^48 |
| Timestamp.FullGlobalTimestamp | ISSWord.hh:124-131 | a sample word repeats the last global timestamp; any other word yields the global extension above its low 28 bits and remembers it |
| Timestamp.FullAdcTimestamp | ISSWord.hh:135-142 | a sample word repeats the last ADC timestamp; any other word yields the ADC extension above its low 28 bits and remembers it |
| Timestamp.FullTimestampsFit48 | ISSWord.hh:123-142 | with latches from information fields, both full timestamps are below 2^48 |
| Timestamp.ComposeInjective | ISSWord.hh:126-139 | two composed timestamps are equal exactly when their extensions and low 28 bits are |
| Timestamp.LatchAll | ISSWord.hh:28-35 | setting words keeps the latches valid and never touches the remembered timestamps |
| Timestamp.LatchesPersist | ISSWord.hh:28-35 | words that are not extended-timestamp words leave both extensions as they were |
| Timestamp.ExtendedWordStamp | ISSWord.hh:28-142 | an extended-timestamp word's own full timestamp on its clock is its field above its low 28 bits |
| Timestamp.ExtensionExample | ISSWord.hh:124-142 | an extension 5 then an ADC word with low bits 0x10 give (5 << 28) \| 0x10, and a following sample word repeats it |
| Timestamp.SampleRepeatsLast | ISSWord.hh:124-142 | a sample word after any timestamp query reports that timestamp again, on either clock |
| Hits.SetHit | ISSHit.hh:31-39 | the hit holds the five values cut to their field widths, so each one reads back when it fits, and the trace is empty |
| Hits.DefaultHit | ISSHit.hh:24-27 | the default hit holds the largest value of every field and no trace |
| Hits.AddSample | ISSHit.hh:43-45 | appends exactly one sample, grows the sample count by 1, and changes nothing else |
| Hits.GetSample | ISSHit.hh:85-88 | the i-th sample below the sample count, 0 from it on |
| Hits.LessIsStrictWeakOrder | ISSHit.hh:98-100 | operator< is a strict weak order whose ties are the hits with equal timestamps |
| Hits.Insert | examples/make_tree.C:81 | inserting into a sorted buffer keeps it sorted and adds exactly that hit |
| Hits.SortByTs | examples/make_tree.C:81 | the concrete sort yields a timestamp-sorted permutation of the buffer |
| Hits.SortingsAgreeOnTimestamps | examples/make_tree.C:81 | any two sortings of the same hits have the same timestamp at every position, so an unstable sort changes only the order of equal-timestamp hits |
| Hits.AtOrBelow | examples/make_tree.C:81 | the hits at or below a timestamp, with their multiplicities |
| Flush.TreatHit | examples/make_tree.C:61-72 | the row written for a hit carries the event timestamp and exactly the hit's fields |
| Flush.Emit | examples/make_tree.C:84 | one row per hit, in order, all tagged with the flush's event timestamp |
| Flush.Stripped | examples/make_tree.C:61-72 | recovers the hit each row was written from |
| Flush.EmitThenStrip | examples/make_tree.C:61-72 | rows convert back to the traceless hits they were written from |
| Flush.ProcessHits | examples/make_tree.C:76-92 | for any order std::sort may leave, process_hits writes nhits rows, all tagged with event_ts, in non-decreasing timestamp order, none later than a hit left behind; it leaves exactly the rest, sorted; no hit is lost or duplicated |
| Flush.SplitSorted | examples/make_tree.C:81-87 | cutting a sorted buffer keeps every hit once, with the written part never later than the erased rest |
| Flush.Append | examples/make_tree_onlyadcstamps.C:88-106 | the rows already in the tree are kept, nhits new rows follow with the ordering above, and tree rows plus buffer hold the same hits as before |
| TriggerBuilder.Init | examples/make_tree.C:44-57 | the script starts with an empty buffer, an empty tree and valid latches |
| TriggerBuilder.Process | examples/make_tree.C:76-92 | process_hits on the script state: the rows and hits as in Flush.Append, the processed-hit count grown by nhits, and the timestamps and counters untouched |
| TriggerBuilder.AdcHit | examples/make_tree.C:144-154 | the hit of an ADC word has its module, channel, conversion and data ID, and the timestamp it is given, not the word's own low bits |
| TriggerBuilder.AdcClock | examples/make_tree.C:127-131 | an ADC-clock word writes nothing and leaves the global timestamp |
| TriggerBuilder.Trigger | examples/make_tree.C:111-124 | an EBIS word empties the buffer |
| TriggerBuilder.Buffer | examples/make_tree.C:139-157 | buffering keeps the buffer within MAXHITS |
| TriggerBuilder.TreatWord | examples/make_tree.C:98-174 | every word keeps the buffer within MAXHITS and traceless |
| TriggerBuilder.Step | examples/make_tree.C:178-188 | ISSWord::Set then treat_word keeps the buffer bound and only appends rows to the tree |
| TriggerBuilder.Run | examples/make_tree.C:178-188 | a whole block keeps the buffer bound and only appends rows to the tree |
| TriggerBuilder.V1730Ignored | examples/make_tree.C:103-141 | information and ADC words from module 2 change nothing but the decoder's current word |
| TriggerBuilder.TriggerFlushesAll | examples/make_tree.C:111-124 | a module-63 word writes every pending hit, sorted and tagged with the global timestamp from before it, keeps the earlier rows, empties the buffer and counts an event; with an extended timestamp it then takes the word's own global timestamp and counts a pulse; the ADC timestamp is untouched |
| TriggerBuilder.AdcTimestampUpdate | examples/make_tree.C:127-131 | an extended-timestamp word from another module sets last_adc8_ts to its own full ADC timestamp and writes nothing |
| TriggerBuilder.AdcWordBuffers | examples/make_tree.C:139-157 | an accepted ADC word adds one hit stamped last_adc8_ts; below MAXHITS it is appended and nothing is written; at the limit MAXHITS/2 rows are written; no hit is lost |
| TriggerBuilder.AdcStep | examples/make_tree.C:139-154 | an accepted ADC word goes to the buffering branch |
| TriggerBuilder.BufferConserves | examples/make_tree.C:151-157 | buffering keeps every hit, the new one included, and flushes half only at the limit |
| TriggerBuilder.RunConserves | examples/make_tree.C:178-188 | over any run of words, rows plus buffered hits grow by exactly the number of accepted ADC words, and written rows are only appended |
| TriggerBuilder.StepConserves | examples/make_tree.C:98-174 | a word creates a hit exactly when it is an accepted ADC word, and rows are only appended |
| AdcBuilder.Init | examples/make_tree_onlyadcstamps.C:50-58 | the script starts with an empty buffer and tree, run 0, and the invariant |
| AdcBuilder.NextFile | examples/make_tree_onlyadcstamps.C:273-283 | the driver increments run_number and nothing else |
| AdcBuilder.Process | examples/make_tree_onlyadcstamps.C:88-106 | process_hits on the script state: the rows and hits as in Flush.Append; everything else untouched |
| AdcBuilder.GlobalUpdate | examples/make_tree_onlyadcstamps.C:124-136 | a global-clock word leaves the buffer, the tree, the rebase offset and the run counters alone |
| AdcBuilder.AdcUpdate | examples/make_tree_onlyadcstamps.C:140-160 | an ADC-clock word writes nothing and leaves the run number |
| AdcBuilder.TreatWord | examples/make_tree_onlyadcstamps.C:112-211 | every word keeps the buffer within MAXHITS and traceless, and the rebase counter at most the run counter |
| AdcBuilder.Buffer | examples/make_tree_onlyadcstamps.C:173-194 | buffering keeps the invariant |
| AdcBuilder.Step | examples/make_tree_onlyadcstamps.C:215-225 | ISSWord::Set then treat_word keeps the invariant and never changes run_number |
| AdcBuilder.Run | examples/make_tree_onlyadcstamps.C:215-225 | a whole file keeps the invariant and never changes run_number, which only the driver advances |
| AdcBuilder.RunFiles | examples/make_tree_onlyadcstamps.C:269-283 | any list of files keeps the invariant |
| AdcBuilder.Finish | examples/make_tree_onlyadcstamps.C:295-301 | the final flush empties the buffer, keeps the earlier rows, and writes every remaining hit once, sorted and tagged with the last global timestamp |
| AdcBuilder.FinalFlush | examples/make_tree_onlyadcstamps.C:296-299 | the flush of a non-empty buffer writes all of it |
| AdcBuilder.Rebase | examples/make_tree_onlyadcstamps.C:147-157 | an older extended ADC timestamp after an unaccounted run change advances global_adc_ts by last_adc8_ts + 250000 and counts the run change; otherwise neither moves; last_adc8_ts becomes the word's own timestamp; nothing is written |
| AdcBuilder.RebaseKeepsStampsIncreasing | examples/make_tree_onlyadcstamps.C:147-187 | after a rebase the next hit's stamp exceeds the last pre-rebase stamp by at least 250000 |
| AdcBuilder.GlobalWordDoesNotFlush | examples/make_tree_onlyadcstamps.C:124-136 | a module-63 word writes and drops nothing and sets last_global_ts to its own global timestamp when it carries one; a regression is only reported |
| AdcBuilder.V1730Ignored | examples/make_tree_onlyadcstamps.C:121-175 | information and ADC words from module 2 change nothing but the decoder's current word |
| AdcBuilder.AdcWordBuffers | examples/make_tree_onlyadcstamps.C:185-194 | an accepted ADC word adds one hit stamped global_adc_ts + last_adc8_ts, cut to 64 bits, and no hit is lost |
| AdcBuilder.AdcStep | examples/make_tree_onlyadcstamps.C:173-194 | an accepted ADC word goes to the buffering branch |
| AdcBuilder.BufferConserves | examples/make_tree_onlyadcstamps.C:185-194 | buffering keeps every hit, the new one included |
| AdcBuilder.StepKeepsRun | examples/make_tree_onlyadcstamps.C:147-153 | a word never changes run_number and raises prev_run_number by at most one |
| AdcBuilder.RebasesBoundedByRunChanges | examples/make_tree_onlyadcstamps.C:147-153 | within a file the rebase counter never passes the run counter |
| AdcBuilder.RebasesOverFiles | examples/make_tree_onlyadcstamps.C:269-283 | over n files the rebase fires at most once per run_number increment |
| AdcBuilder.EveryHitWrittenOnce | examples/make_tree_onlyadcstamps.C:185-299 | after a run and the final flush, the buffer is empty and the tree has exactly one row per accepted ADC word |
| AdcBuilder.RunConserves | examples/make_tree_onlyadcstamps.C:215-225 | rows plus buffered hits grow by exactly the number of accepted ADC words |
| AdcBuilder.StepConserves | examples/make_tree_onlyadcstamps.C:112-211 | a word creates a hit exactly when it is an accepted ADC word |
| WindowBuilder.Classify | examples/analyse_tree_onlyadcstamps.C:147-166 | an entry is good exactly when 2000 <= adc_data <= 65534 and it is a QLong; overrange exactly when above 65534; noise exactly when below 2000 |
| WindowBuilder.Init | examples/analyse_tree_onlyadcstamps.C:130-134 | the start state keeps the invariant, the counts and the sentinel |
| WindowBuilder.TreatEvent | examples/analyse_tree_onlyadcstamps.C:549-566 | treat_event passes the event on, adds its size to n_good_hits, counts it, and empties the store |
| WindowBuilder.DetectorRecords | examples/analyse_tree_onlyadcstamps.C:561 | every treated event gets well-formed detector records |
| WindowBuilder.Reject | examples/analyse_tree_onlyadcstamps.C:712-715 | a bad entry bumps n_bad_hits and at most one of the overrange and noise counters, and nothing else |
| WindowBuilder.Overflow | examples/analyse_tree_onlyadcstamps.C:717-722 | after the guard the store holds at most MAXHITS hits; no event is treated and no counter moves, because the dropped hits stay accounted as placed; the store changes exactly when it held more than MAXHITS, and then it is empty with the entry's time as the event start |
| WindowBuilder.Place | examples/analyse_tree_onlyadcstamps.C:724-744 | a good entry ends up last in the open event, every event keeps the window, and one more hit is placed |
| WindowBuilder.Step | examples/analyse_tree_onlyadcstamps.C:666-754 | one entry keeps the window invariant and the counts, and only appends events |
| WindowBuilder.Run | examples/analyse_tree_onlyadcstamps.C:666-754 | every treated event is non-empty, holds only good entries, and has no hit later than its first hit + EVENT_WIDTH; events already treated are never changed |
| WindowBuilder.Finish | examples/analyse_tree_onlyadcstamps.C:756-757 | a non-empty tail is treated, leaving the store empty and the counts balanced |
| WindowBuilder.WindowDecision | examples/analyse_tree_onlyadcstamps.C:730-744 | a good entry later than first + EVENT_WIDTH closes the open event unchanged and opens one with itself; any other joins the open event |
| WindowBuilder.OverflowDrops | examples/analyse_tree_onlyadcstamps.C:717-722 | an overfull store is dropped without reaching treat_event, and the entry starts a fresh event |
| WindowBuilder.BadHitIgnored | examples/analyse_tree_onlyadcstamps.C:712-715 | bad entries never enter the store and are counted |
| WindowBuilder.EveryHitAccounted | examples/analyse_tree_onlyadcstamps.C:666-757 | at the end every entry is bad, in exactly one treated event, or dropped on overflow, and n_events counts the events |
| WindowBuilder.RunCounts | examples/analyse_tree_onlyadcstamps.C:666-754 | the counts stay balanced over any run of entries |
| WindowBuilder.PlaceAsWritten | examples/analyse_tree_onlyadcstamps.C:724-744 | as written: the entry ends up last in the store, one more hit is placed, the counts stay listed and events are only appended; unlike Place it does not keep the window (WindowBuilder.SentinelCounterexample) |
| WindowBuilder.StepAsWritten | examples/analyse_tree_onlyadcstamps.C:666-754 | as written: one entry keeps the counts balanced and only appends events |
| WindowBuilder.RunAsWritten | examples/analyse_tree_onlyadcstamps.C:666-754 | as written: every entry is counted and events are only appended; WindowBuilder.RunsAgree relates it to Run |
| WindowBuilder.StepsAgree | examples/analyse_tree_onlyadcstamps.C:724-744 | the loop body as written and the corrected one agree on any entry not stamped zero |
| WindowBuilder.RunsAgree | examples/analyse_tree_onlyadcstamps.C:666-754 | on a tree with no entry stamped zero the two build the same events |
| WindowBuilder.SentinelCounterexample | examples/analyse_tree_onlyadcstamps.C:724-729 | as written, an event opened at stamp 0 absorbs a later entry outside the window; the corrected loop closes it first |
| WindowBuilder.StepStartsEarliest | examples/analyse_tree_onlyadcstamps.C:724-744 | on entries in time order, one step keeps every hit of every event at or after the event's first hit |
| WindowBuilder.OrderedEventsSpanWindow | examples/analyse_tree_onlyadcstamps.C:724-744 | on a tree in time order no hit of an event is earlier than its first hit, so with Run's window every event lies in [first, first + EVENT_WIDTH] |
| Mapping.SignedDiff | examples/analyse_tree_onlyadcstamps.C:284 | the unsigned 64-bit difference read as a signed 64-bit value: in range and congruent to a - b |
| Mapping.Abs64 | examples/analyse_tree_onlyadcstamps.C:284 | the absolute value is negative only for the least signed value, and otherwise is x or -x |
| Mapping.CoincidentIsDistance | examples/analyse_tree_onlyadcstamps.C:284 | for stamps below 2^63 the coincidence test is -window < a - b < window |
| Mapping.FarStampsCoincide | examples/analyse_tree_onlyadcstamps.C:284 | stamps 2^63 apart pass the coincidence test for any positive window |
| Mapping.StubLookupFrom | examples/analyse_tree_onlyadcstamps.C:241-263 | a found channel is at that side and position of the channel tables |
| Mapping.StubLookup | examples/analyse_tree_onlyadcstamps.C:241-265 | a found channel is at that side and position of the channel tables |
| Mapping.StubTablesPartition | examples/analyse_tree_onlyadcstamps.C:98-101 | the four STUB tables partition channels 0..15: each channel below 16 is found at exactly its one side and position, and no other channel is found |
| Mapping.RecoilLookupFrom | examples/analyse_tree_onlyadcstamps.C:183-190 | a found channel is the Recoil E table entry of that detector |
| Mapping.RecoilLookup | examples/analyse_tree_onlyadcstamps.C:183-191 | det_no is in 1..4 and names the table entry of the channel |
| Mapping.RecoilChannels | examples/analyse_tree_onlyadcstamps.C:103 | only channels 4, 6, 13 and 15 are Recoil E detectors, numbered 1 to 4 |
| Mapping.Values | examples/analyse_tree_onlyadcstamps.C:193-206 | the conversion goes into the field of its data ID, and every other field stays -1 |
| Mapping.WithSlot | examples/analyse_tree_onlyadcstamps.C:290-376 | filling one slot of a STUB leaves its stamp, side and other slots unchanged |
| Mapping.MergeStubHit | examples/analyse_tree_onlyadcstamps.C:295-298 | merging sets only the value of the entry's data ID |
| Mapping.MergeGenHit | examples/analyse_tree_onlyadcstamps.C:218-221 | merging sets only the value of the entry's data ID |
| Mapping.FindStubFrom | examples/analyse_tree_onlyadcstamps.C:282-288 | the first STUB of the side within the coincidence window, or none when no STUB matches |
| Mapping.FindRecoilFrom | examples/analyse_tree_onlyadcstamps.C:209-216 | the first record of the detector at the same stamp, or none when no record matches |
| Mapping.PopulateStub | examples/analyse_tree_onlyadcstamps.C:233-379 | adds at most one STUB and never changes an existing STUB's stamp or side |
| Mapping.PopulateRecoil | examples/analyse_tree_onlyadcstamps.C:177-230 | adds at most one record and never changes an existing record's stamp or detector |
| Mapping.Route | examples/analyse_tree_onlyadcstamps.C:388-400 | module 0 entries only touch the STUBs, module 1 entries only the Recoil records |
| Mapping.DetectorMapping | examples/analyse_tree_onlyadcstamps.C:383-402 | the records of any event are well formed: every filled slot is of its STUB's side and within the window, no later STUB matches an earlier one, every det_no is in 1..4, and no two records of a detector share a stamp |
| Mapping.StubsKeepShape | examples/analyse_tree_onlyadcstamps.C:233-379 | populate_stub_array keeps the STUB invariants |
| Mapping.RecoilsKeepShape | examples/analyse_tree_onlyadcstamps.C:177-230 | populate_recoil_e_array keeps the Recoil invariants |
| Mapping.RouteKeepsWellFormed | examples/analyse_tree_onlyadcstamps.C:383-402 | one mapped entry keeps the records well formed |
| Mapping.StubAppendsIffNoMatch | examples/analyse_tree_onlyadcstamps.C:359-378 | a STUB-channel entry opens a new STUB exactly when no STUB of its side is within 50 ticks; the new STUB has the entry's stamp and side and only the entry's slot filled |
| Mapping.StubMergeSetsOneValue | examples/analyse_tree_onlyadcstamps.C:290-357 | an entry merging into a filled slot sets only its data ID's value; an unknown data ID changes nothing |
| Mapping.RecoilMergeOrAppend | examples/analyse_tree_onlyadcstamps.C:218-229 | a Recoil-channel entry is appended exactly when no record of its detector has its stamp, and otherwise sets one value of the first such record |
| Mapping.UnmappedIgnored | examples/analyse_tree_onlyadcstamps.C:383-402 | entries of other modules, and of channels off the tables, change nothing |
| Mapping.RecordsBounded | examples/analyse_tree_onlyadcstamps.C:383-402 | there are never more STUBs than module-0 entries, nor more Recoil records than module-1 entries |

## Left out

- ByteOrder.DecodingIsOrderTransparent and ByteOrder.WordsRecovered: order transparency is proved only for payloads whose first word with bits 63:60 or 31:28 set has 63:60 set and 31:28 clear. The detection at ISSBuffer.hh:100-113 guesses the half order from that one word, so other payloads can be read with the halves exchanged: a native writer's lone word 0x0000_0000_1000_0000 is read back as 0x1000_0000_0000_0000 (ByteOrder.MisleadingPayloadMisread, ByteOrder.MisreadExample).
- File and ROOT I/O:
  - `fopen`, `fseek`, `mmap` and `munmap` are replaced by the byte sequence they expose.
  - TTree/TFile writes are replaced by the growing row sequence.
  - Histograms, `fill_histograms`, progress and debug prints, and every `Show` method are side effects only.
- BlockFile.DetermineBlockSize: the source reads 8 bytes at every probed offset below `len` without checking that they exist. The model requires them to exist (`Readable`, `ProbeSafe`) instead of modelling an out-of-bounds read.
- Buffer.Set: the source reads the payload words the header declares without a bound check. The model requires them to lie within the block (`Readable`).
- BlockFile.NBlocks: GetNBlocks returns a UInt_t, so its truncation of counts of 2^32 blocks or more is not modelled.
- AdcBuilder.State: `global_adc_ts` and the hit stamp sum are unsigned 64-bit.
  - The accumulator is a natural number here; the 64-bit wrap of repeated rebases is not modelled.
  - The hit's stamp is cut to 64 bits, as `ISSHit::Set` stores it.
- WindowBuilder.Place: `first_adc_ts_in_event + EVENT_WIDTH` is an unsigned 64-bit sum, and the model computes it without wrap-around. Tree stamps are `global_adc_ts + last_adc8_ts` and grow past 2^48 with every rebase. But each rebase adds less than 2^48 + 250000. A stamp within 2500 ticks of 2^64 therefore needs at least 65535 rebases, and each rebase needs a new run file (AdcBuilder.RebasesOverFiles).
- Flush.Append: std::sort leaves equal-timestamp hits in an unspecified order. The builders fix that order with a stable insertion sort. `Flush.ProcessHits` states the flush properties for every order std::sort may produce, and `Hits.SortingsAgreeOnTimestamps` shows that the orders differ only among equal timestamps.
- AdcBuilder.AdcWordBuffers: states conservation only. The overflow sizes are the same as in TriggerBuilder.AdcWordBuffers and are not restated.
- The run-file name lists in the drivers are not modelled. `run_number` is an input: RunFiles increments it before each later file.
- Statistics counters have no effect on the rows written, so they are not modelled:
  - `n_word`, `n_info`, `n_adc`, `n_qlong`, `n_qshort`, `n_finetime`;
  - `first_adc8_ts`, `first_global_ts`, `new_global_ts`;
  - the `prev_*` diagnostics and `hStats`.
  - Only the counters the listed properties speak about are kept.
- `n_traces` is not modelled. In `make_tree_onlyadcstamps.C` it is bumped through `IsTrace()`, which ISSWord does not declare, so that script as given does not compile.
- `analyse_tree_onlyadcstamps.C` is modelled without its driver bookkeeping:
  - the out-of-order warnings (`errorcounter`, `prev_adc_ts`, `prev_event_ts`);
  - the data-ID count switch;
  - the progress indicator. It computes `i % fraction` with `fraction = n_entries / 100`, which divides by zero on a tree of fewer than 100 entries. It decides nothing else.
- Detector records (Mapping):
  - float fields are integers with -1 for "not set";
  - `recoil_de_hits` is cleared but never filled;
  - the records are handed to the histograms, which are left out.
- Timestamp.NewDecoder: the ISSWord constructor leaves `last_global_ts` and `last_adc_ts` uninitialised, so they are parameters.
- The debug print of the first 500 rows in `make_tree_onlyadcstamps.C` is left out. It only prints.
- The regression message of `make_tree_onlyadcstamps.C:128-131` is left out. Its call of `GetFullADCTimestamp` is modelled, because it updates the word's remembered ADC timestamp.
- `ISSWord::GetWord`, `GetKey`'s UShort_t return, `ISSHit::GetTrace` and the ISSFile getters are plain field reads. They are modelled as field access.

## Findings

| source | as written | input that shows it | evidently intended | confidence | as-written member | corrected member |
|---|---|---|---|---|---|---|
| ISSFile.hh:43 | the probe variable is a UInt_t, so `blocksize <<= 1` wraps 2^31 to 0 and the next probe reads offset 0, which always holds the identifier | a region of 2^31 + 8 bytes with the identifier only at offset 0 | ERR_BAD_BLOCK_SIZE; the code returns block size 0, and GetNBlocks then divides by zero | not executed | BlockFileAsWritten.BlockSizeWrapsToZero | BlockFile.DetermineBlockSize |
| ISSFile.hh:146 | `n * blocksize` is a 32-bit product, so block offsets wrap modulo 2^32 | a region of 2^32 + 64 KiB with 64 KiB blocks, block 65536 | offset 2^32; the code returns offset 0 | not executed | BlockFileAsWritten.GetBlockWraps | BlockFile.GetBlock |
| examples/analyse_tree_onlyadcstamps.C:724 | "no event open" is tested as `!first_adc_ts_in_event`, so an event opened by an entry stamped 0 looks closed | good entries stamped 0 and 3000 | the second entry, 3000 > 0 + 2500 ticks later, closes the first event; as written both share one event | not executed | WindowBuilder.SentinelCounterexample | WindowBuilder.Step |

=== FILE: adc_builder.dfy ===
/** ADC-only buffering (examples/make_tree_onlyadcstamps.C): hits are
    stamped with a run-continuous ADC timestamp, global_adc_ts +
    last_adc8_ts, and only written when the buffer overflows or at the end of
    the input. When the ADC clock goes backwards after a change of run file,
    global_adc_ts is advanced past the old clock so that the stamps keep
    increasing. */
module AdcBuilder {
  import opened Word
  import opened Timestamp
  import opened Hits
  import opened Flush
  import TriggerBuilder

  /** Ticks added on top of the old clock when the run changes. */
  const RunGap: nat := 250000

  /** The script's state. */
  datatype State = State(
    dec: Decoder,
    pending: seq<Hit>,
    out: seq<TreeEntry>,
    lastGlobalTs: nat,
    lastAdc8Ts: nat,
    globalAdcTs: nat,
    runNumber: nat,
    prevRunNumber: nat,
    processedHits: nat,
    ebisPulses: nat,
    globalTsCount: nat,
    adcTsCount: nat)

  /** The state before the first file. */
  function Init(lastGlobal: bv64, lastAdc: bv64): (s: State)
    ensures Inv(s) && s.pending == [] && s.out == [] && s.runNumber == 0
  {
    State(NewDecoder(0, lastGlobal, lastAdc), [], [], 0, 0, 0, 0, 0, 0, 0, 0, 0)
  }

  /** The buffer stays within MaxHits between words and holds hits with no
      trace, and the rebase counter never passes the run counter. */
  predicate Inv(s: State)
  {
    |s.pending| <= TriggerBuilder.MaxHits && Traceless(s.pending) && s.prevRunNumber <= s.runNumber
  }

  /** The stamp the next hit gets. */
  function AdjustedTs(s: State): nat
  {
    s.globalAdcTs + s.lastAdc8Ts
  }

  /** The driver's `run_number++` before each further file. */
  function NextFile(s: State): (r: State)
    requires Inv(s)
    ensures Inv(r) && r.runNumber == s.runNumber + 1
    ensures r.(runNumber := s.runNumber) == s
  {
    s.(runNumber := s.runNumber + 1)
  }

  /** process_hits(nhits, event_ts) on the state. */
  function Process(s: State, nhits: nat, eventTs: nat): (r: State)
    requires nhits <= |s.pending|
    ensures |r.pending| == |s.pending| - nhits
    ensures |r.out| == |s.out| + nhits && r.out[..|s.out|] == s.out
    ensures Written(r.out[|s.out|..], r.pending, eventTs)
    ensures Traceless(s.pending) ==> Traceless(r.pending)
    ensures Traceless(s.pending) ==>
      (multiset(Stripped(r.out)) + multiset(r.pending) == multiset(Stripped(s.out)) + multiset(s.pending))
    ensures r.(pending := s.pending, out := s.out, processedHits := s.processedHits) == s
  {
    var f := Append(s.pending, s.out, nhits, eventTs);
    s.(pending := f.remaining, out := f.emitted, processedHits := s.processedHits + nhits)
  }

  /** Whether an ADC extended-timestamp value t triggers the run-change rebase. */
  predicate Regresses(s: State, t: nat)
  {
    s.lastAdc8Ts != 0 && s.lastAdc8Ts > t && s.runNumber > s.prevRunNumber
  }

  /** The global-clock branch: the regression test (only printed; the print
      also reads the word's ADC timestamp) and the update of last_global_ts. */
  function GlobalUpdate(s: State): (r: State)
    ensures r.pending == s.pending && r.out == s.out
    ensures r.globalAdcTs == s.globalAdcTs && r.lastAdc8Ts == s.lastAdc8Ts
    ensures r.runNumber == s.runNumber && r.prevRunNumber == s.prevRunNumber
  {
    var d :=
      if s.lastGlobalTs != 0 then
        var probe := FullGlobalTimestamp(s.dec);
        if (probe.ts as nat) < s.lastGlobalTs then FullAdcTimestamp(probe.dec).dec else probe.dec
      else s.dec;
    var st := FullGlobalTimestamp(d);
    s.(dec := st.dec, lastGlobalTs := st.ts as nat, ebisPulses := s.ebisPulses + 1,
       globalTsCount := s.globalTsCount + 1)
  }

  /** The ADC-clock branch: the rebase on a backward jump after a run change,
      then the update of last_adc8_ts. */
  function AdcUpdate(s: State): (r: State)
    ensures r.pending == s.pending && r.out == s.out && r.runNumber == s.runNumber
  {
    var probe := FullAdcTimestamp(s.dec);
    var s1 :=
      if Regresses(s, probe.ts as nat) then
        s.(dec := probe.dec, globalAdcTs := s.globalAdcTs + s.lastAdc8Ts + RunGap,
           prevRunNumber := s.prevRunNumber + 1)
      else s.(dec := probe.dec);
    var st := FullAdcTimestamp(s1.dec);
    s1.(dec := st.dec, lastAdc8Ts := st.ts as nat, adcTsCount := s1.adcTsCount + 1)
  }

  /** treat_word, on a state whose decoder already holds the word. */
  function TreatWord(s: State): (r: State)
    requires Inv(s)
    ensures Inv(r)
  {
    var w := s.dec.word;
    if IsInfo(w) then
      if InfoModule(w) == TriggerBuilder.V1730Module then s
      else if InfoModule(w) == TriggerBuilder.EbisModule then
        if HasExtendedTimestamp(w) then GlobalUpdate(s) else s
      else if HasExtendedTimestamp(w) then AdcUpdate(s)
      else s
    else if IsAdc(w) then
      if AdcModule(w) == TriggerBuilder.V1730Module then s else Buffer(s, w)
    else s
  }

  /** The ADC branch: buffer the hit, and write the earliest half of the
      buffer when it overflows. */
  function Buffer(s: State, w: bv64): (r: State)
    requires Inv(s) && IsAdc(w)
    ensures Inv(r)
  {
    var s1 := s.(pending := s.pending + [TriggerBuilder.AdcHit(w, AdjustedTs(s))]);
    if |s1.pending| > TriggerBuilder.MaxHits then Process(s1, TriggerBuilder.MaxHits / 2, s1.lastGlobalTs)
    else s1
  }

  /** One word: ISSWord::Set, then treat_word. */
  function Step(s: State, w: bv64): (r: State)
    requires Inv(s)
    ensures Inv(r) && r.runNumber == s.runNumber
  {
    TreatWord(s.(dec := Latch(s.dec, w)))
  }

  /** The words of one file in order. */
  function Run(s: State, ws: seq<bv64>): (r: State)
    requires Inv(s)
    ensures Inv(r) && r.runNumber == s.runNumber
    decreases |ws|
  {
    if ws == [] then s else Run(Step(s, ws[0]), ws[1..])
  }

  /** Several files: the first as is, each later one after run_number++. */
  function RunFiles(s: State, files: seq<seq<bv64>>): (r: State)
    requires Inv(s)
    ensures Inv(r)
    decreases |files|
  {
    if files == [] then s
    else
      var s1 := Run(s, files[0]);
      if |files| == 1 then s1 else RunFiles(NextFile(s1), files[1..])
  }

  /** The flush of whatever is left at the end of the input. */
  function Finish(s: State): (r: State)
    requires Inv(s)
    ensures r.pending == []
    ensures |r.out| == |s.out| + |s.pending| && r.out[..|s.out|] == s.out
    ensures Written(r.out[|s.out|..], [], s.lastGlobalTs)
    ensures multiset(Stripped(r.out)) == multiset(Stripped(s.out)) + multiset(s.pending)
  {
    if |s.pending| > 0 then FinalFlush(s) else assert s.out[|s.out|..] == []; s
  }

  /** The final flush proper: all of a non-empty buffer. */
  function FinalFlush(s: State): (r: State)
    requires Inv(s) && |s.pending| > 0
    ensures r.pending == []
    ensures |r.out| == |s.out| + |s.pending| && r.out[..|s.out|] == s.out
    ensures Written(r.out[|s.out|..], [], s.lastGlobalTs)
    ensures multiset(Stripped(r.out)) == multiset(Stripped(s.out)) + multiset(s.pending)
  {
    var r := Process(s, |s.pending|, s.lastGlobalTs);
    assert multiset(r.pending) == multiset{};
    r
  }

  // ---------------------------------------------------------------------------
  // Properties.

  /** The rebase: an extended ADC timestamp older than the last one, after a
      run change not yet accounted for, advances global_adc_ts by the old
      clock plus the gap and accounts for one run change; otherwise neither
      moves. Either way last_adc8_ts becomes the word's own timestamp. */
  lemma Rebase(s: State, w: bv64)
    requires Inv(s)
    requires HasExtendedTimestamp(w) && InfoModule(w) != TriggerBuilder.EbisModule
    requires InfoModule(w) != TriggerBuilder.V1730Module
    ensures var t := Compose(FieldBits(w), w) as nat;
      var r := Step(s, w);
      r.lastAdc8Ts == t
      && (Regresses(s, t) ==>
            r.globalAdcTs == s.globalAdcTs + s.lastAdc8Ts + RunGap && r.prevRunNumber == s.prevRunNumber + 1)
      && (!Regresses(s, t) ==> r.globalAdcTs == s.globalAdcTs && r.prevRunNumber == s.prevRunNumber)
      && r.pending == s.pending && r.out == s.out
  {
    var d := Latch(s.dec, w);
    ExtendedWordStamp(s.dec, w);
    var probe := FullAdcTimestamp(d);
    assert probe.dec.word == w;
    assert FullAdcTimestamp(probe.dec).ts == probe.ts;
  }

  /** After a rebase the next hit's stamp is later than every stamp before it
      could have been: it exceeds the last pre-rebase stamp by more than the gap. */
  lemma RebaseKeepsStampsIncreasing(s: State, w: bv64)
    requires Inv(s)
    requires HasExtendedTimestamp(w) && InfoModule(w) != TriggerBuilder.EbisModule
    requires InfoModule(w) != TriggerBuilder.V1730Module
    requires Regresses(s, Compose(FieldBits(w), w) as nat)
    ensures AdjustedTs(Step(s, w)) >= AdjustedTs(s) + RunGap
  {
    Rebase(s, w);
  }

  /** A global-clock word updates last_global_ts and never writes or drops
      hits: this script does not build trigger-bounded events. */
  lemma GlobalWordDoesNotFlush(s: State, w: bv64)
    requires Inv(s)
    requires IsInfo(w) && InfoModule(w) == TriggerBuilder.EbisModule
    ensures Step(s, w).pending == s.pending && Step(s, w).out == s.out
    ensures HasExtendedTimestamp(w) ==> Step(s, w).lastGlobalTs == Compose(FieldBits(w), w) as nat
    ensures !HasExtendedTimestamp(w) ==> Step(s, w).lastGlobalTs == s.lastGlobalTs
    ensures Step(s, w).globalAdcTs == s.globalAdcTs && Step(s, w).prevRunNumber == s.prevRunNumber
  {
    if HasExtendedTimestamp(w) {
      var d := Latch(s.dec, w);
      ExtendedWordStamp(s.dec, w);
      var probe := FullGlobalTimestamp(d);
      assert probe.dec.word == w;
      assert FullGlobalTimestamp(probe.dec).ts == probe.ts;
      assert FullGlobalTimestamp(FullAdcTimestamp(probe.dec).dec).ts == probe.ts;
    }
  }

  /** Module-2 words change nothing but the decoder's current word. */
  lemma V1730Ignored(s: State, w: bv64)
    requires Inv(s)
    requires (IsInfo(w) && InfoModule(w) == TriggerBuilder.V1730Module)
          || (IsAdc(w) && AdcModule(w) == TriggerBuilder.V1730Module)
    ensures Step(s, w) == s.(dec := Latch(s.dec, w))
  {
  }

  /** An accepted ADC word buffers one hit stamped global_adc_ts +
      last_adc8_ts, cut to 64 bits as the unsigned sum is; when the buffer
      then exceeds MaxHits, the MaxHits/2 earliest hits are written. Either
      way no hit is lost. */
  lemma AdcWordBuffers(s: State, w: bv64)
    requires Inv(s) && TriggerBuilder.Accepted(w)
    ensures TriggerBuilder.AdcHit(w, AdjustedTs(s)).ts == AdjustedTs(s) % ULong
    ensures var h := TriggerBuilder.AdcHit(w, AdjustedTs(s));
      multiset(Stripped(Step(s, w).out)) + multiset(Step(s, w).pending)
      == multiset(Stripped(s.out)) + multiset(s.pending) + multiset{h}
  {
    var s1 := s.(dec := Latch(s.dec, w));
    AdcStep(s, w);
    BufferConserves(s1, w);
    assert AdjustedTs(s1) == AdjustedTs(s) && s1.out == s.out && s1.pending == s.pending;
    var r := Buffer(s1, w);
    assert Step(s, w) == r;
  }

  /** Buffer keeps every hit, the new one included. */
  lemma BufferConserves(s: State, w: bv64)
    requires Inv(s) && IsAdc(w)
    ensures multiset(Stripped(Buffer(s, w).out)) + multiset(Buffer(s, w).pending)
      == multiset(Stripped(s.out)) + multiset(s.pending) + multiset{TriggerBuilder.AdcHit(w, AdjustedTs(s))}
  {
    var h := TriggerBuilder.AdcHit(w, AdjustedTs(s));
    var s1 := s.(pending := s.pending + [h]);
    assert multiset(s1.pending) == multiset(s.pending) + multiset{h};
    assert Traceless(s1.pending);
  }

  /** The shape of a step on an accepted ADC word. */
  lemma AdcStep(s: State, w: bv64)
    requires Inv(s) && TriggerBuilder.Accepted(w)
    ensures Step(s, w) == Buffer(s.(dec := Latch(s.dec, w)), w)
  {
    KeysPartition(w);
    var s1 := s.(dec := Latch(s.dec, w));
    assert s1.dec.word == w && !IsInfo(w);
  }

  /** Within one file the rebase fires at most as often as the run counter is
      ahead of the rebase counter: once per run change at most. */
  lemma {:induction false} RebasesBoundedByRunChanges(s: State, ws: seq<bv64>)
    requires Inv(s)
    ensures Run(s, ws).runNumber == s.runNumber
    ensures s.prevRunNumber <= Run(s, ws).prevRunNumber <= s.runNumber
    decreases |ws|
  {
    if ws != [] {
      StepKeepsRun(s, ws[0]);
      RebasesBoundedByRunChanges(Step(s, ws[0]), ws[1..]);
    }
  }

  /** One word never changes the run counter and never lowers the rebase counter. */
  lemma StepKeepsRun(s: State, w: bv64)
    requires Inv(s)
    ensures Step(s, w).runNumber == s.runNumber
    ensures s.prevRunNumber <= Step(s, w).prevRunNumber <= s.prevRunNumber + 1
  {
  }

  /** Over all files the rebase fires at most once per run change. */
  lemma {:induction false} RebasesOverFiles(s: State, files: seq<seq<bv64>>)
    requires Inv(s)
    ensures RunFiles(s, files).prevRunNumber - s.prevRunNumber
         <= s.runNumber - s.prevRunNumber + (if files == [] then 0 else |files| - 1)
    ensures RunFiles(s, files).runNumber == s.runNumber + (if files == [] then 0 else |files| - 1)
    decreases |files|
  {
    if files != [] {
      RebasesBoundedByRunChanges(s, files[0]);
      if |files| > 1 {
        RebasesOverFiles(NextFile(Run(s, files[0])), files[1..]);
      }
    }
  }

  /** Every hit is written exactly once: a run followed by the final flush
      writes as many rows as it accepted words, and leaves nothing behind. */
  lemma {:induction false} EveryHitWrittenOnce(s: State, ws: seq<bv64>)
    requires Inv(s) && s.pending == [] && s.out == []
    ensures Finish(Run(s, ws)).pending == []
    ensures |Finish(Run(s, ws)).out| == TriggerBuilder.AcceptedCount(ws)
  {
    RunConserves(s, ws);
  }

  lemma {:induction false} RunConserves(s: State, ws: seq<bv64>)
    requires Inv(s)
    ensures |Run(s, ws).out| + |Run(s, ws).pending| == |s.out| + |s.pending| + TriggerBuilder.AcceptedCount(ws)
    decreases |ws|
  {
    if ws != [] {
      StepConserves(s, ws[0]);
      RunConserves(Step(s, ws[0]), ws[1..]);
    }
  }

  lemma StepConserves(s: State, w: bv64)
    requires Inv(s)
    ensures |Step(s, w).out| + |Step(s, w).pending| == |s.out| + |s.pending| + (if TriggerBuilder.Accepted(w) then 1 else 0)
  {
  }
}

=== FILE: blockfile.dfy ===
/** The file as a sequence of fixed-size blocks (ISSFile.hh). The memory
    mapping is replaced by the byte sequence it would expose. */
module BlockFile {
  import opened Wrappers
  import opened Header

  /** The errors DetermineBlockSize throws. */
  datatype FileError =
    | BadFile       // ERR_BAD_FILE: offset 0 does not hold "EBYEDATA"
    | BadBlockSize  // ERR_BAD_BLOCK_SIZE: no probed size holds "EBYEDATA"

  /** The error code the source throws for each error. */
  function ErrorCode(e: FileError): (code: int)
    ensures code < 0
    ensures e == BadFile <==> code == -3
    ensures e == BadBlockSize <==> code == -4
  {
    match e
    case BadFile => -3
    case BadBlockSize => -4
  }

  /** An opened file: the mapped bytes (whose length is `len`) and the block size. */
  datatype BlockFile = BlockFile(data: seq<bv8>, blocksize: nat)

  /** 2^k. */
  function Pow2(k: nat): (r: nat)
    ensures r >= 1
  {
    if k == 0 then 1 else 2 * Pow2(k - 1)
  }

  /** n is a power of two. */
  predicate IsPow2(n: nat)
  {
    n == 1 || (n >= 2 && n % 2 == 0 && IsPow2(n / 2))
  }

  /** The k-th block size the probe loop tries: 256, 512, 1024, ... */
  function Candidate(k: nat): (c: nat)
    ensures c >= 256
  {
    256 * Pow2(k)
  }

  lemma {:induction false} Pow2IsPow2(k: nat)
    ensures IsPow2(Pow2(k))
  {
    if k > 0 {
      Pow2IsPow2(k - 1);
      assert Pow2(k) / 2 == Pow2(k - 1);
    }
  }

  lemma CandidateIsPow2(k: nat)
    ensures IsPow2(Candidate(k))
  {
    Pow2IsPow2(k + 8);
    Pow2Shift(k);
  }

  lemma {:induction false} Pow2Shift(k: nat)
    ensures Pow2(k + 8) == 256 * Pow2(k)
  {
    if k > 0 {
      Pow2Shift(k - 1);
    } else {
      assert Pow2(2) == 4;
      assert Pow2(4) == 16;
      assert Pow2(6) == 64;
    }
  }

  /** Every read the probe loop makes from candidate k on stays within the
      region: the source reads 8 bytes at each candidate below `len` without
      checking that they exist. */
  predicate ProbeSafe(data: seq<bv8>, k: nat)
    decreases |data| - Candidate(k)
  {
    Candidate(k) >= |data|
    || (Candidate(k) + 8 <= |data|
        && (MagicAt(data, Candidate(k)) || ProbeSafe(data, k + 1)))
  }

  /** What DetermineBlockSize needs of the region: the first identifier can be
      read, and when it is valid, so can every probed one. */
  predicate Readable(data: seq<bv8>)
  {
    |data| >= 8 && (MagicAt(data, 0) ==> ProbeSafe(data, 0))
  }

  /** The probe loop from candidate k on: the first candidate below `len` that
      holds the identifier. */
  function Probe(data: seq<bv8>, k: nat): (r: Result<nat, FileError>)
    requires ProbeSafe(data, k)
    decreases |data| - Candidate(k)
    ensures r.Ok? ==> exists j :: k <= j && r.value == Candidate(j)
    ensures r.Ok? ==> r.value + 8 <= |data| && MagicAt(data, r.value)
    ensures r.Ok? ==> forall j :: k <= j && Candidate(j) < r.value ==>
      Candidate(j) + 8 <= |data| && !MagicAt(data, Candidate(j))
    ensures r.Err? ==> r.error == BadBlockSize
    ensures r.Err? ==> forall j :: k <= j && Candidate(j) < |data| ==>
      Candidate(j) + 8 <= |data| && !MagicAt(data, Candidate(j))
  {
    if Candidate(k) >= |data| then
      CandidatesGrow(k);
      Err(BadBlockSize)
    else if MagicAt(data, Candidate(k)) then
      CandidatesGrow(k);
      Ok(Candidate(k))
    else
      Probe(data, k + 1)
  }

  /** Candidates strictly increase with their index. */
  lemma CandidatesGrow(k: nat)
    ensures forall j :: k < j ==> Candidate(k) < Candidate(j)
  {
    forall j | k < j
      ensures Candidate(k) < Candidate(j)
    {
      Pow2Monotone(k, j);
    }
  }

  lemma {:induction false} Pow2Monotone(i: nat, j: nat)
    requires i < j
    ensures Pow2(i) < Pow2(j)
    decreases j
  {
    if i < j - 1 {
      Pow2Monotone(i, j - 1);
    }
  }

  /** Validates the first identifier and finds the block size: the first
      probed power of two (from 256, below `len`) whose offset holds the
      identifier. */
  function DetermineBlockSize(data: seq<bv8>): (r: Result<nat, FileError>)
    requires Readable(data)
    ensures !MagicAt(data, 0) <==> r == Err(BadFile)
    ensures r.Ok? ==> IsPow2(r.value) && 256 <= r.value && r.value + 8 <= |data|
    ensures r.Ok? ==> MagicAt(data, r.value)
    ensures r.Ok? ==> forall j :: Candidate(j) < r.value ==>
      Candidate(j) + 8 <= |data| && !MagicAt(data, Candidate(j))
    ensures r == Err(BadBlockSize) <==> MagicAt(data, 0) && forall j :: Candidate(j) < |data| ==>
      Candidate(j) + 8 <= |data| && !MagicAt(data, Candidate(j))
  {
    if !MagicAt(data, 0) then Err(BadFile)
    else
      ProbeFindsPow2(data);
      Probe(data, 0)
  }

  lemma ProbeFindsPow2(data: seq<bv8>)
    requires ProbeSafe(data, 0)
    ensures Probe(data, 0).Ok? ==> IsPow2(Probe(data, 0).value)
  {
    var r := Probe(data, 0);
    if r.Ok? {
      var j :| 0 <= j && r.value == Candidate(j);
      CandidateIsPow2(j);
    }
  }

  /** Opens a region: on success the file holds the region and its block size. */
  function Open(data: seq<bv8>): (r: Result<BlockFile, FileError>)
    requires Readable(data)
    ensures r.Ok? <==> DetermineBlockSize(data).Ok?
    ensures r.Ok? ==> r.value.data == data && r.value.blocksize == DetermineBlockSize(data).value
    ensures r.Ok? ==> ValidFile(r.value)
    ensures r.Err? ==> r.error == DetermineBlockSize(data).error
  {
    match DetermineBlockSize(data)
    case Ok(bs) => Ok(BlockFile(data, bs))
    case Err(e) => Err(e)
  }

  /** The invariant of an opened file. */
  predicate ValidFile(f: BlockFile)
  {
    && IsPow2(f.blocksize) && 256 <= f.blocksize && f.blocksize + 8 <= |f.data|
    && MagicAt(f.data, 0) && MagicAt(f.data, f.blocksize)
  }

  /** Closing forgets the region: size and block size become 0. */
  function Close(f: BlockFile): (r: BlockFile)
    ensures FileSize(r) == 0 && r.blocksize == 0
  {
    BlockFile([], 0)
  }

  /** GetFileSize: the length of the mapped region. */
  function FileSize(f: BlockFile): nat
  {
    |f.data|
  }

  /** GetNBlocks: the number of whole blocks in the region. */
  function NBlocks(f: BlockFile): (n: nat)
    requires f.blocksize > 0
    ensures n * f.blocksize <= |f.data| < (n + 1) * f.blocksize
  {
    |f.data| / f.blocksize
  }

  /** GetBlock: the offset of block n, or None past the last whole block. */
  function GetBlock(f: BlockFile, n: nat): (r: Option<nat>)
    requires f.blocksize > 0
    ensures r.Some? <==> n < NBlocks(f)
    ensures r.Some? ==> r.value == n * f.blocksize && r.value + f.blocksize <= |f.data|
  {
    if n >= |f.data| / f.blocksize then None
    else
      BlockFits(n, NBlocks(f), f.blocksize);
      Some(n * f.blocksize)
  }

  lemma BlockFits(n: nat, count: nat, bs: nat)
    requires n < count
    ensures n * bs + bs <= count * bs
  {
    assert (count - n) * bs >= bs by {
      assert count - n >= 1;
    }
  }

  /** The bytes from the start of block n to the end of the region (the
      source hands out a pointer into the whole mapping). */
  function BlockBytes(f: BlockFile, n: nat): (r: Option<seq<bv8>>)
    requires f.blocksize > 0
    ensures r.Some? <==> n < NBlocks(f)
    ensures r.Some? ==> |r.value| >= f.blocksize && r.value == f.data[n * f.blocksize..]
  {
    match GetBlock(f, n)
    case None => None
    case Some(off) => Some(f.data[off..])
  }
}

/** The block-size probe and block addressing as the 32-bit code computes
    them, and where that departs from the unbounded definitions above. */
module BlockFileAsWritten {
  import opened Wrappers
  import opened Header
  import opened BlockFile

  const TwoTo32: nat := 0x1_0000_0000

  lemma CandidateAt24()
    ensures Candidate(24) == TwoTo32
    ensures Candidate(23) == TwoTo32 / 2
  {
    assert Pow2(4) == 16;
    assert Pow2(8) == 256;
    assert Pow2(12) == 4096;
    assert Pow2(16) == 65536;
    assert Pow2(20) == 1048576;
    assert Pow2(23) == 8388608;
  }

  /** The value of the UInt_t probe variable at step k: `blocksize <<= 1`
      wraps 2^31 to 0. */
  function WrappedCandidate(k: nat): (c: nat)
    requires k <= 24
    ensures c < TwoTo32
    ensures k < 24 ==> c == Candidate(k)
    ensures k == 24 ==> c == 0
  {
    CandidateAt24();
    CandidatesGrow(k);
    Candidate(k) % TwoTo32
  }

  /** The probe loop with the 32-bit variable. Step 24 probes offset 0,
      which holds the identifier, so the loop always ends there. */
  function ProbeAsWritten(data: seq<bv8>, k: nat): (r: Result<nat, FileError>)
    requires k <= 24 && |data| >= 8 && MagicAt(data, 0)
    requires k < 24 ==> ProbeSafe(data, k)
    ensures r.Err? ==> r.error == BadBlockSize
    ensures r.Ok? ==> r.value < TwoTo32 && r.value + 8 <= |data| && MagicAt(data, r.value)
    ensures r.Ok? ==> r.value == 0 || exists j :: k <= j < 24 && r.value == Candidate(j)
    decreases 24 - k
  {
    var c := WrappedCandidate(k);
    if c >= |data| then Err(BadBlockSize)
    else if MagicAt(data, c) then Ok(c)
    else ProbeAsWritten(data, k + 1)
  }

  /** DetermineBlockSize as the 32-bit code runs it. */
  function DetermineBlockSizeAsWritten(data: seq<bv8>): (r: Result<nat, FileError>)
    requires Readable(data)
    ensures !MagicAt(data, 0) <==> r == Err(BadFile)
    ensures r.Ok? ==> r.value < TwoTo32 && r.value + 8 <= |data| && MagicAt(data, r.value)
  {
    if !MagicAt(data, 0) then Err(BadFile) else ProbeAsWritten(data, 0)
  }

  /** From step k on, the 32-bit probe either agrees with the unbounded one
      or reports block size 0; it agrees whenever the region is at most
      2^31 bytes long. */
  lemma {:induction false} ProbeAsWrittenVersusIntended(data: seq<bv8>, k: nat)
    requires k <= 24 && |data| >= 8 && MagicAt(data, 0)
    requires ProbeSafe(data, k)
    ensures ProbeAsWritten(data, k) == Probe(data, k) || ProbeAsWritten(data, k) == Ok(0)
    ensures |data| <= TwoTo32 / 2 && k < 24 ==> ProbeAsWritten(data, k) == Probe(data, k)
    decreases 24 - k
  {
    CandidateAt24();
    CandidatesGrow(k);
    if k < 24 && Candidate(k) < |data| && !MagicAt(data, Candidate(k)) {
      ProbeAsWrittenVersusIntended(data, k + 1);
    }
  }

  /** The 32-bit DetermineBlockSize departs from the intended one only by
      returning block size 0, and not at all for regions up to 2^31 bytes. */
  lemma BlockSizeAsWrittenVersusIntended(data: seq<bv8>)
    requires Readable(data)
    ensures DetermineBlockSizeAsWritten(data) == DetermineBlockSize(data)
      || DetermineBlockSizeAsWritten(data) == Ok(0)
    ensures |data| <= TwoTo32 / 2 ==> DetermineBlockSizeAsWritten(data) == DetermineBlockSize(data)
  {
    if MagicAt(data, 0) {
      ProbeAsWrittenVersusIntended(data, 0);
    }
  }

  /** A region of 2^31 + 8 bytes holding the identifier only at offset 0. */
  function LoneHeaderRegion(): (data: seq<bv8>)
    ensures |data| == TwoTo32 / 2 + 8
  {
    Magic + seq(TwoTo32 / 2, i => 0)
  }

  /** A region whose only identifier is at offset 0 and whose other bytes are 0. */
  predicate LoneHeader(data: seq<bv8>)
  {
    |data| == TwoTo32 / 2 + 8 && data[0..8] == Magic
    && forall i :: 8 <= i < |data| ==> data[i] == 0
  }

  lemma {:induction false} LoneHeaderProbe(data: seq<bv8>, k: nat)
    requires k <= 24 && LoneHeader(data)
    ensures ProbeSafe(data, k)
    ensures Probe(data, k) == Err(BadBlockSize)
    ensures ProbeAsWritten(data, k) == Ok(0)
    decreases 24 - k
  {
    CandidateAt24();
    CandidatesGrow(k);
    if k < 24 {
      var c := Candidate(k);
      assert c <= TwoTo32 / 2 by {
        if k < 23 { CandidatesGrow(k); }
      }
      assert data[c..c + 8][0] == data[c] == 0;
      assert !MagicAt(data, c);
      LoneHeaderProbe(data, k + 1);
    }
  }

  /** Counterexample: a region longer than 2^31 bytes with no second header.
      The intended result is ERR_BAD_BLOCK_SIZE; the 32-bit loop wraps its
      probe to offset 0 and reports block size 0, after which GetNBlocks
      divides by zero. */
  lemma BlockSizeWrapsToZero()
    ensures Readable(LoneHeaderRegion())
    ensures DetermineBlockSize(LoneHeaderRegion()) == Err(BadBlockSize)
    ensures DetermineBlockSizeAsWritten(LoneHeaderRegion()) == Ok(0)
  {
    var data := LoneHeaderRegion();
    assert LoneHeader(data) by {
      assert data[0..8] == Magic;
      forall i | 8 <= i < |data|
        ensures data[i] == 0
      {
        assert data[i] == seq(TwoTo32 / 2, i => 0 as bv8)[i - 8];
      }
    }
    LoneHeaderProbe(data, 0);
  }

  /** GetBlock as the 32-bit code computes it: `n * blocksize` is a UInt_t
      product, so it wraps modulo 2^32. */
  function GetBlockAsWritten(f: BlockFile, n: nat): (r: Option<nat>)
    requires 0 < f.blocksize < TwoTo32 && n < TwoTo32
    ensures r.Some? <==> n < NBlocks(f)
    ensures r.Some? ==> r.value < TwoTo32 && r.value <= n * f.blocksize
  {
    if n >= |f.data| / f.blocksize then None else Some((n * f.blocksize) % TwoTo32)
  }

  /** The 32-bit GetBlock agrees with the intended one exactly when the
      block's offset is below 4 GiB. */
  lemma GetBlockAsWrittenVersusIntended(f: BlockFile, n: nat)
    requires 0 < f.blocksize < TwoTo32 && n < TwoTo32
    ensures GetBlockAsWritten(f, n).Some? == GetBlock(f, n).Some?
    ensures GetBlock(f, n).Some? ==>
      (GetBlockAsWritten(f, n) == GetBlock(f, n) <==> n * f.blocksize < TwoTo32)
  {
  }

  /** Counterexample: in a 4 GiB + 64 KiB region with 64 KiB blocks, block
      65536 starts at offset 2^32, but the 32-bit product sends it to offset 0. */
  lemma GetBlockWraps()
    ensures GetBlock(BlockFile(seq(TwoTo32 + 65536, i => 0), 65536), 65536) == Some(TwoTo32)
    ensures GetBlockAsWritten(BlockFile(seq(TwoTo32 + 65536, i => 0), 65536), 65536) == Some(0)
  {
    var f := BlockFile(seq(TwoTo32 + 65536, i => 0), 65536);
    assert |f.data| / f.blocksize == 65537;
  }
}

=== FILE: buffer.dfy ===
/** One block viewed as header plus 64-bit payload words, with the byte and
    32-bit-word order of the payload inferred once per file (ISSBuffer.hh). */
module Buffer {
  import opened Wrappers
  import opened Bytes
  import opened Swap
  import opened Header

  /** The error Set throws: ERR_BAD_HEADER (-1), the block does not start with "EBYEDATA". */
  datatype BufferError = BadHeader

  /** The swapping mode flags SWAP_KNOWN (1), SWAP_WORDS (2) and SWAP_ENDIAN (4). */
  datatype SwapMode = SwapMode(known: bool, words: bool, endian: bool)

  /** The mode the constructor starts from (swap = 0). */
  const NoSwap := SwapMode(false, false, false)

  /** The integer the source keeps in `swap`. */
  function ModeBits(m: SwapMode): (bits: nat)
    ensures bits < 8
    ensures (bits % 2 == 1) == m.known && ((bits / 2) % 2 == 1) == m.words && (bits / 4 == 1) == m.endian
  {
    (if m.known then 1 else 0) + (if m.words then 2 else 0) + (if m.endian then 4 else 0)
  }

  /** A buffer: the attached block (the bytes from its start to the end of the
      mapping, or None for a null pointer), its word count and the swap mode. */
  datatype Buffer = Buffer(block: Option<seq<bv8>>, nwords: nat, swap: SwapMode)

  /** Every payload word the buffer hands out lies within the block bytes. */
  predicate Valid(b: Buffer)
  {
    match b.block
    case None => b.nwords == 0
    case Some(bytes) => HeaderSize + 8 * b.nwords <= |bytes|
  }

  /** The number of 64-bit payload words: dataLen, byte-swapped when the header
      itself is not in native order, divided by 8. */
  function WordCount(h: DataHeader): nat
  {
    WholeWords(if h.myEndian == 1 then h.dataLen else Swap32(h.dataLen))
  }

  /** The number of whole 64-bit words in a byte length. */
  function WholeWords(len: bv32): nat
  {
    len as nat / 8
  }

  /** What Set reads of a block: the header, and, when it is valid, the
      payload words it declares (the source reads them without a bound check). */
  predicate Readable(bytes: seq<bv8>)
  {
    |bytes| >= HeaderSize
    && (MagicAt(bytes, 0) ==> HeaderSize + 8 * WordCount(Parse(bytes)) <= |bytes|)
  }

  /** Payload word i, read in native byte order. */
  function RawWord(bytes: seq<bv8>, i: nat): bv64
    requires HeaderSize + 8 * i + 8 <= |bytes|
  {
    LeU64(bytes, HeaderSize + 8 * i)
  }

  /** A payload word after the byte-order correction the detection loop applies. */
  function EndianCorrected(endian: bool, w: bv64): bv64
  {
    if endian then Swap64(w) else w
  }

  /** Bits 63:60 of a word are set. */
  predicate TopNibble(w: bv64)
  {
    w & 0xF000000000000000 != 0
  }

  /** Bits 31:28 of a word are set. */
  predicate LowNibble(w: bv64)
  {
    w & 0x00000000F0000000 != 0
  }

  /** A word that settles the swap mode: one of the two nibbles is set. */
  predicate Marked(w: bv64)
  {
    TopNibble(w) || LowNibble(w)
  }

  /** The corrected payload word i is marked. */
  predicate MarkedAt(bytes: seq<bv8>, endian: bool, i: nat)
    requires HeaderSize + 8 * i + 8 <= |bytes|
  {
    Marked(EndianCorrected(endian, RawWord(bytes, i)))
  }

  /** Word f is the first marked word at or after i. */
  predicate FirstMarkedFrom(bytes: seq<bv8>, n: nat, endian: bool, i: nat, f: nat)
    requires HeaderSize + 8 * n <= |bytes|
  {
    i <= f < n && MarkedAt(bytes, endian, f)
    && forall j :: i <= j < f ==> !MarkedAt(bytes, endian, j)
  }

  /** The first marked word at or after i has bits 63:60 clear, so its
      32-bit halves must be exchanged. */
  predicate DecidesWordSwap(bytes: seq<bv8>, n: nat, endian: bool, i: nat)
    requires HeaderSize + 8 * n <= |bytes|
  {
    exists f :: i <= f < n && FirstMarkedFrom(bytes, n, endian, i, f) && !TopNibble(EndianCorrected(endian, RawWord(bytes, f)))
  }

  /** The detection loop from word i on: the first marked word decides. */
  function Scan(bytes: seq<bv8>, n: nat, mode: SwapMode, i: nat): (r: SwapMode)
    requires HeaderSize + 8 * n <= |bytes|
    decreases n - i
    ensures r.endian == mode.endian
    ensures r.known <==> mode.known || exists j :: i <= j < n && MarkedAt(bytes, mode.endian, j)
    ensures r.words <==> mode.words || DecidesWordSwap(bytes, n, mode.endian, i)
  {
    if i >= n then mode
    else
      var w := EndianCorrected(mode.endian, RawWord(bytes, i));
      if TopNibble(w) then
        assert FirstMarkedFrom(bytes, n, mode.endian, i, i);
        mode.(known := true)
      else if LowNibble(w) then
        assert FirstMarkedFrom(bytes, n, mode.endian, i, i);
        mode.(known := true, words := true)
      else
        var r := Scan(bytes, n, mode, i + 1);
        assert forall f :: (FirstMarkedFrom(bytes, n, mode.endian, i, f)
          <==> FirstMarkedFrom(bytes, n, mode.endian, i + 1, f));
        r
  }

  /** Set: attaches a block. A null block leaves no words; a block without
      the identifier fails; otherwise the word count is taken from the header
      and, unless the mode is already known, the mode is inferred from the
      payload. */
  function Set(prev: SwapMode, block: Option<seq<bv8>>): (r: Result<Buffer, BufferError>)
    requires block.Some? ==> Readable(block.value)
    ensures r.Err? <==> block.Some? && !MagicAt(block.value, 0)
    ensures r.Ok? ==> Valid(r.value) && r.value.block == block
    ensures block.None? ==> r == Ok(Buffer(None, 0, prev))
    ensures r.Ok? && block.Some? ==> r.value.nwords == WordCount(Parse(block.value))
    ensures r.Ok? && prev.known ==> r.value.swap == prev
    ensures r.Ok? && prev.endian ==> r.value.swap.endian
    ensures r.Ok? && block.Some? && !prev.known ==>
      r.value.swap.endian == (prev.endian || Parse(block.value).dataEndian != 1)
    ensures r.Ok? && block.Some? && !prev.known ==>
      (r.value.swap.known <==> exists j :: 0 <= j < r.value.nwords && MarkedAt(block.value, r.value.swap.endian, j))
    ensures r.Ok? && block.Some? && !prev.known ==>
      (r.value.swap.words <==> prev.words || DecidesWordSwap(block.value, r.value.nwords, r.value.swap.endian, 0))
  {
    match block
    case None => Ok(Buffer(None, 0, prev))
    case Some(bytes) =>
      if !MagicAt(bytes, 0) then Err(BadHeader)
      else
        var h := Parse(bytes);
        var n := WordCount(h);
        if prev.known then Ok(Buffer(block, n, prev))
        else
          var mode := prev.(endian := prev.endian || h.dataEndian != 1);
          Ok(Buffer(block, n, Scan(bytes, n, mode, 0)))
  }

  /** The constructor: Set starting from the unknown mode. */
  function New(block: Option<seq<bv8>>): (r: Result<Buffer, BufferError>)
    requires block.Some? ==> Readable(block.value)
    ensures r.Ok? && block.None? ==> r.value.nwords == 0 && r.value.swap == NoSwap
  {
    Set(NoSwap, block)
  }

  /** The detection loop as the source writes it, over the corrected words. */
  method DetectSwap(bytes: seq<bv8>, n: nat, prev: SwapMode) returns (mode: SwapMode)
    requires HeaderSize + 8 * n <= |bytes|
    ensures mode.endian == prev.endian
    ensures mode.known <==> prev.known || exists j :: 0 <= j < n && MarkedAt(bytes, prev.endian, j)
    ensures mode.words <==> prev.words || DecidesWordSwap(bytes, n, prev.endian, 0)
  {
    mode := prev;
    var i := 0;
    while i < n
      invariant 0 <= i <= n
      invariant mode == prev
      invariant forall j :: 0 <= j < i ==> !MarkedAt(bytes, prev.endian, j)
    {
      var word := EndianCorrected(mode.endian, RawWord(bytes, i));
      if word & 0xF000000000000000 != 0 {
        mode := mode.(known := true);
        assert FirstMarkedFrom(bytes, n, prev.endian, 0, i);
        return;
      }
      if word & 0x00000000F0000000 != 0 {
        mode := mode.(known := true, words := true);
        assert FirstMarkedFrom(bytes, n, prev.endian, 0, i);
        return;
      }
      i := i + 1;
    }
  }

  /** GetWord: payload word n with the swap mode applied (byte order first,
      then the 32-bit halves), or 0 past the last word. */
  function GetWord(b: Buffer, n: nat): (r: bv64)
    requires Valid(b)
    ensures n >= b.nwords ==> r == 0
    ensures n < b.nwords ==> (EndianCorrected(b.swap.endian, RawWord(b.block.value, n))
      == (if b.swap.words then SwapWords(r) else r))
  {
    if n >= b.nwords then 0
    else
      var raw := RawWord(b.block.value, n);
      var e := if b.swap.endian then Swap64(raw) else raw;
      Involutions(0, e);
      if b.swap.words then SwapWords(e) else e
  }

  /** GetNWords. */
  function NWords(b: Buffer): nat
  {
    b.nwords
  }

  /** The words a block yields, in order (the loop of treat_buffer). */
  function Words(b: Buffer): (ws: seq<bv64>)
    requires Valid(b)
    ensures |ws| == b.nwords
    ensures forall i :: 0 <= i < |ws| ==> ws[i] == GetWord(b, i)
  {
    seq(b.nwords, i requires 0 <= i => GetWord(b, i))
  }

  /** Set(NULL) leaves no words: every GetWord is 0. */
  lemma NullBlockHasNoWords(prev: SwapMode, n: nat)
    ensures Set(prev, None).Ok?
    ensures GetWord(Set(prev, None).value, n) == 0
  {
  }

  /** Once the mode is known, further blocks keep it: the mode after any
      number of blocks is the mode after the first one that settled it. */
  lemma {:induction false} KnownModeIsFinal(prev: SwapMode, blocks: seq<seq<bv8>>)
    requires prev.known
    requires forall i :: 0 <= i < |blocks| ==> Readable(blocks[i]) && MagicAt(blocks[i], 0)
    ensures ModeAfter(prev, blocks) == prev
  {
    if |blocks| > 0 {
      KnownModeIsFinal(prev, blocks[1..]);
    }
  }

  /** The mode after attaching each block in turn (the block loop of treat_file). */
  function ModeAfter(prev: SwapMode, blocks: seq<seq<bv8>>): SwapMode
    requires forall i :: 0 <= i < |blocks| ==> Readable(blocks[i]) && MagicAt(blocks[i], 0)
    decreases |blocks|
  {
    if blocks == [] then prev
    else ModeAfter(Set(prev, Some(blocks[0])).value.swap, blocks[1..])
  }
}

=== FILE: byte_order.dfy ===
/** The payload decoding is independent of the order the block was written
    in: whichever of the four byte/word orders the writer used, the swap-mode
    detection and GetWord give back the words that were written, provided the
    payload satisfies the detection heuristic's assumption. */
module ByteOrder {
  import opened Wrappers
  import opened Bytes
  import opened Swap
  import opened Header
  import opened Buffer

  /** How a writer that uses the other byte order (`foreign`) and/or the other
      order of 32-bit halves (`swapped`) stores word w, as a native read sees it. */
  function Stored(w: bv64, foreign: bool, swapped: bool): bv64
  {
    var x := if swapped then SwapWords(w) else w;
    if foreign then Swap64(x) else x
  }

  /** The payload bytes of words ws written that way. */
  function PayloadBytes(ws: seq<bv64>, foreign: bool, swapped: bool): (b: seq<bv8>)
    ensures |b| == 8 * |ws|
  {
    if ws == [] then []
    else PayloadBytes(ws[..|ws| - 1], foreign, swapped) + U64Bytes(Stored(ws[|ws| - 1], foreign, swapped))
  }

  /** The header such a writer puts in front: native header order, the payload
      order recorded in DataEndian, and the payload length in bytes. */
  function WriterHeader(len: bv32, foreign: bool): (h: DataHeader)
    ensures WellFormed(h) && IsValid(h)
  {
    DataHeader(Magic, 0, 1, 1, 1, if foreign then Swap16(1) else 1, len)
  }

  /** The whole block: header, payload and whatever follows in the mapping. */
  function EncodedBlock(ws: seq<bv64>, len: bv32, foreign: bool, swapped: bool, rest: seq<bv8>): seq<bv8>
  {
    Serialize(WriterHeader(len, foreign)) + PayloadBytes(ws, foreign, swapped) + rest
  }

  /** The assumption the detection relies on: some word has bits 63:60 or
      31:28 set, and the first such word has 63:60 set and 31:28 clear, as a
      timestamp word does. */
  predicate Recognisable(ws: seq<bv64>)
  {
    exists f :: 0 <= f < |ws| && TopNibble(ws[f]) && !LowNibble(ws[f])
      && forall j :: 0 <= j < f ==> !Marked(ws[j])
  }

  lemma {:induction false} PayloadWord(ws: seq<bv64>, foreign: bool, swapped: bool, i: nat)
    requires i < |ws|
    ensures PayloadBytes(ws, foreign, swapped)[8 * i..8 * i + 8] == U64Bytes(Stored(ws[i], foreign, swapped))
    decreases |ws|
  {
    var init := ws[..|ws| - 1];
    var a := PayloadBytes(init, foreign, swapped);
    var last := U64Bytes(Stored(ws[|ws| - 1], foreign, swapped));
    assert PayloadBytes(ws, foreign, swapped) == a + last;
    if i < |ws| - 1 {
      PayloadWord(init, foreign, swapped, i);
      assert init[i] == ws[i];
      assert (a + last)[8 * i..8 * i + 8] == a[8 * i..8 * i + 8];
    } else {
      assert (a + last)[8 * i..8 * i + 8] == last;
    }
  }

  /** Exchanging the halves exchanges the two nibbles the detection tests. */
  lemma SwapWordsNibbles(w: bv64)
    ensures TopNibble(SwapWords(w)) <==> LowNibble(w)
    ensures LowNibble(SwapWords(w)) <==> TopNibble(w)
  {
  }

  /** Parse looks at the first 24 bytes only. */
  lemma ParsePrefix(b: seq<bv8>, c: seq<bv8>)
    requires |b| >= HeaderSize
    ensures Parse(b + c) == Parse(b)
  {
    assert (b + c)[0..8] == b[0..8];
  }

  /** The payload length written into the header counts |ws| words. */
  lemma WriterWordCount(n: nat, len: bv32, foreign: bool)
    requires len as nat == 8 * n
    ensures WordCount(WriterHeader(len, foreign)) == n
  {
  }

  /** The header parses back from the front of the block. */
  lemma EncodedHeader(ws: seq<bv64>, len: bv32, foreign: bool, swapped: bool, rest: seq<bv8>)
    requires len as nat == 8 * |ws|
    ensures |EncodedBlock(ws, len, foreign, swapped, rest)| == HeaderSize + 8 * |ws| + |rest|
    ensures Parse(EncodedBlock(ws, len, foreign, swapped, rest)) == WriterHeader(len, foreign)
    ensures MagicAt(EncodedBlock(ws, len, foreign, swapped, rest), 0)
  {
    var h := WriterHeader(len, foreign);
    var hb := Serialize(h);
    var tail := PayloadBytes(ws, foreign, swapped) + rest;
    assert EncodedBlock(ws, len, foreign, swapped, rest) == hb + tail;
    ParseSerialize(h);
    ParsePrefix(hb, tail);
    Layout(h);
    assert (hb + tail)[0..8] == hb[0..8];
  }

  /** Reading word i behind any 24-byte header finds the payload's word i. */
  lemma RawWordBehind(hb: seq<bv8>, p: seq<bv8>, rest: seq<bv8>, i: nat, x: bv64)
    requires |hb| == HeaderSize && 8 * i + 8 <= |p|
    requires p[8 * i..8 * i + 8] == U64Bytes(x)
    ensures HeaderSize + 8 * i + 8 <= |hb + p + rest|
    ensures RawWord(hb + p + rest, i) == x
  {
    var b := hb + p + rest;
    assert b[HeaderSize + 8 * i..HeaderSize + 8 * i + 8] == p[8 * i..8 * i + 8];
    LeU64At(b, HeaderSize + 8 * i, x);
  }

  /** Word i of the block, read natively, is the stored form of ws[i]. */
  lemma EncodedRawWord(ws: seq<bv64>, len: bv32, foreign: bool, swapped: bool, rest: seq<bv8>, i: nat)
    requires i < |ws|
    ensures HeaderSize + 8 * i + 8 <= |EncodedBlock(ws, len, foreign, swapped, rest)|
    ensures RawWord(EncodedBlock(ws, len, foreign, swapped, rest), i) == Stored(ws[i], foreign, swapped)
  {
    PayloadWord(ws, foreign, swapped, i);
    RawWordBehind(Serialize(WriterHeader(len, foreign)), PayloadBytes(ws, foreign, swapped), rest, i,
                  Stored(ws[i], foreign, swapped));
  }

  /** After the byte-order correction the detection sees each word with only
      its halves possibly exchanged. */
  lemma CorrectedWord(w: bv64, foreign: bool, swapped: bool)
    ensures EndianCorrected(foreign, Stored(w, foreign, swapped)) == (if swapped then SwapWords(w) else w)
  {
    Involutions(0, if swapped then SwapWords(w) else w);
  }

  /** The word the detection loop sees after the byte-order correction. */
  function Seen(w: bv64, swapped: bool): bv64
  {
    if swapped then SwapWords(w) else w
  }

  /** When the corrected payload words are ws, with halves exchanged iff
      `swapped`, the detection loop infers exactly `swapped`. */
  lemma ScanRecognises(b: seq<bv8>, ws: seq<bv64>, endian: bool, swapped: bool)
    requires HeaderSize + 8 * |ws| <= |b|
    requires forall j :: 0 <= j < |ws| ==> EndianCorrected(endian, RawWord(b, j)) == Seen(ws[j], swapped)
    requires Recognisable(ws)
    ensures Scan(b, |ws|, NoSwap.(endian := endian), 0) == SwapMode(true, swapped, endian)
  {
    var n := |ws|;
    var f :| 0 <= f < n && TopNibble(ws[f]) && !LowNibble(ws[f])
      && forall j :: 0 <= j < f ==> !Marked(ws[j]);
    forall j | 0 <= j < n
      ensures MarkedAt(b, endian, j) <==> Marked(ws[j])
    {
      SwapWordsNibbles(ws[j]);
    }
    SwapWordsNibbles(ws[f]);
    assert FirstMarkedFrom(b, n, endian, 0, f);
    assert forall g :: FirstMarkedFrom(b, n, endian, 0, g) ==> g == f;
  }

  /** Decoding is byte-order transparent: whichever order the writer used,
      attaching the block to a fresh buffer infers the matching swap mode and
      GetWord returns exactly the words that were written. */
  lemma {:induction false} DecodingIsOrderTransparent(ws: seq<bv64>, len: bv32, foreign: bool, swapped: bool, rest: seq<bv8>)
    requires len as nat == 8 * |ws|
    requires Recognisable(ws)
    ensures Readable(EncodedBlock(ws, len, foreign, swapped, rest))
    ensures New(Some(EncodedBlock(ws, len, foreign, swapped, rest))).Ok?
    ensures New(Some(EncodedBlock(ws, len, foreign, swapped, rest))).value.nwords == |ws|
    ensures New(Some(EncodedBlock(ws, len, foreign, swapped, rest))).value.swap == SwapMode(true, swapped, foreign)
    ensures forall n :: 0 <= n < |ws| ==> GetWord(New(Some(EncodedBlock(ws, len, foreign, swapped, rest))).value, n) == ws[n]
  {
    var b := EncodedBlock(ws, len, foreign, swapped, rest);
    var n := |ws|;
    EncodedHeader(ws, len, foreign, swapped, rest);
    WriterWordCount(n, len, foreign);
    assert Swap16(1) != 1;
    forall j | 0 <= j < n
      ensures RawWord(b, j) == Stored(ws[j], foreign, swapped)
      ensures EndianCorrected(foreign, RawWord(b, j)) == Seen(ws[j], swapped)
    {
      EncodedRawWord(ws, len, foreign, swapped, rest, j);
      CorrectedWord(ws[j], foreign, swapped);
    }
    ScanRecognises(b, ws, foreign, swapped);
    var buf := New(Some(b)).value;
    assert buf == Buffer(Some(b), n, SwapMode(true, swapped, foreign));
    forall j | 0 <= j < n
      ensures GetWord(buf, j) == ws[j]
    {
      Involutions(0, ws[j]);
    }
  }

  /** The words the tree makers' loop hands to treat_word, GetWord(0) up to
      GetWord(nwords - 1), are exactly the words written, in any of the four
      orders. */
  lemma WordsRecovered(ws: seq<bv64>, len: bv32, foreign: bool, swapped: bool, rest: seq<bv8>)
    requires len as nat == 8 * |ws|
    requires Recognisable(ws)
    ensures Readable(EncodedBlock(ws, len, foreign, swapped, rest))
    ensures New(Some(EncodedBlock(ws, len, foreign, swapped, rest))).Ok?
    ensures Words(New(Some(EncodedBlock(ws, len, foreign, swapped, rest))).value) == ws
  {
    DecodingIsOrderTransparent(ws, len, foreign, swapped, rest);
  }

  /** The payloads the detection gets wrong: the first word with bits 63:60 or
      31:28 set has only 31:28 set. */
  predicate Misleading(ws: seq<bv64>)
  {
    exists f :: 0 <= f < |ws| && LowNibble(ws[f]) && !TopNibble(ws[f])
      && forall j :: 0 <= j < f ==> !Marked(ws[j])
  }

  /** Every word with its 32-bit halves exchanged. */
  function SwapAll(ws: seq<bv64>): (r: seq<bv64>)
    ensures |r| == |ws|
    ensures forall j :: 0 <= j < |ws| ==> r[j] == SwapWords(ws[j])
  {
    seq(|ws|, j requires 0 <= j < |ws| => SwapWords(ws[j]))
  }

  /** Exchanging the halves of a misleading payload makes it recognisable. */
  lemma MisleadingSwapped(ws: seq<bv64>)
    requires Misleading(ws)
    ensures Recognisable(SwapAll(ws))
  {
    var ws2 := SwapAll(ws);
    var f :| 0 <= f < |ws| && LowNibble(ws[f]) && !TopNibble(ws[f])
      && forall j :: 0 <= j < f ==> !Marked(ws[j]);
    forall j | 0 <= j < |ws|
      ensures TopNibble(ws2[j]) <==> LowNibble(ws[j])
      ensures LowNibble(ws2[j]) <==> TopNibble(ws[j])
    {
      SwapWordsNibbles(ws[j]);
    }
    assert TopNibble(ws2[f]) && !LowNibble(ws2[f]) && forall j :: 0 <= j < f ==> !Marked(ws2[j]);
  }

  /** The limit of the detection: on a misleading payload a fresh buffer
      infers the opposite half order to the writer's, and GetWord returns
      every word with its 32-bit halves exchanged. */
  lemma {:induction false} MisleadingPayloadMisread(ws: seq<bv64>, len: bv32, foreign: bool, swapped: bool, rest: seq<bv8>)
    requires len as nat == 8 * |ws|
    requires Misleading(ws)
    ensures Readable(EncodedBlock(ws, len, foreign, swapped, rest))
    ensures New(Some(EncodedBlock(ws, len, foreign, swapped, rest))).Ok?
    ensures New(Some(EncodedBlock(ws, len, foreign, swapped, rest))).value.swap == SwapMode(true, !swapped, foreign)
    ensures forall n :: 0 <= n < |ws| ==> GetWord(New(Some(EncodedBlock(ws, len, foreign, swapped, rest))).value, n) == SwapWords(ws[n])
  {
    var b := EncodedBlock(ws, len, foreign, swapped, rest);
    var n := |ws|;
    var ws2 := SwapAll(ws);
    EncodedHeader(ws, len, foreign, swapped, rest);
    WriterWordCount(n, len, foreign);
    assert Swap16(1) != 1;
    forall j | 0 <= j < n
      ensures EndianCorrected(foreign, RawWord(b, j)) == Seen(ws2[j], !swapped)
    {
      EncodedRawWord(ws, len, foreign, swapped, rest, j);
      CorrectedWord(ws[j], foreign, swapped);
      Involutions(0, ws[j]);
    }
    MisleadingSwapped(ws);
    ScanRecognises(b, ws2, foreign, !swapped);
    var buf := New(Some(b)).value;
    assert buf == Buffer(Some(b), n, SwapMode(true, !swapped, foreign));
    forall j | 0 <= j < n
      ensures GetWord(buf, j) == SwapWords(ws[j])
    {
      Involutions(0, ws[j]);
      Involutions(0, ws2[j]);
    }
  }

  /** An instance: a native writer's lone word 0x0000_0000_1000_0000 reads
      back as 0x1000_0000_0000_0000. */
  lemma MisreadExample()
    ensures GetWord(New(Some(EncodedBlock([0x0000_0000_1000_0000], 8, false, false, []))).value, 0)
      == 0x1000_0000_0000_0000
  {
    var ws: seq<bv64> := [0x0000_0000_1000_0000];
    assert LowNibble(ws[0]) && !TopNibble(ws[0]);
    assert Misleading(ws);
    MisleadingPayloadMisread(ws, 8, false, false, []);
    assert SwapWords(ws[0]) == 0x1000_0000_0000_0000;
  }
}

=== FILE: bytes.dfy ===
/** Byte-level reads and writes of unsigned integers in the host's native
    (little-endian) byte order, as the source obtains them by casting a byte
    pointer to a struct or to an integer pointer. */
module Bytes {

  /** Reads the 16-bit integer stored at b[at], b[at+1]. */
  function LeU16(b: seq<bv8>, at: nat): bv16
    requires at + 2 <= |b|
  {
    (b[at] as bv16) | ((b[at + 1] as bv16) << 8)
  }

  /** Reads the 32-bit integer stored at b[at..at+4]. */
  function LeU32(b: seq<bv8>, at: nat): bv32
    requires at + 4 <= |b|
  {
    (b[at] as bv32) | ((b[at + 1] as bv32) << 8)
    | ((b[at + 2] as bv32) << 16) | ((b[at + 3] as bv32) << 24)
  }

  /** Reads the 64-bit integer stored at b[at..at+8]. */
  function LeU64(b: seq<bv8>, at: nat): bv64
    requires at + 8 <= |b|
  {
    (b[at] as bv64) | ((b[at + 1] as bv64) << 8)
    | ((b[at + 2] as bv64) << 16) | ((b[at + 3] as bv64) << 24)
    | ((b[at + 4] as bv64) << 32) | ((b[at + 5] as bv64) << 40)
    | ((b[at + 6] as bv64) << 48) | ((b[at + 7] as bv64) << 56)
  }

  /** The two bytes that store x, lowest first. */
  function U16Bytes(x: bv16): (r: seq<bv8>)
    ensures |r| == 2
  {
    [(x & 0xFF) as bv8, (x >> 8) as bv8]
  }

  /** The four bytes that store x, lowest first. */
  function U32Bytes(x: bv32): (r: seq<bv8>)
    ensures |r| == 4
  {
    [(x & 0xFF) as bv8, ((x >> 8) & 0xFF) as bv8,
     ((x >> 16) & 0xFF) as bv8, (x >> 24) as bv8]
  }

  /** The eight bytes that store x, lowest first. */
  function U64Bytes(x: bv64): (r: seq<bv8>)
    ensures |r| == 8
  {
    [(x & 0xFF) as bv8, ((x >> 8) & 0xFF) as bv8,
     ((x >> 16) & 0xFF) as bv8, ((x >> 24) & 0xFF) as bv8,
     ((x >> 32) & 0xFF) as bv8, ((x >> 40) & 0xFF) as bv8,
     ((x >> 48) & 0xFF) as bv8, (x >> 56) as bv8]
  }

  /** The bytes of s in the opposite order. */
  function Reverse(s: seq<bv8>): (r: seq<bv8>)
    ensures |r| == |s|
    ensures forall i :: 0 <= i < |s| ==> r[i] == s[|s| - 1 - i]
  {
    if s == [] then [] else Reverse(s[1..]) + [s[0]]
  }

  /** Writing a 16-bit value and reading it back gives the value. */
  lemma U16RoundTrip(x: bv16, pre: seq<bv8>, post: seq<bv8>)
    ensures LeU16(pre + U16Bytes(x) + post, |pre|) == x
  {
    var b := pre + U16Bytes(x) + post;
    assert b[|pre|] == (x & 0xFF) as bv8;
    assert b[|pre| + 1] == (x >> 8) as bv8;
  }

  /** Writing a 32-bit value and reading it back gives the value. */
  lemma U32RoundTrip(x: bv32, pre: seq<bv8>, post: seq<bv8>)
    ensures LeU32(pre + U32Bytes(x) + post, |pre|) == x
  {
    var b := pre + U32Bytes(x) + post;
    var w := U32Bytes(x);
    assert forall i :: 0 <= i < 4 ==> b[|pre| + i] == w[i];
  }

  /** Writing a 64-bit value and reading it back gives the value. */
  lemma U64RoundTrip(x: bv64, pre: seq<bv8>, post: seq<bv8>)
    ensures LeU64(pre + U64Bytes(x) + post, |pre|) == x
  {
    var b := pre + U64Bytes(x) + post;
    var w := U64Bytes(x);
    assert forall i :: 0 <= i < 8 ==> b[|pre| + i] == w[i];
  }

  /** A 16-bit read sees the value whose bytes occupy the two read positions. */
  lemma LeU16At(b: seq<bv8>, at: nat, x: bv16)
    requires at + 2 <= |b|
    requires b[at..at + 2] == U16Bytes(x)
    ensures LeU16(b, at) == x
  {
    assert b[at] == b[at..at + 2][0] && b[at + 1] == b[at..at + 2][1];
  }

  /** A 32-bit read sees the value whose bytes occupy the four read positions. */
  lemma LeU32At(b: seq<bv8>, at: nat, x: bv32)
    requires at + 4 <= |b|
    requires b[at..at + 4] == U32Bytes(x)
    ensures LeU32(b, at) == x
  {
    var w := U32Bytes(x);
    assert forall i :: 0 <= i < 4 ==> b[at + i] == b[at..at + 4][i] == w[i];
  }

  /** A 64-bit read sees the value whose bytes occupy the eight read positions. */
  lemma LeU64At(b: seq<bv8>, at: nat, x: bv64)
    requires at + 8 <= |b|
    requires b[at..at + 8] == U64Bytes(x)
    ensures LeU64(b, at) == x
  {
    var w := U64Bytes(x);
    assert forall i :: 0 <= i < 8 ==> b[at + i] == b[at..at + 8][i] == w[i];
  }

  /** Reading 16 bits and writing them back reproduces the bytes. */
  lemma U16BytesOfRead(b: seq<bv8>, at: nat)
    requires at + 2 <= |b|
    ensures U16Bytes(LeU16(b, at)) == b[at..at + 2]
  {
  }

  /** Reading 32 bits and writing them back reproduces the bytes. */
  lemma U32BytesOfRead(b: seq<bv8>, at: nat)
    requires at + 4 <= |b|
    ensures U32Bytes(LeU32(b, at)) == b[at..at + 4]
  {
  }

  /** Reading 64 bits and writing them back reproduces the bytes. */
  lemma U64BytesOfRead(b: seq<bv8>, at: nat)
    requires at + 8 <= |b|
    ensures U64Bytes(LeU64(b, at)) == b[at..at + 8]
  {
  }
}

=== FILE: flush.dfy ===
/** Writing buffered hits to the output tree: treat_hit and process_hits, as
    both tree makers (examples/make_tree.C, examples/make_tree_onlyadcstamps.C)
    write them. */
module Flush {
  import opened Hits

  /** One row of the output tree: the event timestamp the flush was tagged
      with, and the hit's own fields. */
  datatype TreeEntry = TreeEntry(
    globalEventTs: nat,
    adcTs: nat,
    moduleId: nat,
    channel: nat,
    dataId: nat,
    adcData: nat)

  /** treat_hit: the row written for one hit. */
  function TreatHit(h: Hit, eventTs: nat): (e: TreeEntry)
    ensures e.globalEventTs == eventTs
    ensures Strip(e) == h.(trace := [])
  {
    TreeEntry(eventTs, h.ts, h.moduleId, h.channel, h.dataId, h.conversion)
  }

  /** The hit a row was written from, without its trace (the tree has none). */
  function Strip(e: TreeEntry): Hit
  {
    Hit(e.adcTs, e.adcData, e.moduleId, e.channel, e.dataId, [])
  }

  /** The rows written for a run of hits, all tagged with one event timestamp. */
  function Emit(hs: seq<Hit>, eventTs: nat): (r: seq<TreeEntry>)
    ensures |r| == |hs|
    ensures forall i :: 0 <= i < |r| ==> r[i].globalEventTs == eventTs && r[i].adcTs == hs[i].ts
    ensures forall i :: 0 <= i < |r| ==> Strip(r[i]) == hs[i].(trace := [])
    decreases |hs|
  {
    if hs == [] then [] else [TreatHit(hs[0], eventTs)] + Emit(hs[1..], eventTs)
  }

  /** The hits rows were written from. */
  function Stripped(es: seq<TreeEntry>): (r: seq<Hit>)
    ensures |r| == |es|
    ensures forall i :: 0 <= i < |r| ==> r[i] == Strip(es[i])
    decreases |es|
  {
    if es == [] then [] else [Strip(es[0])] + Stripped(es[1..])
  }

  /** Every hit carries no trace (the tree makers never add samples). */
  predicate Traceless(hs: seq<Hit>)
  {
    forall i :: 0 <= i < |hs| ==> hs[i].trace == []
  }

  /** Rows and hits convert back: stripping what was emitted gives the hits. */
  lemma EmitThenStrip(hs: seq<Hit>, eventTs: nat)
    ensures Traceless(hs) ==> Stripped(Emit(hs, eventTs)) == hs
  {
  }

  lemma StrippedAppend(a: seq<TreeEntry>, b: seq<TreeEntry>)
    ensures Stripped(a + b) == Stripped(a) + Stripped(b)
  {
  }

  /** Rows written by one flush: all tagged with the flush's event timestamp,
      in non-decreasing ADC timestamp order, none later than a hit left in
      the buffer. */
  predicate Written(rows: seq<TreeEntry>, left: seq<Hit>, eventTs: nat)
  {
    (forall i :: 0 <= i < |rows| ==> rows[i].globalEventTs == eventTs)
    && (forall i, j :: 0 <= i < j < |rows| ==> rows[i].adcTs <= rows[j].adcTs)
    && (forall i, j :: 0 <= i < |rows| && 0 <= j < |left| ==> rows[i].adcTs <= left[j].ts)
  }

  /** What one process_hits call produces: the rows written and the hits
      left in the buffer. */
  datatype Flushed = Flushed(emitted: seq<TreeEntry>, remaining: seq<Hit>)

  /** process_hits(nhits, event_ts): sorts the buffer by timestamp (`sorted`
      is the order std::sort left it in: any timestamp-sorted permutation,
      since std::sort is not stable), writes the first nhits hits tagged with
      event_ts and erases them. */
  function ProcessHits(pending: seq<Hit>, sorted: seq<Hit>, nhits: nat, eventTs: nat): (r: Flushed)
    requires IsTsSorting(pending, sorted)
    requires nhits <= |pending|
    ensures |r.emitted| == nhits && |r.remaining| == |pending| - nhits
    ensures Written(r.emitted, r.remaining, eventTs)
    ensures SortedByTs(r.remaining)
    ensures Traceless(pending) ==>
      multiset(Stripped(r.emitted)) + multiset(r.remaining) == multiset(pending)
  {
    assert |sorted| == |multiset(sorted)| == |pending|;
    SortingKeepsTraceless(pending, sorted);
    EmitThenStrip(sorted[..nhits], eventTs);
    SplitSorted(sorted, nhits);
    Flushed(Emit(sorted[..nhits], eventTs), sorted[nhits..])
  }

  /** Cutting a sorted sequence keeps every hit once, and the front part is
      never later than the back part. */
  lemma SplitSorted(s: seq<Hit>, n: nat)
    requires SortedByTs(s) && n <= |s|
    ensures multiset(s[..n]) + multiset(s[n..]) == multiset(s)
    ensures SortedByTs(s[..n]) && SortedByTs(s[n..])
    ensures forall i, j :: 0 <= i < n <= j < |s| ==> s[i].ts <= s[j].ts
  {
    assert s == s[..n] + s[n..];
  }

  lemma SortingKeepsTraceless(pending: seq<Hit>, sorted: seq<Hit>)
    requires multiset(sorted) == multiset(pending)
    ensures Traceless(pending) ==> Traceless(sorted)
  {
    if Traceless(pending) {
      forall i | 0 <= i < |sorted| ensures sorted[i].trace == [] {
        assert sorted[i] in multiset(pending);
      }
    }
  }

  /** A builder's buffer and output together: process_hits with the concrete
      sort, appending the written rows to those already in the tree. */
  function Append(pending: seq<Hit>, out: seq<TreeEntry>, nhits: nat, eventTs: nat): (r: Flushed)
    requires nhits <= |pending|
    ensures |r.remaining| == |pending| - nhits
    ensures |r.emitted| == |out| + nhits && r.emitted[..|out|] == out
    ensures Written(r.emitted[|out|..], r.remaining, eventTs)
    ensures Traceless(pending) ==> Traceless(r.remaining)
    ensures Traceless(pending) ==>
      (multiset(Stripped(r.emitted)) + multiset(r.remaining) == multiset(Stripped(out)) + multiset(pending))
  {
    var sorted := SortByTs(pending);
    var f := ProcessHits(pending, sorted, nhits, eventTs);
    var rows := out + f.emitted;
    AppendConserves(pending, out, f);
    assert rows[..|out|] == out && rows[|out|..] == f.emitted;
    Flushed(rows, f.remaining)
  }

  lemma AppendConserves(pending: seq<Hit>, out: seq<TreeEntry>, f: Flushed)
    requires Traceless(pending) ==>
      multiset(Stripped(f.emitted)) + multiset(f.remaining) == multiset(pending)
    ensures Traceless(pending) ==> Traceless(f.remaining)
    ensures Traceless(pending) ==>
      (multiset(Stripped(out + f.emitted)) + multiset(f.remaining) == multiset(Stripped(out)) + multiset(pending))
  {
    StrippedAppend(out, f.emitted);
    if Traceless(pending) {
      forall i | 0 <= i < |f.remaining| ensures f.remaining[i].trace == [] {
        assert f.remaining[i] in multiset(pending);
      }
    }
    assert multiset(Stripped(out + f.emitted)) == multiset(Stripped(out)) + multiset(Stripped(f.emitted));
  }
}

=== FILE: header.dfy ===
/** The 24-byte block header DATA_HEADER (ISSHeader.hh), laid out as in the
    MTsort "TS format": an 8-byte identifier followed by six integers in the
    writer's byte order. */
module Header {
  import opened Bytes
  import opened Swap

  /** Size of the header in bytes; the payload starts right after it. */
  const HeaderSize: nat := 24

  /** The identifier every block starts with: the ASCII bytes of "EBYEDATA". */
  const Magic: seq<bv8> := [0x45, 0x42, 0x59, 0x45, 0x44, 0x41, 0x54, 0x41]

  /** One block header, as the struct fields read it. */
  datatype DataHeader = DataHeader(
    id: seq<bv8>,       // bytes 0..7, "EBYEDATA" in a valid block
    sequence: bv32,     // bytes 8..11, block number within the file
    stream: bv16,       // bytes 12..13, acquisition stream
    tape: bv16,         // bytes 14..15, always 1
    myEndian: bv16,     // bytes 16..17, a 1 written in the header's own byte order
    dataEndian: bv16,   // bytes 18..19, a 1 written in the payload's byte order
    dataLen: bv32)      // bytes 20..23, payload length in bytes

  /** A header whose identifier has the 8 bytes the struct reserves for it. */
  predicate WellFormed(h: DataHeader)
  {
    |h.id| == 8
  }

  /** The header carries the "EBYEDATA" identifier. */
  predicate IsValid(h: DataHeader)
  {
    h.id == Magic
  }

  /** The 8 bytes at offset `at` are the "EBYEDATA" identifier (what
      strncmp(..., "EBYEDATA", 8) == 0 tests). */
  predicate MagicAt(b: seq<bv8>, at: nat)
    requires at + 8 <= |b|
  {
    b[at..at + 8] == Magic
  }

  /** Reads the header from the first 24 bytes of b in native byte order. */
  function Parse(b: seq<bv8>): (h: DataHeader)
    requires |b| >= HeaderSize
    ensures WellFormed(h)
    ensures IsValid(h) <==> MagicAt(b, 0)
  {
    DataHeader(b[0..8], LeU32(b, 8), LeU16(b, 12), LeU16(b, 14),
               LeU16(b, 16), LeU16(b, 18), LeU32(b, 20))
  }

  /** Writes the header in native byte order. */
  function Serialize(h: DataHeader): (b: seq<bv8>)
    requires WellFormed(h)
    ensures |b| == HeaderSize
  {
    h.id + U32Bytes(h.sequence) + U16Bytes(h.stream) + U16Bytes(h.tape)
    + U16Bytes(h.myEndian) + U16Bytes(h.dataEndian) + U32Bytes(h.dataLen)
  }

  /** The header with every integer field byte-reversed: what a native read
      of a header written in the other byte order yields. */
  function Swapped(h: DataHeader): (r: DataHeader)
    ensures WellFormed(r) == WellFormed(h) && r.id == h.id
  {
    DataHeader(h.id, Swap32(h.sequence), Swap16(h.stream), Swap16(h.tape),
               Swap16(h.myEndian), Swap16(h.dataEndian), Swap32(h.dataLen))
  }

  /** Writes the header in the opposite byte order, as a writer of the other
      endianness would; the identifier is a byte string and keeps its order. */
  function SerializeForeign(h: DataHeader): (b: seq<bv8>)
    requires WellFormed(h)
    ensures |b| == HeaderSize
  {
    Serialize(Swapped(h))
  }

  /** Byte reversal of a 16-bit value (what a 16-bit field read in the wrong
      order yields). */
  function Swap16(x: bv16): bv16
  {
    (x >> 8) | (x << 8)
  }

  /** Magic spells "EBYEDATA". */
  lemma MagicSpellsEbyedata()
    ensures |Magic| == 8
    ensures forall i :: 0 <= i < 8 ==> Magic[i] as int == "EBYEDATA"[i] as int
  {
  }

  /** Field offsets and widths: id 0..7, sequence 8..11, stream 12..13, tape
      14..15, MyEndian 16..17, DataEndian 18..19, dataLen 20..23. */
  lemma Layout(h: DataHeader)
    requires WellFormed(h)
    ensures Serialize(h)[0..8] == h.id
    ensures Serialize(h)[8..12] == U32Bytes(h.sequence)
    ensures Serialize(h)[12..14] == U16Bytes(h.stream)
    ensures Serialize(h)[14..16] == U16Bytes(h.tape)
    ensures Serialize(h)[16..18] == U16Bytes(h.myEndian)
    ensures Serialize(h)[18..20] == U16Bytes(h.dataEndian)
    ensures Serialize(h)[20..24] == U32Bytes(h.dataLen)
  {
  }

  /** Writing a header and reading it back gives the same header. */
  lemma ParseSerialize(h: DataHeader)
    requires WellFormed(h)
    ensures Parse(Serialize(h)) == h
  {
    var b := Serialize(h);
    Layout(h);
    LeU32At(b, 8, h.sequence);
    LeU16At(b, 12, h.stream);
    LeU16At(b, 14, h.tape);
    LeU16At(b, 16, h.myEndian);
    LeU16At(b, 18, h.dataEndian);
    LeU32At(b, 20, h.dataLen);
  }

  /** Reading 24 bytes as a header and writing it back reproduces the bytes. */
  lemma SerializeParse(b: seq<bv8>)
    requires |b| >= HeaderSize
    ensures Serialize(Parse(b)) == b[..HeaderSize]
  {
    var h := Parse(b);
    Layout(h);
    U32BytesOfRead(b, 8);
    U16BytesOfRead(b, 12);
    U16BytesOfRead(b, 14);
    U16BytesOfRead(b, 16);
    U16BytesOfRead(b, 18);
    U32BytesOfRead(b, 20);
    var s := Serialize(h);
    assert s[0..8] == b[0..8] && s[8..12] == b[8..12] && s[12..14] == b[12..14] && s[14..16] == b[14..16];
    assert s[16..18] == b[16..18] && s[18..20] == b[18..20] && s[20..24] == b[20..24];
    SameBySlices(s, b);
  }

  /** Two byte strings that agree on every field's slice agree on the header. */
  lemma SameBySlices(s: seq<bv8>, b: seq<bv8>)
    requires |s| == HeaderSize && |b| >= HeaderSize
    requires s[0..8] == b[0..8] && s[8..12] == b[8..12] && s[12..14] == b[12..14] && s[14..16] == b[14..16]
    requires s[16..18] == b[16..18] && s[18..20] == b[18..20] && s[20..24] == b[20..24]
    ensures s == b[..HeaderSize]
  {
    forall i | 0 <= i < HeaderSize ensures s[i] == b[i] {
      if i < 8 { assert s[i] == s[0..8][i]; }
      else if i < 12 { assert s[i] == s[8..12][i - 8]; }
      else if i < 14 { assert s[i] == s[12..14][i - 12]; }
      else if i < 16 { assert s[i] == s[14..16][i - 14]; }
      else if i < 18 { assert s[i] == s[16..18][i - 16]; }
      else if i < 20 { assert s[i] == s[18..20][i - 18]; }
      else { assert s[i] == s[20..24][i - 20]; }
    }
  }

  /** SerializeForeign stores every integer field with its bytes reversed. */
  lemma ForeignLayout(h: DataHeader)
    requires WellFormed(h)
    ensures SerializeForeign(h)[0..8] == h.id
    ensures SerializeForeign(h)[8..12] == Reverse(U32Bytes(h.sequence))
    ensures SerializeForeign(h)[12..14] == Reverse(U16Bytes(h.stream))
    ensures SerializeForeign(h)[14..16] == Reverse(U16Bytes(h.tape))
    ensures SerializeForeign(h)[16..18] == Reverse(U16Bytes(h.myEndian))
    ensures SerializeForeign(h)[18..20] == Reverse(U16Bytes(h.dataEndian))
    ensures SerializeForeign(h)[20..24] == Reverse(U32Bytes(h.dataLen))
  {
    Layout(Swapped(h));
    Swap32ReversesBytes(h.sequence);
    Swap32ReversesBytes(h.dataLen);
    Swap16ReversesBytes(h.stream);
    Swap16ReversesBytes(h.tape);
    Swap16ReversesBytes(h.myEndian);
    Swap16ReversesBytes(h.dataEndian);
  }

  /** A header written in the other byte order reads back with every integer
      field byte-reversed and the identifier intact. */
  lemma ParseForeign(h: DataHeader)
    requires WellFormed(h)
    ensures Parse(SerializeForeign(h)) == Swapped(h)
  {
    ParseSerialize(Swapped(h));
  }

  /** Swap16 is the byte reversal of a 16-bit value. */
  lemma Swap16ReversesBytes(x: bv16)
    ensures U16Bytes(Swap16(x)) == Reverse(U16Bytes(x))
  {
    var r := Reverse(U16Bytes(x));
    assert r == [(x >> 8) as bv8, (x & 0xFF) as bv8];
  }

  /** The endianness markers: a 1 written in native order reads as 1, a 1
      written in the other order does not, so MyEndian == 1 and DataEndian == 1
      hold exactly for native header and payload order. */
  lemma EndianMarkers(h: DataHeader)
    requires WellFormed(h)
    requires h.myEndian == 1 && h.dataEndian == 1
    ensures Parse(Serialize(h)).myEndian == 1
    ensures Parse(Serialize(h)).dataEndian == 1
    ensures Parse(SerializeForeign(h)).myEndian != 1
    ensures Parse(SerializeForeign(h)).dataEndian != 1
    ensures Swap32(Parse(SerializeForeign(h)).dataLen) == h.dataLen
  {
    ParseSerialize(h);
    ParseForeign(h);
    Involutions(h.dataLen, 0);
    assert Swap16(1) == 0x100;
  }
}

=== FILE: hit.dfy ===
/** One ADC hit (ISSHit.hh): module, channel and data ID held in 16-bit
    fields, a 64-bit timestamp, a 32-bit conversion and an optional trace,
    ordered by timestamp alone. */
module Hits {

  /** A hit as its fields hold it. */
  datatype Hit = Hit(
    ts: nat,
    conversion: nat,
    moduleId: nat,
    channel: nat,
    dataId: nat,
    trace: seq<nat>)

  const Short: nat := 0x1_0000
  const UInt: nat := 0x1_0000_0000
  const ULong: nat := 0x1_0000_0000_0000_0000

  /** The values a hit's fields can hold. */
  predicate Valid(h: Hit)
  {
    h.ts < ULong && h.conversion < UInt && h.moduleId < Short && h.channel < Short && h.dataId < Short
    && forall i :: 0 <= i < |h.trace| ==> h.trace[i] < Short
  }

  /** Set: stores the five values, each cut to its field's width, and
      empties the trace. */
  function SetHit(moduleId: nat, channel: nat, ts: nat, conversion: nat, dataId: nat): (h: Hit)
    ensures Valid(h) && h.trace == []
    ensures h.ts == ts % ULong
    ensures ts < ULong ==> h.ts == ts
    ensures moduleId < Short ==> h.moduleId == moduleId
    ensures channel < Short ==> h.channel == channel
    ensures dataId < Short ==> h.dataId == dataId
    ensures conversion < UInt ==> h.conversion == conversion
  {
    Hit(ts % ULong, conversion % UInt, moduleId % Short, channel % Short, dataId % Short, [])
  }

  /** The default constructor: every argument is -1, which the unsigned
      parameters turn into their largest values. */
  function DefaultHit(): (h: Hit)
    ensures Valid(h) && h.trace == []
    ensures h.moduleId == Short - 1 && h.channel == Short - 1 && h.dataId == Short - 1
    ensures h.ts == 0xFFFF_FFFF_FFFF_FFFF && h.conversion == UInt - 1
  {
    SetHit(Short - 1, Short - 1, 0xFFFF_FFFF_FFFF_FFFF, UInt - 1, Short - 1)
  }

  /** AddSample: appends one 16-bit sample to the trace. */
  function AddSample(h: Hit, sample: nat): (r: Hit)
    requires sample < Short
    ensures |r.trace| == |h.trace| + 1 && r.trace[|h.trace|] == sample
    ensures r.trace[..|h.trace|] == h.trace
    ensures r.(trace := h.trace) == h
    ensures Valid(h) ==> Valid(r)
  {
    h.(trace := h.trace + [sample])
  }

  /** GetNSamples. */
  function NSamples(h: Hit): nat
  {
    |h.trace|
  }

  /** GetSample: the i-th sample, or 0 past the end of the trace. */
  function GetSample(h: Hit, i: nat): (r: nat)
    ensures i >= NSamples(h) ==> r == 0
    ensures i < NSamples(h) ==> r == h.trace[i]
  {
    if i >= |h.trace| then 0 else h.trace[i]
  }

  /** operator<: compares timestamps only. */
  predicate Less(a: Hit, b: Hit)
  {
    a.ts < b.ts
  }

  /** Less is a strict weak order whose ties are the hits with equal
      timestamps. */
  lemma LessIsStrictWeakOrder(a: Hit, b: Hit, c: Hit)
    ensures !Less(a, a)
    ensures Less(a, b) ==> !Less(b, a)
    ensures Less(a, b) && Less(b, c) ==> Less(a, c)
    ensures (!Less(a, b) && !Less(b, a)) <==> a.ts == b.ts
    ensures (!Less(a, b) && !Less(b, a)) && (!Less(b, c) && !Less(c, b)) ==> (!Less(a, c) && !Less(c, a))
  {
  }

  /** The hits appear in non-decreasing timestamp order. */
  predicate SortedByTs(s: seq<Hit>)
  {
    forall i, j :: 0 <= i < j < |s| ==> s[i].ts <= s[j].ts
  }

  /** What std::sort with operator< guarantees: a permutation of the input in
      non-decreasing timestamp order. Hits with equal timestamps may end up in
      any order. */
  predicate IsTsSorting(input: seq<Hit>, output: seq<Hit>)
  {
    multiset(output) == multiset(input) && SortedByTs(output)
  }

  /** Inserts h into a sorted sequence after every hit that is not later. */
  function Insert(h: Hit, s: seq<Hit>): (r: seq<Hit>)
    requires SortedByTs(s)
    ensures SortedByTs(r)
    ensures multiset(r) == multiset(s) + multiset{h}
    ensures |r| == |s| + 1
    decreases |s|
  {
    if s == [] then [h]
    else if h.ts < s[0].ts then [h] + s
    else
      var rest := Insert(h, s[1..]);
      assert s == [s[0]] + s[1..];
      InsertKeepsHead(s, h, rest);
      [s[0]] + rest
  }

  /** The head of a sorted sequence, put before a sorted permutation of the
      rest plus a later hit, keeps the result sorted. */
  lemma InsertKeepsHead(s: seq<Hit>, h: Hit, rest: seq<Hit>)
    requires SortedByTs(s) && |s| > 0 && s[0].ts <= h.ts
    requires SortedByTs(rest) && multiset(rest) == multiset(s[1..]) + multiset{h}
    ensures SortedByTs([s[0]] + rest)
  {
    forall k | 0 <= k < |rest| ensures s[0].ts <= rest[k].ts {
      assert rest[k] in multiset(s[1..]) + multiset{h};
      if rest[k] != h {
        assert rest[k] in s[1..];
      }
    }
    var r := [s[0]] + rest;
    forall i, j | 0 <= i < j < |r| ensures r[i].ts <= r[j].ts {
      if i > 0 { assert r[i] == rest[i - 1] && r[j] == rest[j - 1]; }
      else { assert r[j] == rest[j - 1]; }
    }
  }

  /** One concrete sorting: insertion sort, which keeps equal-timestamp hits
      in arrival order. */
  function SortByTs(s: seq<Hit>): (r: seq<Hit>)
    ensures IsTsSorting(s, r)
    ensures |r| == |s|
    decreases |s|
  {
    if s == [] then []
    else
      assert s == s[..|s| - 1] + [s[|s| - 1]];
      Insert(s[|s| - 1], SortByTs(s[..|s| - 1]))
  }

  /** Sorting is unique up to the order of equal timestamps: any two sortings
      of the same hits have the same timestamp at every position. */
  lemma {:induction false} SortingsAgreeOnTimestamps(input: seq<Hit>, a: seq<Hit>, b: seq<Hit>, i: nat)
    requires IsTsSorting(input, a) && IsTsSorting(input, b)
    requires i < |a|
    ensures |b| == |a| && a[i].ts == b[i].ts
  {
    assert |a| == |multiset(a)| == |multiset(b)| == |b|;
    if a[i].ts < b[i].ts {
      CountBelow(a, b, i);
    } else if b[i].ts < a[i].ts {
      CountBelow(b, a, i);
    }
  }

  /** If position i of sorted a holds a smaller timestamp than position i of
      sorted b, the two cannot hold the same hits: a has at least i + 1 hits
      at or below a[i].ts and b at most i. */
  lemma CountBelow(a: seq<Hit>, b: seq<Hit>, i: nat)
    requires SortedByTs(a) && SortedByTs(b) && |a| == |b| && i < |a|
    requires a[i].ts < b[i].ts
    ensures multiset(a) != multiset(b)
  {
    var t := a[i].ts;
    var lowA := AtOrBelow(a, t);
    var lowB := AtOrBelow(b, t);
    AtOrBelowCount(a, t, i + 1);
    AtOrBelowBound(b, t, i);
    if multiset(a) == multiset(b) {
      AtOrBelowOfMultiset(a, b, t);
    }
  }

  /** The hits of s with timestamp at most t. */
  function AtOrBelow(s: seq<Hit>, t: nat): (r: multiset<Hit>)
    ensures forall h :: h in r ==> h in multiset(s) && h.ts <= t
    ensures forall h :: h in multiset(s) && h.ts <= t ==> r[h] == multiset(s)[h]
    decreases |s|
  {
    if s == [] then multiset{}
    else
      assert s == [s[0]] + s[1..];
      var rest := AtOrBelow(s[1..], t);
      if s[0].ts <= t then multiset{s[0]} + rest else rest
  }

  lemma AtOrBelowOfMultiset(a: seq<Hit>, b: seq<Hit>, t: nat)
    requires multiset(a) == multiset(b)
    ensures AtOrBelow(a, t) == AtOrBelow(b, t)
  {
    forall h
      ensures AtOrBelow(a, t)[h] == AtOrBelow(b, t)[h]
    {
      if h in multiset(a) && h.ts <= t {
      } else {
        assert h !in AtOrBelow(a, t) && h !in AtOrBelow(b, t);
      }
    }
  }

  /** In a sorted sequence, the first k hits are all at or below s[k - 1].ts. */
  lemma {:induction false} AtOrBelowCount(s: seq<Hit>, t: nat, k: nat)
    requires SortedByTs(s) && 0 < k <= |s| && s[k - 1].ts == t
    ensures |AtOrBelow(s, t)| >= k
  {
    AtOrBelowPrefix(s, t, k);
  }

  lemma {:induction false} AtOrBelowPrefix(s: seq<Hit>, t: nat, k: nat)
    requires k <= |s|
    requires forall j :: 0 <= j < k ==> s[j].ts <= t
    ensures |AtOrBelow(s, t)| >= k
    decreases |s|
  {
    if s != [] {
      if k > 0 {
        assert forall j :: 0 <= j < k - 1 ==> s[1..][j].ts <= t;
        AtOrBelowPrefix(s[1..], t, k - 1);
      } else {
        AtOrBelowPrefix(s[1..], t, 0);
      }
    }
  }

  /** In a sorted sequence whose i-th hit is later than t, at most i hits
      are at or below t. */
  lemma {:induction false} AtOrBelowBound(s: seq<Hit>, t: nat, i: nat)
    requires SortedByTs(s) && i < |s| && t < s[i].ts
    ensures |AtOrBelow(s, t)| <= i
    decreases |s|
  {
    if i == 0 {
      NoneAtOrBelow(s, t);
    } else {
      AtOrBelowBound(s[1..], t, i - 1);
    }
  }

  lemma {:induction false} NoneAtOrBelow(s: seq<Hit>, t: nat)
    requires forall j :: 0 <= j < |s| ==> t < s[j].ts
    ensures |AtOrBelow(s, t)| == 0
    decreases |s|
  {
    if s != [] {
      NoneAtOrBelow(s[1..], t);
    }
  }
}

=== FILE: mapping.dfy ===
/** Detector mapping of one software-triggered event
    (examples/analyse_tree_onlyadcstamps.C): entries from module 0 are
    gathered into STUB detector records, entries from module 1 into Recoil E
    records, and coincident entries of the same detector are merged. The
    script's float fields only ever hold integer ADC values and are kept as
    integers, -1 meaning "not set". */
module Mapping {
  import opened Wrappers
  import opened Flush

  const Two63: int := 0x8000_0000_0000_0000
  const Two64: int := 0x1_0000_0000_0000_0000

  /** Coincidence window in ticks for different channels of one STUB. */
  const CoincWindow: nat := 50
  /** Coincidence window in ticks for the data words of one channel. */
  const CoincChannel: nat := 1

  /** STUB channels of module 0, per side, in the order X1, X2, E, G. */
  const StubL: seq<nat> := [0, 1, 3, 2]
  const StubT: seq<nat> := [5, 4, 7, 6]
  const StubB: seq<nat> := [10, 11, 8, 9]
  const StubR: seq<nat> := [14, 15, 12, 13]
  /** Recoil E channels of module 1, for detectors 1 to 4. */
  const RecoilE: seq<nat> := [4, 6, 13, 15]

  // ---------------------------------------------------------------------------
  // Coincidence: |(Long64_t)(a - b)| < window, on unsigned 64-bit stamps.

  /** The unsigned 64-bit difference read as a signed 64-bit value. */
  function SignedDiff(a: nat, b: nat): (d: int)
    ensures -Two63 <= d < Two63
    ensures (d - (a - b)) % Two64 == 0
  {
    var u := (a - b) % Two64;
    if u >= Two63 then u - Two64 else u
  }

  /** TMath::Abs of a signed 64-bit value; the negation of the least value
      wraps back to itself. */
  function Abs64(x: int): (r: int)
    requires -Two63 <= x < Two63
    ensures -Two63 <= r < Two63
    ensures r < 0 <==> x == -Two63
    ensures x != -Two63 ==> r == x || r == -x
  {
    if x >= 0 then x else if x == -Two63 then x else -x
  }

  predicate Coincident(a: nat, b: nat, window: nat)
  {
    Abs64(SignedDiff(a, b)) < window
  }

  /** For stamps below 2^63, coincidence is the plain distance test. */
  lemma CoincidentIsDistance(a: nat, b: nat, window: nat)
    requires a < Two63 && b < Two63
    ensures Coincident(a, b, window) <==> -(window as int) < a - b < window
  {
    var u := (a - b) % Two64;
    if a >= b {
      assert u == a - b;
    } else {
      assert u == a - b + Two64;
    }
  }

  /** Stamps 2^63 apart count as coincident for any positive window, because
      the absolute value of the least signed value is negative. */
  lemma FarStampsCoincide(window: nat)
    requires window > 0
    ensures Coincident(Two63, 0, window) && Coincident(0, Two63, window)
  {
    assert SignedDiff(Two63, 0) == -Two63;
    assert SignedDiff(0, Two63) == -Two63;
  }

  // ---------------------------------------------------------------------------
  // Channel tables.

  datatype Slot = X1 | X2 | E | G

  /** The slot at a position of a channel table. */
  function SlotAt(i: nat): (s: Slot)
    requires i < 4
  {
    [X1, X2, E, G][i]
  }

  /** The channel table of a side. */
  function Table(side: char): seq<nat>
  {
    match side
    case 'l' => StubL
    case 'r' => StubR
    case 't' => StubT
    case 'b' => StubB
    case _ => []
  }

  /** The four sides. */
  predicate IsSide(c: char)
  {
    c == 'l' || c == 'r' || c == 't' || c == 'b'
  }

  /** The loop of populate_stub_array that finds a channel's side and slot:
      per position, left, right, top, then bottom. */
  function StubLookupFrom(channel: nat, i: nat): (r: Option<(char, nat)>)
    requires i <= 4
    ensures r.Some? ==> IsSide(r.value.0) && i <= r.value.1 < 4 && Table(r.value.0)[r.value.1] == channel
    decreases 4 - i
  {
    if i == 4 then None
    else if StubL[i] == channel then Some(('l', i))
    else if StubR[i] == channel then Some(('r', i))
    else if StubT[i] == channel then Some(('t', i))
    else if StubB[i] == channel then Some(('b', i))
    else StubLookupFrom(channel, i + 1)
  }

  function StubLookup(channel: nat): (r: Option<(char, nat)>)
    ensures r.Some? ==> IsSide(r.value.0) && r.value.1 < 4 && Table(r.value.0)[r.value.1] == channel
  {
    StubLookupFrom(channel, 0)
  }

  /** The four STUB tables partition channels 0 to 15: a channel is found
      exactly when it is below 16, and it is found at the one side and
      position whose table entry it is. */
  lemma StubTablesPartition(channel: nat, side: char, i: nat)
    ensures StubLookup(channel).Some? <==> channel < 16
    ensures IsSide(side) && i < 4 && Table(side)[i] == channel <==> StubLookup(channel) == Some((side, i))
  {
    assert StubLookup(channel) == StubLookupFrom(channel, 0);
    if channel < 16 {
      assert channel in StubL + StubR + StubT + StubB;
    }
  }

  /** The recoil loop: detector number i + 1 for the channel at position i. */
  function RecoilLookupFrom(channel: nat, i: nat): (r: Option<nat>)
    requires i <= 4
    ensures r.Some? ==> i + 1 <= r.value <= 4 && RecoilE[r.value - 1] == channel
    decreases 4 - i
  {
    if i == 4 then None
    else if RecoilE[i] == channel then Some(i + 1)
    else RecoilLookupFrom(channel, i + 1)
  }

  function RecoilLookup(channel: nat): (r: Option<nat>)
    ensures r.Some? ==> 1 <= r.value <= 4 && RecoilE[r.value - 1] == channel
  {
    RecoilLookupFrom(channel, 0)
  }

  /** Only channels 4, 6, 13 and 15 are Recoil E detectors, numbered 1 to 4. */
  lemma RecoilChannels(channel: nat)
    ensures RecoilLookup(channel).Some? <==> channel in {4, 6, 13, 15}
    ensures channel == 4 ==> RecoilLookup(channel) == Some(1)
    ensures channel == 6 ==> RecoilLookup(channel) == Some(2)
    ensures channel == 13 ==> RecoilLookup(channel) == Some(3)
    ensures channel == 15 ==> RecoilLookup(channel) == Some(4)
  {
    assert RecoilLookup(channel) == RecoilLookupFrom(channel, 0);
  }

  // ---------------------------------------------------------------------------
  // Records.

  /** One channel's data in a STUB; det_id 'n' marks an empty slot. */
  datatype StubHit = StubHit(adcTs: nat, detId: char, detNo: int, qlong: int, qshort: int, finetime: int)

  const EmptyStubHit: StubHit := StubHit(0, 'n', 0, -1, -1, -1)

  /** A STUB detector record: the stamp of the entry that opened it, its side
      and its four slots. */
  datatype Stub = Stub(adcTs: nat, detId: char, x1: StubHit, x2: StubHit, e: StubHit, g: StubHit)

  /** A Recoil E detector record. */
  datatype GenHit = GenHit(adcTs: nat, detNo: int, qlong: int, qshort: int, finetime: int)

  /** The data IDs with a value field: QLong, QShort, fine timing. */
  predicate KnownData(dataId: nat)
  {
    dataId == 0 || dataId == 1 || dataId == 3
  }

  /** The value fields a new record takes from an entry: the conversion in
      the field of its data ID, -1 in the others (all -1 for an unknown ID). */
  function Values(dataId: nat, adcData: nat): (v: (int, int, int))
    ensures v.0 == (if dataId == 0 then adcData else -1)
    ensures v.1 == (if dataId == 1 then adcData else -1)
    ensures v.2 == (if dataId == 3 then adcData else -1)
  {
    var none: int := -1;
    match dataId
    case 0 => (adcData, none, none)
    case 1 => (none, adcData, none)
    case 3 => (none, none, adcData)
    case _ => (none, none, none)
  }

  function SlotOf(st: Stub, slot: Slot): StubHit
  {
    match slot
    case X1 => st.x1
    case X2 => st.x2
    case E => st.e
    case G => st.g
  }

  function WithSlot(st: Stub, slot: Slot, h: StubHit): (r: Stub)
    ensures SlotOf(r, slot) == h && r.adcTs == st.adcTs && r.detId == st.detId
    ensures forall o: Slot :: o != slot ==> SlotOf(r, o) == SlotOf(st, o)
  {
    match slot
    case X1 => st.(x1 := h)
    case X2 => st.(x2 := h)
    case E => st.(e := h)
    case G => st.(g := h)
  }

  /** An existing slot takes the value of a known data ID. */
  function MergeStubHit(h: StubHit, dataId: nat, adcData: nat): (r: StubHit)
    requires KnownData(dataId)
    ensures r.adcTs == h.adcTs && r.detId == h.detId && r.detNo == h.detNo
    ensures r.qlong == (if dataId == 0 then adcData else h.qlong)
    ensures r.qshort == (if dataId == 1 then adcData else h.qshort)
    ensures r.finetime == (if dataId == 3 then adcData else h.finetime)
  {
    if dataId == 0 then h.(qlong := adcData)
    else if dataId == 1 then h.(qshort := adcData)
    else h.(finetime := adcData)
  }

  function MergeGenHit(h: GenHit, dataId: nat, adcData: nat): (r: GenHit)
    requires KnownData(dataId)
    ensures r.adcTs == h.adcTs && r.detNo == h.detNo
    ensures r.qlong == (if dataId == 0 then adcData else h.qlong)
    ensures r.qshort == (if dataId == 1 then adcData else h.qshort)
    ensures r.finetime == (if dataId == 3 then adcData else h.finetime)
  {
    if dataId == 0 then h.(qlong := adcData)
    else if dataId == 1 then h.(qshort := adcData)
    else h.(finetime := adcData)
  }

  // ---------------------------------------------------------------------------
  // Searches: the first record of the same detector within the window.

  predicate StubMatches(st: Stub, side: char, ts: nat)
  {
    st.detId == side && Coincident(ts, st.adcTs, CoincWindow)
  }

  function FindStubFrom(stubs: seq<Stub>, side: char, ts: nat, k: nat): (r: Option<nat>)
    requires k <= |stubs|
    ensures r.Some? ==> k <= r.value < |stubs| && StubMatches(stubs[r.value], side, ts)
    ensures r.Some? ==> forall j :: k <= j < r.value ==> !StubMatches(stubs[j], side, ts)
    ensures r.None? ==> forall j :: k <= j < |stubs| ==> !StubMatches(stubs[j], side, ts)
    decreases |stubs| - k
  {
    if k == |stubs| then None
    else if StubMatches(stubs[k], side, ts) then Some(k)
    else FindStubFrom(stubs, side, ts, k + 1)
  }

  predicate RecoilMatches(h: GenHit, detNo: nat, ts: nat)
  {
    h.detNo == detNo && Coincident(ts, h.adcTs, CoincChannel)
  }

  function FindRecoilFrom(hits: seq<GenHit>, detNo: nat, ts: nat, k: nat): (r: Option<nat>)
    requires k <= |hits|
    ensures r.Some? ==> k <= r.value < |hits| && RecoilMatches(hits[r.value], detNo, ts)
    ensures r.Some? ==> forall j :: k <= j < r.value ==> !RecoilMatches(hits[j], detNo, ts)
    ensures r.None? ==> forall j :: k <= j < |hits| ==> !RecoilMatches(hits[j], detNo, ts)
    decreases |hits| - k
  {
    if k == |hits| then None
    else if RecoilMatches(hits[k], detNo, ts) then Some(k)
    else FindRecoilFrom(hits, detNo, ts, k + 1)
  }

  // ---------------------------------------------------------------------------
  // populate_stub_array and populate_recoil_e_array.

  /** The new slot content an entry on a STUB channel makes. */
  function NewStubHit(e: TreeEntry, side: char): StubHit
  {
    var v := Values(e.dataId, e.adcData);
    StubHit(e.adcTs, side, 0, v.0, v.1, v.2)
  }

  /** populate_stub_array: ignore an entry off the tables; merge it into the
      first STUB of its side within the window (filling an empty slot, or
      setting the value of a known data ID in a filled one); else open a STUB. */
  function PopulateStub(stubs: seq<Stub>, e: TreeEntry): (r: seq<Stub>)
    ensures |r| == |stubs| || |r| == |stubs| + 1
    ensures forall k :: 0 <= k < |stubs| ==> r[k].adcTs == stubs[k].adcTs && r[k].detId == stubs[k].detId
  {
    match StubLookup(e.channel)
    case None => stubs
    case Some((side, i)) =>
      var slot := SlotAt(i);
      var nh := NewStubHit(e, side);
      match FindStubFrom(stubs, side, e.adcTs, 0)
      case Some(k) =>
        var cur := SlotOf(stubs[k], slot);
        if cur.detId == 'n' then stubs[k := WithSlot(stubs[k], slot, nh)]
        else if KnownData(e.dataId) then stubs[k := WithSlot(stubs[k], slot, MergeStubHit(cur, e.dataId, e.adcData))]
        else stubs
      case None =>
        var empty := Stub(nh.adcTs, side, EmptyStubHit, EmptyStubHit, EmptyStubHit, EmptyStubHit);
        stubs + [WithSlot(empty, slot, nh)]
  }

  /** populate_recoil_e_array: ignore an entry off the table; merge it into the
      first record of its detector at the same stamp (a known data ID only);
      else append it. */
  function PopulateRecoil(hits: seq<GenHit>, e: TreeEntry): (r: seq<GenHit>)
    ensures |r| == |hits| || |r| == |hits| + 1
    ensures forall k :: 0 <= k < |hits| ==> r[k].adcTs == hits[k].adcTs && r[k].detNo == hits[k].detNo
  {
    match RecoilLookup(e.channel)
    case None => hits
    case Some(no) =>
      var v := Values(e.dataId, e.adcData);
      match FindRecoilFrom(hits, no, e.adcTs, 0)
      case Some(k) => if KnownData(e.dataId) then hits[k := MergeGenHit(hits[k], e.dataId, e.adcData)] else hits
      case None => hits + [GenHit(e.adcTs, no, v.0, v.1, v.2)]
  }

  /** The containers filled for one event. */
  datatype Mapped = Mapped(stubs: seq<Stub>, recoils: seq<GenHit>)

  /** One entry of do_detector_mapping: module 0 holds the STUB channels,
      module 1 the Recoil channels, and other modules are dropped. */
  function Route(m: Mapped, e: TreeEntry): (r: Mapped)
    ensures e.moduleId != 0 ==> r.stubs == m.stubs
    ensures e.moduleId != 1 ==> r.recoils == m.recoils
  {
    if e.moduleId == 0 then m.(stubs := PopulateStub(m.stubs, e))
    else if e.moduleId == 1 then m.(recoils := PopulateRecoil(m.recoils, e))
    else m
  }

  /** do_detector_mapping over an event's entries in order. */
  function DetectorMapping(hits: seq<TreeEntry>): (m: Mapped)
    ensures WellFormed(m)
    decreases |hits|
  {
    if hits == [] then Mapped([], [])
    else
      var m0 := DetectorMapping(hits[..|hits| - 1]);
      RouteKeepsWellFormed(m0, hits[|hits| - 1]);
      Route(m0, hits[|hits| - 1])
  }

  // ---------------------------------------------------------------------------
  // Invariants of the containers.

  /** A STUB is of a side, and each filled slot holds an entry of that side
      within the window of the STUB's stamp. */
  predicate StubShape(st: Stub)
  {
    IsSide(st.detId)
    && forall o: Slot :: SlotOf(st, o).detId != 'n' ==>
         SlotOf(st, o).detId == st.detId && Coincident(SlotOf(st, o).adcTs, st.adcTs, CoincWindow)
  }

  /** No later STUB falls within the window of an earlier one of its side, and
      no later Recoil record of a detector shares an earlier one's stamp. */
  predicate WellFormed(m: Mapped)
  {
    (forall k :: 0 <= k < |m.stubs| ==> StubShape(m.stubs[k]))
    && (forall i, j :: 0 <= i < j < |m.stubs| ==> !StubMatches(m.stubs[i], m.stubs[j].detId, m.stubs[j].adcTs))
    && (forall k :: 0 <= k < |m.recoils| ==> 1 <= m.recoils[k].detNo <= 4)
    && (forall i, j :: 0 <= i < j < |m.recoils| ==>
          !RecoilMatches(m.recoils[i], m.recoils[j].detNo as nat, m.recoils[j].adcTs))
  }

  lemma StubsKeepShape(stubs: seq<Stub>, e: TreeEntry)
    requires forall k :: 0 <= k < |stubs| ==> StubShape(stubs[k])
    requires forall i, j :: 0 <= i < j < |stubs| ==> !StubMatches(stubs[i], stubs[j].detId, stubs[j].adcTs)
    ensures var r := PopulateStub(stubs, e);
      (forall k :: 0 <= k < |r| ==> StubShape(r[k]))
      && (forall i, j :: 0 <= i < j < |r| ==> !StubMatches(r[i], r[j].detId, r[j].adcTs))
  {
    var r := PopulateStub(stubs, e);
    match StubLookup(e.channel)
    case None =>
    case Some((side, i)) =>
      var slot := SlotAt(i);
      var nh := NewStubHit(e, side);
      match FindStubFrom(stubs, side, e.adcTs, 0)
      case Some(k) =>
        assert forall j :: 0 <= j < |r| ==> r[j].adcTs == stubs[j].adcTs && r[j].detId == stubs[j].detId;
        assert forall j :: 0 <= j < |r| && j != k ==> r[j] == stubs[j];
        assert StubShape(r[k]);
      case None =>
        var empty := Stub(nh.adcTs, side, EmptyStubHit, EmptyStubHit, EmptyStubHit, EmptyStubHit);
        assert r == stubs + [WithSlot(empty, slot, nh)];
        assert StubShape(r[|stubs|]);
  }

  lemma RecoilsKeepShape(hits: seq<GenHit>, e: TreeEntry)
    requires forall k :: 0 <= k < |hits| ==> 1 <= hits[k].detNo <= 4
    requires forall i, j :: 0 <= i < j < |hits| ==> !RecoilMatches(hits[i], hits[j].detNo as nat, hits[j].adcTs)
    ensures var r := PopulateRecoil(hits, e);
      (forall k :: 0 <= k < |r| ==> 1 <= r[k].detNo <= 4)
      && (forall i, j :: 0 <= i < j < |r| ==> !RecoilMatches(r[i], r[j].detNo as nat, r[j].adcTs))
  {
  }

  lemma RouteKeepsWellFormed(m: Mapped, e: TreeEntry)
    requires WellFormed(m)
    ensures WellFormed(Route(m, e))
  {
    StubsKeepShape(m.stubs, e);
    RecoilsKeepShape(m.recoils, e);
  }

  // ---------------------------------------------------------------------------
  // Merge and append.

  /** An entry on a STUB channel opens a new STUB exactly when no STUB of its
      side lies within the window; the new STUB carries the entry's stamp and
      side and holds the entry in its slot only. */
  lemma StubAppendsIffNoMatch(stubs: seq<Stub>, e: TreeEntry, side: char, i: nat)
    requires StubLookup(e.channel) == Some((side, i))
    ensures |PopulateStub(stubs, e)| == |stubs| + 1 <==> forall k :: 0 <= k < |stubs| ==> !StubMatches(stubs[k], side, e.adcTs)
    ensures |PopulateStub(stubs, e)| == |stubs| + 1 ==>
      var st := PopulateStub(stubs, e)[|stubs|];
      st.adcTs == e.adcTs && st.detId == side && SlotOf(st, SlotAt(i)) == NewStubHit(e, side)
      && forall o: Slot :: o != SlotAt(i) ==> SlotOf(st, o) == EmptyStubHit
  {
  }

  /** An entry merging into a filled slot sets only the value of its data ID;
      an unknown data ID leaves the STUBs alone. */
  lemma StubMergeSetsOneValue(stubs: seq<Stub>, e: TreeEntry, side: char, i: nat, k: nat)
    requires StubLookup(e.channel) == Some((side, i))
    requires FindStubFrom(stubs, side, e.adcTs, 0) == Some(k)
    requires SlotOf(stubs[k], SlotAt(i)).detId != 'n'
    ensures KnownData(e.dataId) ==>
      PopulateStub(stubs, e) == stubs[k := WithSlot(stubs[k], SlotAt(i), MergeStubHit(SlotOf(stubs[k], SlotAt(i)), e.dataId, e.adcData))]
    ensures !KnownData(e.dataId) ==> PopulateStub(stubs, e) == stubs
  {
  }

  /** An entry on a Recoil E channel is appended exactly when no record of its
      detector has its stamp; otherwise it sets one value of the first such
      record (none for an unknown data ID). */
  lemma RecoilMergeOrAppend(hits: seq<GenHit>, e: TreeEntry, no: nat)
    requires RecoilLookup(e.channel) == Some(no)
    ensures |PopulateRecoil(hits, e)| == |hits| + 1 <==> forall k :: 0 <= k < |hits| ==> !RecoilMatches(hits[k], no, e.adcTs)
    ensures |PopulateRecoil(hits, e)| == |hits| + 1 ==>
      PopulateRecoil(hits, e)[|hits|].detNo == no && PopulateRecoil(hits, e)[|hits|].adcTs == e.adcTs
    ensures forall k :: FindRecoilFrom(hits, no, e.adcTs, 0) == Some(k) && KnownData(e.dataId) ==>
      PopulateRecoil(hits, e) == hits[k := MergeGenHit(hits[k], e.dataId, e.adcData)]
  {
  }

  /** Entries off the tables change nothing. */
  lemma UnmappedIgnored(m: Mapped, e: TreeEntry)
    ensures e.moduleId == 0 && e.channel >= 16 ==> Route(m, e) == m
    ensures e.moduleId == 1 && e.channel !in {4, 6, 13, 15} ==> Route(m, e) == m
    ensures e.moduleId != 0 && e.moduleId != 1 ==> Route(m, e) == m
  {
    StubTablesPartition(e.channel, 'l', 0);
    RecoilChannels(e.channel);
  }

  /** Every record comes from an entry: there are never more STUBs than module-0
      entries nor more Recoil records than module-1 entries. */
  lemma {:induction false} RecordsBounded(hits: seq<TreeEntry>)
    ensures |DetectorMapping(hits).stubs| <= CountModule(hits, 0)
    ensures |DetectorMapping(hits).recoils| <= CountModule(hits, 1)
    decreases |hits|
  {
    if hits != [] {
      RecordsBounded(hits[..|hits| - 1]);
    }
  }

  function CountModule(hits: seq<TreeEntry>, moduleId: nat): nat
    decreases |hits|
  {
    if hits == [] then 0
    else CountModule(hits[..|hits| - 1], moduleId) + (if hits[|hits| - 1].moduleId == moduleId then 1 else 0)
  }
}

=== FILE: swap.dfy ===
/** The three byte/word permutations ISSBuffer uses to bring a foreign block
    into the host's byte order (ISSBuffer.hh). */
module Swap {
  import opened Bytes

  /** Reverses the byte order of a 32-bit integer. */
  function Swap32(datum: bv32): bv32
  {
    ((datum & 0xFF000000) >> 24)
    | ((datum & 0x00FF0000) >> 8)
    | ((datum & 0x0000FF00) << 8)
    | ((datum & 0x000000FF) << 24)
  }

  /** Exchanges the two 32-bit halves of a 64-bit integer. */
  function SwapWords(datum: bv64): bv64
  {
    ((datum & 0xFFFFFFFF00000000) >> 32) | ((datum & 0x00000000FFFFFFFF) << 32)
  }

  /** Reverses the byte order of a 64-bit integer. */
  function Swap64(datum: bv64): bv64
  {
    ((datum & 0xFF00000000000000) >> 56)
    | ((datum & 0x00FF000000000000) >> 40)
    | ((datum & 0x0000FF0000000000) >> 24)
    | ((datum & 0x000000FF00000000) >> 8)
    | ((datum & 0x00000000FF000000) << 8)
    | ((datum & 0x0000000000FF0000) << 24)
    | ((datum & 0x000000000000FF00) << 40)
    | ((datum & 0x00000000000000FF) << 56)
  }

  /** The worked examples given in the source's comments. */
  lemma DocExamples()
    ensures Swap32(0x01234567) == 0x67452301
    ensures SwapWords(0x0123456789ABCDEF) == 0x89ABCDEF01234567
    ensures Swap64(0x0123456789ABCDEF) == 0xEFCDAB8967452301
  {
  }

  /** Each swap undoes itself. */
  lemma Involutions(x: bv32, y: bv64)
    ensures Swap32(Swap32(x)) == x
    ensures SwapWords(SwapWords(y)) == y
    ensures Swap64(Swap64(y)) == y
  {
  }

  /** Swap32 is the byte reversal: the bytes of Swap32(x) are those of x backwards. */
  lemma Swap32ReversesBytes(x: bv32)
    ensures U32Bytes(Swap32(x)) == Reverse(U32Bytes(x))
  {
    Swap32Lanes(x);
    MirroredLanes32(Swap32(x), x);
  }

  /** Two 32-bit values whose byte lanes mirror each other store mirrored bytes. */
  lemma MirroredLanes32(y: bv32, x: bv32)
    requires y & 0xFF == x >> 24
    requires (y >> 8) & 0xFF == (x >> 16) & 0xFF
    requires (y >> 16) & 0xFF == (x >> 8) & 0xFF
    requires y >> 24 == x & 0xFF
    ensures U32Bytes(y) == Reverse(U32Bytes(x))
  {
    var a, b := U32Bytes(y), U32Bytes(x);
    assert Reverse(b) == [b[3], b[2], b[1], b[0]];
    assert a[0] == b[3] && a[1] == b[2] && a[2] == b[1] && a[3] == b[0];
  }

  /** Byte lane k of Swap32(x) is byte lane 3 - k of x. */
  lemma Swap32Lanes(x: bv32)
    ensures Swap32(x) & 0xFF == x >> 24
    ensures (Swap32(x) >> 8) & 0xFF == (x >> 16) & 0xFF
    ensures (Swap32(x) >> 16) & 0xFF == (x >> 8) & 0xFF
    ensures Swap32(x) >> 24 == x & 0xFF
  {
  }

  /** Byte lane k of Swap64(x) is byte lane 7 - k of x. */
  lemma Swap64Lanes(x: bv64)
    ensures Swap64(x) & 0xFF == x >> 56
    ensures (Swap64(x) >> 8) & 0xFF == (x >> 48) & 0xFF
    ensures (Swap64(x) >> 16) & 0xFF == (x >> 40) & 0xFF
    ensures (Swap64(x) >> 24) & 0xFF == (x >> 32) & 0xFF
    ensures (Swap64(x) >> 32) & 0xFF == (x >> 24) & 0xFF
    ensures (Swap64(x) >> 40) & 0xFF == (x >> 16) & 0xFF
    ensures (Swap64(x) >> 48) & 0xFF == (x >> 8) & 0xFF
    ensures Swap64(x) >> 56 == x & 0xFF
  {
  }

  /** Two 64-bit values whose byte lanes mirror each other store mirrored bytes. */
  lemma MirroredLanes(y: bv64, x: bv64)
    requires y & 0xFF == x >> 56
    requires (y >> 8) & 0xFF == (x >> 48) & 0xFF
    requires (y >> 16) & 0xFF == (x >> 40) & 0xFF
    requires (y >> 24) & 0xFF == (x >> 32) & 0xFF
    requires (y >> 32) & 0xFF == (x >> 24) & 0xFF
    requires (y >> 40) & 0xFF == (x >> 16) & 0xFF
    requires (y >> 48) & 0xFF == (x >> 8) & 0xFF
    requires y >> 56 == x & 0xFF
    ensures U64Bytes(y) == Reverse(U64Bytes(x))
  {
    var a, b := U64Bytes(y), U64Bytes(x);
    assert Reverse(b) == [b[7], b[6], b[5], b[4], b[3], b[2], b[1], b[0]];
    assert a[0] == b[7] && a[1] == b[6] && a[2] == b[5] && a[3] == b[4];
    assert a[4] == b[3] && a[5] == b[2] && a[6] == b[1] && a[7] == b[0];
  }

  /** Swap64 is the byte reversal: the bytes of Swap64(x) are those of x backwards. */
  lemma Swap64ReversesBytes(x: bv64)
    ensures U64Bytes(Swap64(x)) == Reverse(U64Bytes(x))
  {
    Swap64Lanes(x);
    MirroredLanes(Swap64(x), x);
  }

  /** Byte lanes of SwapWords(x): lanes 0..3 and 4..7 trade places. */
  lemma SwapWordsLanes(x: bv64)
    ensures SwapWords(x) & 0xFF == (x >> 32) & 0xFF
    ensures (SwapWords(x) >> 8) & 0xFF == (x >> 40) & 0xFF
    ensures (SwapWords(x) >> 16) & 0xFF == (x >> 48) & 0xFF
    ensures (SwapWords(x) >> 24) & 0xFF == x >> 56
    ensures (SwapWords(x) >> 32) & 0xFF == x & 0xFF
    ensures (SwapWords(x) >> 40) & 0xFF == (x >> 8) & 0xFF
    ensures (SwapWords(x) >> 48) & 0xFF == (x >> 16) & 0xFF
    ensures SwapWords(x) >> 56 == (x >> 24) & 0xFF
  {
  }

  /** SwapWords moves the low 32 bits to the top and the top 32 bits to the bottom. */
  lemma SwapWordsExchangesHalves(x: bv64)
    ensures U64Bytes(SwapWords(x)) == U64Bytes(x)[4..] + U64Bytes(x)[..4]
  {
    SwapWordsLanes(x);
    RotatedLanes(SwapWords(x), x);
  }

  /** Two 64-bit values whose 32-bit halves trade places store their four-byte
      groups in the opposite order. */
  lemma RotatedLanes(y: bv64, x: bv64)
    requires y & 0xFF == (x >> 32) & 0xFF
    requires (y >> 8) & 0xFF == (x >> 40) & 0xFF
    requires (y >> 16) & 0xFF == (x >> 48) & 0xFF
    requires (y >> 24) & 0xFF == x >> 56
    requires (y >> 32) & 0xFF == x & 0xFF
    requires (y >> 40) & 0xFF == (x >> 8) & 0xFF
    requires (y >> 48) & 0xFF == (x >> 16) & 0xFF
    requires y >> 56 == (x >> 24) & 0xFF
    ensures U64Bytes(y) == U64Bytes(x)[4..] + U64Bytes(x)[..4]
  {
    var a, b := U64Bytes(y), U64Bytes(x);
    assert b[4..] + b[..4] == [b[4], b[5], b[6], b[7], b[0], b[1], b[2], b[3]];
    assert a[0] == b[4] && a[1] == b[5] && a[2] == b[6] && a[3] == b[7];
    assert a[4] == b[0] && a[5] == b[1] && a[6] == b[2] && a[7] == b[3];
  }

  /** Reading bytes stored in the opposite order yields the swapped value, so
      applying Swap64 to such a read recovers the value that was written. */
  lemma ForeignRead64(x: bv64, pre: seq<bv8>, post: seq<bv8>)
    ensures LeU64(pre + Reverse(U64Bytes(x)) + post, |pre|) == Swap64(x)
    ensures Swap64(LeU64(pre + Reverse(U64Bytes(x)) + post, |pre|)) == x
  {
    Swap64ReversesBytes(x);
    U64RoundTrip(Swap64(x), pre, post);
  }

  /** The 32-bit counterpart of ForeignRead64. */
  lemma ForeignRead32(x: bv32, pre: seq<bv8>, post: seq<bv8>)
    ensures LeU32(pre + Reverse(U32Bytes(x)) + post, |pre|) == Swap32(x)
  {
    Swap32ReversesBytes(x);
    U32RoundTrip(Swap32(x), pre, post);
  }
}

=== FILE: timestamp.dfy ===
/** The timestamp state an ISSWord carries between words (ISSWord.hh): the
    current word, the two latched 20-bit timestamp extensions (global clock
    from the V1495 logic unit, ADC clock from every other module) and the last
    full timestamp computed for each clock. */
module Timestamp {
  import opened Word

  /** The state of one ISSWord object. The constructor leaves the two
      `last*` fields uninitialised, so they are parameters of NewDecoder. */
  datatype Decoder = Decoder(
    word: bv64,
    lastGlobalTs: bv64,
    lastAdcTs: bv64,
    extGlobalTs: bv32,
    extAdcTs: bv32)

  /** Extensions only ever come from a 20-bit information field. */
  predicate ValidLatches(d: Decoder)
  {
    d.extGlobalTs < 0x10_0000 && d.extAdcTs < 0x10_0000
  }

  /** The 20-bit field of an extended-timestamp word, at the width the
      source stores it. */
  function FieldBits(w: bv64): (f: bv32)
    ensures f < 0x10_0000
    ensures IsInfo(w) ==> (f as bv20) as nat == InfoField(w)
  {
    ((w >> 32) & 0xFFFFF) as bv32
  }

  /** Set: takes the next word and, when it is an extended-timestamp
      information word, latches its field as the extension of the clock its
      module feeds. */
  function Latch(d: Decoder, w: bv64): (r: Decoder)
    ensures r.word == w && r.lastGlobalTs == d.lastGlobalTs && r.lastAdcTs == d.lastAdcTs
    ensures HasExtendedTimestamp(w) && InfoModule(w) == V1495ModuleId ==>
      r.extGlobalTs == FieldBits(w) && r.extAdcTs == d.extAdcTs
    ensures HasExtendedTimestamp(w) && InfoModule(w) != V1495ModuleId ==>
      r.extAdcTs == FieldBits(w) && r.extGlobalTs == d.extGlobalTs
    ensures !HasExtendedTimestamp(w) ==> r.extGlobalTs == d.extGlobalTs && r.extAdcTs == d.extAdcTs
    ensures ValidLatches(d) ==> ValidLatches(r)
  {
    if HasExtendedTimestamp(w) then
      if InfoModule(w) == V1495ModuleId then d.(word := w, extGlobalTs := FieldBits(w))
      else d.(word := w, extAdcTs := FieldBits(w))
    else d.(word := w)
  }

  /** The constructor: both extensions 0, then Set(word). */
  function NewDecoder(w: bv64, lastGlobalTs: bv64, lastAdcTs: bv64): (r: Decoder)
    ensures ValidLatches(r) && r.word == w
    ensures !HasExtendedTimestamp(w) ==> r.extGlobalTs == 0 && r.extAdcTs == 0
  {
    Latch(Decoder(0, lastGlobalTs, lastAdcTs, 0, 0), w)
  }

  /** SetGlobalExtendedTimestamp. */
  function SetGlobalExtended(d: Decoder, ext: bv32): (r: Decoder)
    ensures r.extGlobalTs == ext
    ensures r.(extGlobalTs := d.extGlobalTs) == d
  {
    d.(extGlobalTs := ext)
  }

  /** SetADCExtendedTimestamp. */
  function SetAdcExtended(d: Decoder, ext: bv32): (r: Decoder)
    ensures r.extAdcTs == ext
    ensures r.(extAdcTs := d.extAdcTs) == d
  {
    d.(extAdcTs := ext)
  }

  /** An extension shifted above the low 28 bits of a word; ComposeParts
      reads both parts back. */
  function Compose(ext: bv32, w: bv64): (ts: bv64)
  {
    ((ext as bv64) << 28) | (w & 0xFFFFFFF)
  }

  /** Both parts of a composed timestamp can be read back. */
  lemma ComposeParts(ext: bv32, w: bv64)
    ensures Compose(ext, w) >> 28 == ext as bv64
    ensures Compose(ext, w) & 0xFFFFFFF == w & 0xFFFFFFF
  {
    Widen32(ext);
    SplitAt28(ext as bv64, w);
  }

  lemma Widen32(x: bv32)
    ensures x as bv64 < 0x1_0000_0000
  {
  }

  lemma SplitAt28(e: bv64, w: bv64)
    requires e < 0x1_0000_0000
    ensures ((e << 28) | (w & 0xFFFFFFF)) >> 28 == e
    ensures ((e << 28) | (w & 0xFFFFFFF)) & 0xFFFFFFF == w & 0xFFFFFFF
  {
  }

  /** A 20-bit extension gives a 48-bit timestamp. */
  lemma ComposeFits48(ext: bv32, w: bv64)
    requires ext < 0x10_0000
    ensures Compose(ext, w) < 0x1_0000_0000_0000
  {
    ComposeParts(ext, w);
    assert Compose(ext, w) >> 28 < 0x10_0000;
  }

  /** The result of a timestamp query: the timestamp and the decoder after it. */
  datatype Stamped = Stamped(ts: bv64, dec: Decoder)

  /** GetFullGlobalTimestamp: a sample word repeats the last global timestamp;
      any other word combines the global extension with its own low 28 bits
      and remembers the result. */
  function FullGlobalTimestamp(d: Decoder): (r: Stamped)
    ensures IsSample(d.word) ==> r == Stamped(d.lastGlobalTs, d)
    ensures !IsSample(d.word) ==> r.dec == d.(lastGlobalTs := r.ts)
    ensures !IsSample(d.word) ==> r.ts >> 28 == d.extGlobalTs as bv64 && r.ts & 0xFFFFFFF == d.word & 0xFFFFFFF
  {
    if IsSample(d.word) then Stamped(d.lastGlobalTs, d)
    else
      ComposeParts(d.extGlobalTs, d.word);
      var ts := Compose(d.extGlobalTs, d.word);
      Stamped(ts, d.(lastGlobalTs := ts))
  }

  /** GetFullADCTimestamp: the same with the ADC extension and memory. */
  function FullAdcTimestamp(d: Decoder): (r: Stamped)
    ensures IsSample(d.word) ==> r == Stamped(d.lastAdcTs, d)
    ensures !IsSample(d.word) ==> r.dec == d.(lastAdcTs := r.ts)
    ensures !IsSample(d.word) ==> r.ts >> 28 == d.extAdcTs as bv64 && r.ts & 0xFFFFFFF == d.word & 0xFFFFFFF
  {
    if IsSample(d.word) then Stamped(d.lastAdcTs, d)
    else
      ComposeParts(d.extAdcTs, d.word);
      var ts := Compose(d.extAdcTs, d.word);
      Stamped(ts, d.(lastAdcTs := ts))
  }

  /** From valid latches, every computed timestamp fits in 48 bits. */
  lemma FullTimestampsFit48(d: Decoder)
    requires ValidLatches(d) && !IsSample(d.word)
    ensures FullGlobalTimestamp(d).ts < 0x1_0000_0000_0000
    ensures FullAdcTimestamp(d).ts < 0x1_0000_0000_0000
  {
    var g := Compose(d.extGlobalTs, d.word);
    var a := Compose(d.extAdcTs, d.word);
    ComposeFits48(d.extGlobalTs, d.word);
    ComposeFits48(d.extAdcTs, d.word);
    assert FullGlobalTimestamp(d).ts == g;
    assert FullAdcTimestamp(d).ts == a;
  }

  /** Composition is injective: a timestamp determines its extension and its
      low 28 bits. */
  lemma ComposeInjective(e1: bv32, w1: bv64, e2: bv32, w2: bv64)
    ensures Compose(e1, w1) == Compose(e2, w2) <==> e1 == e2 && w1 & 0xFFFFFFF == w2 & 0xFFFFFFF
  {
    ComposeParts(e1, w1);
    ComposeParts(e2, w2);
    if Compose(e1, w1) == Compose(e2, w2) {
      assert e1 as bv64 == e2 as bv64;
    }
  }

  /** A word that is not an extended-timestamp word changes neither latch, so
      timestamps of later words keep using the last latched extensions. */
  lemma {:induction false} LatchesPersist(d: Decoder, ws: seq<bv64>)
    requires forall i :: 0 <= i < |ws| ==> !HasExtendedTimestamp(ws[i])
    ensures LatchAll(d, ws).extGlobalTs == d.extGlobalTs && LatchAll(d, ws).extAdcTs == d.extAdcTs
    decreases |ws|
  {
    if ws != [] {
      LatchesPersist(Latch(d, ws[0]), ws[1..]);
    }
  }

  /** Set applied to each word in turn. */
  function LatchAll(d: Decoder, ws: seq<bv64>): (r: Decoder)
    ensures ValidLatches(d) ==> ValidLatches(r)
    ensures r.lastGlobalTs == d.lastGlobalTs && r.lastAdcTs == d.lastAdcTs
    decreases |ws|
  {
    if ws == [] then d else LatchAll(Latch(d, ws[0]), ws[1..])
  }

  /** The full timestamp an extended-timestamp word gives itself: its own
      field above its own low 28 bits, on the clock its module feeds. */
  lemma ExtendedWordStamp(d: Decoder, w: bv64)
    requires HasExtendedTimestamp(w)
    ensures InfoModule(w) == V1495ModuleId ==>
      FullGlobalTimestamp(Latch(d, w)).ts == Compose(FieldBits(w), w)
    ensures InfoModule(w) != V1495ModuleId ==>
      FullAdcTimestamp(Latch(d, w)).ts == Compose(FieldBits(w), w)
  {
  }

  /** An extended-timestamp word with field 5 from an ADC module, followed by
      an ADC word with low bits 0x10, gives (5 << 28) | 0x10; a sample word
      after it reports the same timestamp. */
  lemma ExtensionExample(d: Decoder, low: bv28, sample: bv64)
    requires IsSample(sample)
    ensures var d1 := Latch(d, MakeInfo(1, 4, 5, low));
            var a := FullAdcTimestamp(Latch(d1, MakeAdc(0, 0, 0, 100, 0x10)));
            a.ts == (5 << 28) | 0x10
            && FullAdcTimestamp(Latch(a.dec, sample)).ts == a.ts
  {
    InfoRoundTrip(1, 4, 5, low);
    AdcRoundTrip(0, 0, 0, 100, 0x10);
  }

  /** A sample word right after any timestamp query reports that timestamp
      again, on either clock. */
  lemma SampleRepeatsLast(d: Decoder, sample: bv64)
    requires IsSample(sample)
    ensures FullAdcTimestamp(Latch(FullAdcTimestamp(d).dec, sample)).ts == FullAdcTimestamp(d).ts
    ensures FullGlobalTimestamp(Latch(FullGlobalTimestamp(d).dec, sample)).ts == FullGlobalTimestamp(d).ts
  {
  }
}

=== FILE: trigger_builder.dfy ===
/** Trigger-bounded event building (examples/make_tree.C): ADC hits are
    buffered, stamped with the last ADC timestamp latched from an information
    word, and flushed to the tree, tagged with the last global timestamp,
    whenever an information word from the V1495 logic unit (module 63)
    arrives. */
module TriggerBuilder {
  import opened Word
  import opened Timestamp
  import opened Hits
  import opened Flush

  /** Hits kept in the buffer before half of them are flushed. */
  const MaxHits: nat := 1000000

  /** Module number of the EBIS trigger pulse (the V1495 logic unit). */
  const EbisModule: nat := 63

  /** Module number of the V1730 digitiser, whose words are ignored. */
  const V1730Module: nat := 2

  /** The script's state: the static ISSWord, the buffered hits, the rows
      written so far, the two timestamps it keeps and its event counters. */
  datatype State = State(
    dec: Decoder,
    pending: seq<Hit>,
    out: seq<TreeEntry>,
    lastGlobalTs: nat,
    lastAdc8Ts: nat,
    processedHits: nat,
    events: nat,
    ebisPulses: nat)

  /** The state before the first file: ISSWord's constructor, everything else zero. */
  function Init(lastGlobal: bv64, lastAdc: bv64): (s: State)
    ensures s.pending == [] && s.out == [] && ValidLatches(s.dec)
  {
    State(NewDecoder(0, lastGlobal, lastAdc), [], [], 0, 0, 0, 0, 0)
  }

  /** The buffer stays within MaxHits between words and holds hits with no
      trace, and last_adc8_ts fits its ULong64_t. */
  predicate Inv(s: State)
  {
    |s.pending| <= MaxHits && Traceless(s.pending) && s.lastAdc8Ts < ULong
  }

  /** process_hits(nhits, event_ts) on the state. */
  function Process(s: State, nhits: nat, eventTs: nat): (r: State)
    requires nhits <= |s.pending|
    ensures |r.pending| == |s.pending| - nhits
    ensures |r.out| == |s.out| + nhits && r.out[..|s.out|] == s.out
    ensures Written(r.out[|s.out|..], r.pending, eventTs)
    ensures Traceless(s.pending) ==> Traceless(r.pending)
    ensures Traceless(s.pending) ==>
      (multiset(Stripped(r.out)) + multiset(r.pending) == multiset(Stripped(s.out)) + multiset(s.pending))
    ensures r.processedHits == s.processedHits + nhits
    ensures r.dec == s.dec && r.lastGlobalTs == s.lastGlobalTs && r.lastAdc8Ts == s.lastAdc8Ts
    ensures r.events == s.events && r.ebisPulses == s.ebisPulses
  {
    var f := Append(s.pending, s.out, nhits, eventTs);
    s.(pending := f.remaining, out := f.emitted, processedHits := s.processedHits + nhits)
  }

  /** The hit an ADC word makes: its module, channel, conversion and data
      ID, stamped with the last latched ADC timestamp (not the word's own low
      bits). */
  function AdcHit(w: bv64, ts: nat): (h: Hit)
    requires IsAdc(w)
    ensures h.moduleId == AdcModule(w) && h.channel == AdcChannel(w) && h.dataId == AdcDataId(w)
    ensures h.conversion == AdcConversion(w) && h.trace == []
    ensures h.ts == ts % ULong
    ensures ts < ULong ==> h.ts == ts
  {
    SetHit(AdcModule(w), AdcChannel(w), ts, AdcConversion(w), AdcDataId(w))
  }

  /** treat_word, on a state whose decoder already holds the word. */
  function TreatWord(s: State): (r: State)
    requires Inv(s)
    ensures Inv(r)
  {
    var w := s.dec.word;
    if IsInfo(w) then
      if InfoModule(w) == V1730Module then s
      else if InfoModule(w) == EbisModule then Trigger(s)
      else if HasExtendedTimestamp(w) then AdcClock(s)
      else s
    else if IsAdc(w) then
      if AdcModule(w) == V1730Module then s else Buffer(s, w)
    else s
  }

  /** The ADC-clock branch: last_adc8_ts takes the word's full ADC timestamp. */
  function AdcClock(s: State): (r: State)
    ensures r.pending == s.pending && r.out == s.out && r.lastGlobalTs == s.lastGlobalTs
  {
    var st := FullAdcTimestamp(s.dec);
    s.(dec := st.dec, lastAdc8Ts := st.ts as nat)
  }

  /** The EBIS branch: write every pending hit under the previous global
      timestamp, then take the word's global timestamp if it carries one. */
  function Trigger(s: State): (r: State)
    requires Inv(s)
    ensures Inv(r) && r.pending == []
  {
    var w := s.dec.word;
    var f := Process(s, |s.pending|, s.lastGlobalTs);
    var f2 :=
      if HasExtendedTimestamp(w) then
        var st := FullGlobalTimestamp(f.dec);
        f.(dec := st.dec, lastGlobalTs := st.ts as nat, ebisPulses := f.ebisPulses + 1)
      else f;
    f2.(events := f2.events + 1)
  }

  /** The ADC branch: buffer the hit, and write the earliest half of the
      buffer when it overflows. */
  function Buffer(s: State, w: bv64): (r: State)
    requires Inv(s) && IsAdc(w)
    ensures Inv(r)
  {
    var s1 := s.(pending := s.pending + [AdcHit(w, s.lastAdc8Ts)]);
    if |s1.pending| > MaxHits then Process(s1, MaxHits / 2, s1.lastGlobalTs) else s1
  }

  /** One word of a buffer: ISSWord::Set, then treat_word. */
  function Step(s: State, w: bv64): (r: State)
    requires Inv(s)
    ensures Inv(r)
    ensures |s.out| <= |r.out| && r.out[..|s.out|] == s.out
  {
    TreatWord(s.(dec := Latch(s.dec, w)))
  }

  /** The words of a buffer (or of a whole file) in order. */
  function Run(s: State, ws: seq<bv64>): (r: State)
    requires Inv(s)
    ensures Inv(r)
    ensures |s.out| <= |r.out| && r.out[..|s.out|] == s.out
    decreases |ws|
  {
    if ws == [] then s else Run(Step(s, ws[0]), ws[1..])
  }

  /** Whether a word becomes a hit. */
  predicate Accepted(w: bv64)
  {
    IsAdc(w) && AdcModule(w) != V1730Module
  }

  /** The number of hits a sequence of words creates. */
  function AcceptedCount(ws: seq<bv64>): nat
    decreases |ws|
  {
    if ws == [] then 0 else (if Accepted(ws[0]) then 1 else 0) + AcceptedCount(ws[1..])
  }

  // ---------------------------------------------------------------------------
  // Properties of one step.

  /** Module-2 words change nothing but the decoder's current word. */
  lemma V1730Ignored(s: State, w: bv64)
    requires Inv(s)
    requires (IsInfo(w) && InfoModule(w) == V1730Module) || (IsAdc(w) && AdcModule(w) == V1730Module)
    ensures Step(s, w) == s.(dec := Latch(s.dec, w))
  {
  }

  /** A trigger word writes every buffered hit, sorted and tagged with the
      global timestamp from before the trigger, leaves the buffer empty and
      counts one event; with an extended timestamp it then takes the word's
      own global timestamp. */
  lemma TriggerFlushesAll(s: State, w: bv64)
    requires Inv(s)
    requires IsInfo(w) && InfoModule(w) == EbisModule
    ensures Step(s, w).pending == []
    ensures |Step(s, w).out| == |s.out| + |s.pending| && Step(s, w).out[..|s.out|] == s.out
    ensures Written(Step(s, w).out[|s.out|..], [], s.lastGlobalTs)
    ensures multiset(Stripped(Step(s, w).out)) == multiset(Stripped(s.out)) + multiset(s.pending)
    ensures Step(s, w).events == s.events + 1
    ensures HasExtendedTimestamp(w) ==>
      Step(s, w).lastGlobalTs == Compose(FieldBits(w), w) as nat && Step(s, w).ebisPulses == s.ebisPulses + 1
    ensures !HasExtendedTimestamp(w) ==>
      Step(s, w).lastGlobalTs == s.lastGlobalTs && Step(s, w).ebisPulses == s.ebisPulses
    ensures Step(s, w).lastAdc8Ts == s.lastAdc8Ts
  {
    var s1 := s.(dec := Latch(s.dec, w));
    assert s1.dec.word == w;
    assert Step(s, w) == Trigger(s1);
    var f := Process(s1, |s1.pending|, s1.lastGlobalTs);
    assert multiset(f.pending) == multiset{};
    if HasExtendedTimestamp(w) {
      ExtendedWordStamp(s.dec, w);
    }
  }

  /** An extended-timestamp word from any other module sets the ADC
      timestamp to the word's own full ADC timestamp and writes nothing. */
  lemma AdcTimestampUpdate(s: State, w: bv64)
    requires Inv(s)
    requires HasExtendedTimestamp(w) && InfoModule(w) != EbisModule && InfoModule(w) != V1730Module
    ensures Step(s, w).lastAdc8Ts == Compose(FieldBits(w), w) as nat
    ensures Step(s, w).pending == s.pending && Step(s, w).out == s.out
    ensures Step(s, w).lastGlobalTs == s.lastGlobalTs
  {
    ExtendedWordStamp(s.dec, w);
  }

  /** An accepted ADC word buffers one hit stamped with the last ADC
      timestamp; when the buffer then exceeds MaxHits, the MaxHits/2 earliest
      hits are written. Either way no hit is lost. */
  lemma AdcWordBuffers(s: State, w: bv64)
    requires Inv(s) && Accepted(w)
    ensures var h := AdcHit(w, s.lastAdc8Ts);
      h.ts == s.lastAdc8Ts
      && multiset(Stripped(Step(s, w).out)) + multiset(Step(s, w).pending)
         == multiset(Stripped(s.out)) + multiset(s.pending) + multiset{h}
    ensures |s.pending| < MaxHits ==> Step(s, w).pending == s.pending + [AdcHit(w, s.lastAdc8Ts)] && Step(s, w).out == s.out
    ensures |s.pending| == MaxHits ==>
      (|Step(s, w).out| == |s.out| + MaxHits / 2 && |Step(s, w).pending| == MaxHits + 1 - MaxHits / 2)
  {
    AdcStep(s, w);
    BufferConserves(s.(dec := Latch(s.dec, w)), w);
  }

  /** The shape of a step on an accepted ADC word. */
  lemma AdcStep(s: State, w: bv64)
    requires Inv(s) && Accepted(w)
    ensures Step(s, w) == Buffer(s.(dec := Latch(s.dec, w)), w)
  {
    KeysPartition(w);
    var s1 := s.(dec := Latch(s.dec, w));
    assert s1.dec.word == w && !IsInfo(w);
  }

  /** Buffer keeps every hit, the new one included. */
  lemma BufferConserves(s: State, w: bv64)
    requires Inv(s) && IsAdc(w)
    ensures multiset(Stripped(Buffer(s, w).out)) + multiset(Buffer(s, w).pending)
      == multiset(Stripped(s.out)) + multiset(s.pending) + multiset{AdcHit(w, s.lastAdc8Ts)}
    ensures |s.pending| < MaxHits ==> Buffer(s, w).pending == s.pending + [AdcHit(w, s.lastAdc8Ts)] && Buffer(s, w).out == s.out
    ensures |s.pending| == MaxHits ==>
      (|Buffer(s, w).out| == |s.out| + MaxHits / 2 && |Buffer(s, w).pending| == MaxHits + 1 - MaxHits / 2)
  {
    var h := AdcHit(w, s.lastAdc8Ts);
    var s1 := s.(pending := s.pending + [h]);
    assert multiset(s1.pending) == multiset(s.pending) + multiset{h};
    assert Traceless(s1.pending);
  }

  // ---------------------------------------------------------------------------
  // Properties of a whole run.

  /** No hit is lost or duplicated: every hit a run creates is either
      written or still buffered, and the written rows only grow. */
  lemma {:induction false} RunConserves(s: State, ws: seq<bv64>)
    requires Inv(s)
    ensures |Run(s, ws).out| + |Run(s, ws).pending| == |s.out| + |s.pending| + AcceptedCount(ws)
    ensures |Run(s, ws).out| >= |s.out| && Run(s, ws).out[..|s.out|] == s.out
    decreases |ws|
  {
    if ws != [] {
      var s1 := Step(s, ws[0]);
      StepConserves(s, ws[0]);
      RunConserves(s1, ws[1..]);
      assert Run(s1, ws[1..]).out[..|s.out|] == Run(s1, ws[1..]).out[..|s1.out|][..|s.out|];
    }
  }

  /** One step: a hit is created exactly for accepted words, and rows are
      only appended. */
  lemma StepConserves(s: State, w: bv64)
    requires Inv(s)
    ensures |Step(s, w).out| + |Step(s, w).pending| == |s.out| + |s.pending| + (if Accepted(w) then 1 else 0)
    ensures |Step(s, w).out| >= |s.out| && Step(s, w).out[..|s.out|] == s.out
  {
  }
}

=== FILE: window_builder.dfy ===
/** Software-triggered event building (examples/analyse_tree_onlyadcstamps.C):
    tree entries, in tree order, are filtered by is_bad_hit and grouped into
    events that close when an entry arrives more than EventWidth ticks after
    the event's first entry. Each closed event goes to treat_event. */
module WindowBuilder {
  import opened Flush
  import Mapping

  /** Event width in ADC ticks. */
  const EventWidth: nat := 2500
  /** Size of the event store above which the pending event is dropped. */
  const MaxEventHits: nat := 10000
  /** Conversions above this are over range. */
  const OverRange: nat := 65534
  /** Conversions below this are noise. */
  const LowThreshold: nat := 2000

  /** The verdict of is_bad_hit, with the counter it bumps. */
  datatype Verdict = Good | Overrange | Noise | NotQLong

  /** is_bad_hit: over-range first, then noise, then anything but a QLong. */
  function Classify(e: TreeEntry): (v: Verdict)
    ensures v == Good <==> LowThreshold <= e.adcData <= OverRange && e.dataId == 0
    ensures v == Overrange <==> e.adcData > OverRange
    ensures v == Noise <==> e.adcData < LowThreshold
  {
    if e.adcData > OverRange then Overrange
    else if e.adcData < LowThreshold then Noise
    else if e.dataId != 0 then NotQLong
    else Good
  }

  /** The script's event-building state. `discarded` tallies the hits dropped
      when the store overflows, which the script only reports in a message. */
  datatype State = State(
    eventHits: seq<TreeEntry>,
    first: nat,
    events: seq<seq<TreeEntry>>,
    hits: nat,
    badHits: nat,
    overrange: nat,
    noise: nat,
    goodHits: nat,
    nEvents: nat,
    discarded: nat)

  function Init(): (s: State)
    ensures Inv(s) && Consistent(s) && Counted(s)
  {
    State([], 0, [], 0, 0, 0, 0, 0, 0, 0)
  }

  /** The number of hits held in a list of events. */
  function Total(events: seq<seq<TreeEntry>>): nat
    decreases |events|
  {
    if events == [] then 0 else Total(events[..|events| - 1]) + |events[|events| - 1]|
  }

  /** An event keeps the window: non-empty, every hit good, no hit later than
      EventWidth after the first. */
  predicate InWindow(ev: seq<TreeEntry>)
  {
    ev != [] && forall i :: 0 <= i < |ev| ==> Classify(ev[i]) == Good && ev[i].adcTs <= ev[0].adcTs + EventWidth
  }

  /** What the corrected builder keeps true: the open event starts at `first`
      and keeps the window, the store never exceeds MaxEventHits + 1, and
      every closed event keeps the window. */
  predicate Inv(s: State)
  {
    |s.eventHits| <= MaxEventHits + 1
    && (s.eventHits != [] ==> s.eventHits[0].adcTs == s.first && InWindow(s.eventHits))
    && (forall k :: 0 <= k < |s.events| ==> InWindow(s.events[k]))
  }

  /** The counters add up: every hit read is bad, written in an event,
      dropped, or still open; n_events counts the events. */
  predicate Counted(s: State)
  {
    s.hits == s.badHits + Placed(s) && Listed(s) && s.overrange + s.noise <= s.badHits
  }

  /** The good hits taken so far: written, dropped or open. */
  function Placed(s: State): nat
  {
    s.goodHits + s.discarded + |s.eventHits|
  }

  /** n_good_hits and n_events describe the events passed on. */
  predicate Listed(s: State)
  {
    s.goodHits == Total(s.events) && s.nEvents == |s.events|
  }

  /** The sentinel `first == 0` means "no event open" exactly when the store is empty. */
  predicate Consistent(s: State)
  {
    s.first == 0 <==> s.eventHits == []
  }

  /** treat_event: count the hits and the event, pass the event on, clear the store. */
  function TreatEvent(s: State): (r: State)
    ensures r.eventHits == [] && r.events == s.events + [s.eventHits]
    ensures r.goodHits == s.goodHits + |s.eventHits| && r.nEvents == s.nEvents + 1
    ensures r.(eventHits := s.eventHits, events := s.events, goodHits := s.goodHits, nEvents := s.nEvents) == s
    ensures Total(r.events) == Total(s.events) + |s.eventHits|
  {
    var events := s.events + [s.eventHits];
    assert events[..|events| - 1] == s.events;
    s.(eventHits := [], events := events, goodHits := s.goodHits + |s.eventHits|, nEvents := s.nEvents + 1)
  }

  /** What treat_event passes to the detector histograms: the detector
      records of each written event, in order. */
  function DetectorRecords(events: seq<seq<TreeEntry>>): (r: seq<Mapping.Mapped>)
    ensures |r| == |events|
    ensures forall k :: 0 <= k < |r| ==> Mapping.WellFormed(r[k])
  {
    seq(|events|, k requires 0 <= k < |events| => Mapping.DetectorMapping(events[k]))
  }

  /** A rejected entry: n_bad_hits and the verdict's own counter. */
  function Reject(s: State, v: Verdict): (r: State)
    requires v != Good
    ensures r.badHits == s.badHits + 1
    ensures r.overrange + r.noise == s.overrange + s.noise + (if v == NotQLong then 0 else 1)
    ensures r.(badHits := s.badHits, overrange := s.overrange, noise := s.noise) == s
  {
    match v
    case Overrange => s.(badHits := s.badHits + 1, overrange := s.overrange + 1)
    case Noise => s.(badHits := s.badHits + 1, noise := s.noise + 1)
    case NotQLong => s.(badHits := s.badHits + 1)
  }

  /** The overflow guard: a store above MaxEventHits is dropped unwritten and
      the new entry's time becomes the event start. */
  function Overflow(s: State, e: TreeEntry): (r: State)
    ensures |r.eventHits| <= MaxEventHits
    ensures r.events == s.events && r.goodHits == s.goodHits && r.nEvents == s.nEvents
    ensures r.hits == s.hits && r.badHits == s.badHits && r.overrange == s.overrange && r.noise == s.noise
    ensures Placed(r) == Placed(s)
    ensures r.eventHits == s.eventHits <==> |s.eventHits| <= MaxEventHits
    ensures r.eventHits == s.eventHits ==> r == s
    ensures r.eventHits != s.eventHits ==> r.eventHits == [] && r.first == e.adcTs
  {
    if |s.eventHits| > MaxEventHits then
      s.(eventHits := [], first := e.adcTs, discarded := s.discarded + |s.eventHits|)
    else s
  }

  /** Placing a good entry, as written: an event is opened when the sentinel
      `first` is zero. */
  function PlaceAsWritten(s: State, e: TreeEntry): (r: State)
    ensures r.eventHits != [] && r.eventHits[|r.eventHits| - 1] == e
    ensures Placed(r) == Placed(s) + 1 && (Listed(s) ==> Listed(r))
    ensures r.hits == s.hits && r.badHits == s.badHits && r.overrange == s.overrange && r.noise == s.noise
    ensures |s.events| <= |r.events| <= |s.events| + 1 && r.events[..|s.events|] == s.events
  {
    var s1 := Overflow(s, e);
    if s1.first == 0 then s1.(eventHits := s1.eventHits + [e], first := e.adcTs)
    else if s1.first + EventWidth < e.adcTs then TreatEvent(s1).(eventHits := [e], first := e.adcTs)
    else s1.(eventHits := s1.eventHits + [e])
  }

  /** Placing a good entry, corrected: an event is opened when none is open. */
  function Place(s: State, e: TreeEntry): (r: State)
    requires Inv(s) && Classify(e) == Good
    ensures Inv(r) && r.eventHits != [] && r.eventHits[|r.eventHits| - 1] == e
    ensures Placed(r) == Placed(s) + 1 && (Listed(s) ==> Listed(r))
    ensures r.hits == s.hits && r.badHits == s.badHits && r.overrange == s.overrange && r.noise == s.noise
    ensures Consistent(s) && e.adcTs != 0 ==> Consistent(r)
    ensures |r.events| <= |s.events| + 1
  {
    var s1 := Overflow(s, e);
    if s1.eventHits == [] then s1.(eventHits := [e], first := e.adcTs)
    else if s1.first + EventWidth < e.adcTs then
      var r := TreatEvent(s1).(eventHits := [e], first := e.adcTs);
      assert r.events[..|s1.events|] == s1.events;
      r
    else s1.(eventHits := s1.eventHits + [e])
  }

  /** One tree entry, as written. */
  function StepAsWritten(s: State, e: TreeEntry): (r: State)
    ensures Counted(s) ==> Counted(r)
    ensures r.hits == s.hits + 1
    ensures |s.events| <= |r.events| <= |s.events| + 1 && r.events[..|s.events|] == s.events
  {
    var s1 := s.(hits := s.hits + 1);
    var v := Classify(e);
    if v != Good then Reject(s1, v) else PlaceAsWritten(s1, e)
  }

  /** One tree entry, corrected. */
  function Step(s: State, e: TreeEntry): (r: State)
    requires Inv(s)
    ensures Inv(r)
    ensures Counted(s) ==> Counted(r)
    ensures Consistent(s) && e.adcTs != 0 ==> Consistent(r)
    ensures |s.events| <= |r.events| <= |s.events| + 1 && r.events[..|s.events|] == s.events
  {
    var s1 := s.(hits := s.hits + 1);
    var v := Classify(e);
    if v != Good then Reject(s1, v) else Place(s1, e)
  }

  function RunAsWritten(s: State, es: seq<TreeEntry>): (r: State)
    ensures Counted(s) ==> Counted(r)
    ensures r.hits == s.hits + |es|
    ensures |s.events| <= |r.events| && r.events[..|s.events|] == s.events
    decreases |es|
  {
    if es == [] then s else RunAsWritten(StepAsWritten(s, es[0]), es[1..])
  }

  /** The whole tree, corrected. */
  function Run(s: State, es: seq<TreeEntry>): (r: State)
    requires Inv(s)
    ensures Inv(r)
    ensures |s.events| <= |r.events| && r.events[..|s.events|] == s.events
    decreases |es|
  {
    if es == [] then s else Run(Step(s, es[0]), es[1..])
  }

  /** The last event, if any entries are left open. */
  function Finish(s: State): (r: State)
    requires Inv(s)
    ensures Inv(r) && r.eventHits == [] && r.hits == s.hits
    ensures Counted(s) ==> Counted(r)
  {
    if |s.eventHits| > 0 then TreatEvent(s) else s
  }

  // ---------------------------------------------------------------------------
  // Properties.

  /** A good entry that starts a new event closes the open one, unchanged;
      one within the window joins the open event. */
  lemma WindowDecision(s: State, e: TreeEntry)
    requires Inv(s) && Classify(e) == Good && s.eventHits != [] && |s.eventHits| <= MaxEventHits
    ensures s.first + EventWidth < e.adcTs ==>
      Step(s, e).events == s.events + [s.eventHits] && Step(s, e).eventHits == [e]
    ensures e.adcTs <= s.first + EventWidth ==>
      Step(s, e).events == s.events && Step(s, e).eventHits == s.eventHits + [e]
  {
  }

  /** An overfull store is dropped: the entry after it starts a fresh event
      and none of the dropped hits reaches treat_event. */
  lemma OverflowDrops(s: State, e: TreeEntry)
    requires Inv(s) && Classify(e) == Good && |s.eventHits| > MaxEventHits
    ensures Step(s, e).events == s.events && Step(s, e).eventHits == [e]
    ensures Step(s, e).discarded == s.discarded + |s.eventHits|
  {
  }

  /** Bad entries are counted and touch nothing else. */
  lemma BadHitIgnored(s: State, e: TreeEntry)
    requires Inv(s) && Classify(e) != Good
    ensures Step(s, e).eventHits == s.eventHits && Step(s, e).events == s.events
    ensures Step(s, e).first == s.first && Step(s, e).badHits == s.badHits + 1
  {
  }

  /** At the end every hit read is accounted for: bad, written in exactly one
      event, or dropped on overflow. */
  lemma EveryHitAccounted(s: State, es: seq<TreeEntry>)
    requires Inv(s) && Counted(s) && s.hits == 0
    ensures Finish(Run(s, es)).hits == |es|
    ensures Finish(Run(s, es)).eventHits == []
    ensures |es| == Finish(Run(s, es)).badHits + Total(Finish(Run(s, es)).events) + Finish(Run(s, es)).discarded
    ensures Finish(Run(s, es)).nEvents == |Finish(Run(s, es)).events|
  {
    RunCounts(s, es);
  }

  lemma {:induction false} RunCounts(s: State, es: seq<TreeEntry>)
    requires Inv(s) && Counted(s)
    ensures Counted(Run(s, es)) && Run(s, es).hits == s.hits + |es|
    decreases |es|
  {
    if es != [] {
      RunCounts(Step(s, es[0]), es[1..]);
    }
  }

  /** The as-written and corrected builders agree on an entry that is not
      stamped zero, whenever the sentinel is in step with the store. */
  lemma StepsAgree(s: State, e: TreeEntry)
    requires Inv(s) && Consistent(s) && e.adcTs != 0
    ensures StepAsWritten(s, e) == Step(s, e)
  {
  }

  /** Hence on a tree with no entry stamped zero the two build the same events. */
  lemma {:induction false} RunsAgree(s: State, es: seq<TreeEntry>)
    requires Inv(s) && Consistent(s)
    requires forall i :: 0 <= i < |es| ==> es[i].adcTs != 0
    ensures RunAsWritten(s, es) == Run(s, es)
    decreases |es|
  {
    if es != [] {
      StepsAgree(s, es[0]);
      RunsAgree(Step(s, es[0]), es[1..]);
    }
  }

  /** The sentinel as written: an event opened by a good entry stamped zero
      takes the next good entry whatever its time, so two entries more than
      EventWidth apart share an event (0 and 3000 ticks, say). The corrected
      builder closes the first event before the second entry. */
  lemma SentinelCounterexample(s: State, e0: TreeEntry, e1: TreeEntry)
    requires Inv(s) && s.eventHits == [] && s.first == 0
    requires Classify(e0) == Good && Classify(e1) == Good
    requires e0.adcTs == 0 && EventWidth < e1.adcTs
    ensures var r := StepAsWritten(StepAsWritten(s, e0), e1);
      r.eventHits == [e0, e1] && r.events == s.events
      && !(r.eventHits[1].adcTs <= r.eventHits[0].adcTs + EventWidth)
    ensures var r := Step(Step(s, e0), e1);
      r.events == s.events + [[e0]] && r.eventHits == [e1]
  {
  }

  /** On a tree in time order each event's hits lie in [first, first + EventWidth]. */
  lemma {:induction false} OrderedEventsSpanWindow(s: State, es: seq<TreeEntry>)
    requires Inv(s) && LaterThanOpen(s)
    requires forall i, j :: 0 <= i < j < |es| ==> es[i].adcTs <= es[j].adcTs
    requires forall i :: 0 <= i < |es| ==> s.first <= es[i].adcTs
    requires forall k :: 0 <= k < |s.events| ==> StartsEarliest(s.events[k])
    ensures forall k :: 0 <= k < |Run(s, es).events| ==> StartsEarliest(Run(s, es).events[k])
    decreases |es|
  {
    if es != [] {
      var r := Step(s, es[0]);
      StepStartsEarliest(s, es[0]);
      OrderedEventsSpanWindow(r, es[1..]);
    }
  }

  /** No hit in an event is earlier than its first hit. */
  predicate StartsEarliest(ev: seq<TreeEntry>)
  {
    forall i :: 0 <= i < |ev| ==> ev[0].adcTs <= ev[i].adcTs
  }

  /** No open hit is earlier than the event start. */
  predicate LaterThanOpen(s: State)
  {
    forall i :: 0 <= i < |s.eventHits| ==> s.first <= s.eventHits[i].adcTs
  }

  lemma StepStartsEarliest(s: State, e: TreeEntry)
    requires Inv(s) && LaterThanOpen(s) && s.first <= e.adcTs
    requires forall k :: 0 <= k < |s.events| ==> StartsEarliest(s.events[k])
    ensures LaterThanOpen(Step(s, e)) && s.first <= Step(s, e).first <= e.adcTs
    ensures forall k :: 0 <= k < |Step(s, e).events| ==> StartsEarliest(Step(s, e).events[k])
  {
    var r := Step(s, e);
    if Classify(e) != Good {
      assert r.eventHits == s.eventHits && r.first == s.first && r.events == s.events;
    } else if |s.eventHits| > MaxEventHits {
      assert r.eventHits == [e] && r.first == e.adcTs && r.events == s.events;
    } else if s.eventHits == [] {
      assert r.eventHits == [e] && r.first == e.adcTs && r.events == s.events;
    } else if s.first + EventWidth < e.adcTs {
      assert r.eventHits == [e] && r.first == e.adcTs && r.events == s.events + [s.eventHits];
    } else {
      assert r.eventHits == s.eventHits + [e] && r.first == s.first && r.events == s.events;
    }
  }
}

=== FILE: word.dfy ===
/** Field extraction from one 64-bit payload word (ISSWord.hh). Bits 63:62
    hold the key: 0 trace sample, 1 trace header, 2 information, 3 ADC. Each
    accessor returns 0 (false) when the word does not have the key it reads. */
module Word {

  /** Module number of the CAEN V1495 logic unit; its information words carry
      the extended global timestamp. */
  const V1495ModuleId: nat := 63

  /** Information code of an extended-timestamp information word. */
  const ExtendedTimestampCode: nat := 4

  /** GetKey: bits 63:62. */
  function Key(w: bv64): (k: nat)
    ensures k < 4
    ensures k == 0 <==> IsSample(w)
    ensures k == 1 <==> IsTraceHeader(w)
    ensures k == 2 <==> IsInfo(w)
    ensures k == 3 <==> IsAdc(w)
  {
    (((w >> 62) & 3) as bv2) as nat
  }

  predicate IsSample(w: bv64)      { w >> 62 == 0 }
  predicate IsTraceHeader(w: bv64) { w >> 62 == 1 }
  predicate IsInfo(w: bv64)        { w >> 62 == 2 }
  predicate IsAdc(w: bv64)         { w >> 62 == 3 }

  /** GetLowTimestamp: bits 27:0 of an information word. */
  function LowTimestamp(w: bv64): (r: nat)
    ensures r < 0x1000_0000
    ensures !IsInfo(w) ==> r == 0
  {
    if !IsInfo(w) then 0 else ((w & 0xFFFFFFF) as bv28) as nat
  }

  /** GetInfoField: bits 51:32 of an information word. */
  function InfoField(w: bv64): (r: nat)
    ensures r < 0x10_0000
    ensures !IsInfo(w) ==> r == 0
  {
    if !IsInfo(w) then 0 else (((w >> 32) & 0xFFFFF) as bv20) as nat
  }

  /** GetInfoCode: bits 55:52 of an information word. */
  function InfoCode(w: bv64): (r: nat)
    ensures r < 16
    ensures !IsInfo(w) ==> r == 0
  {
    if !IsInfo(w) then 0 else (((w >> 52) & 0xF) as bv4) as nat
  }

  /** GetInfoModule: bits 61:56 of an information word. */
  function InfoModule(w: bv64): (r: nat)
    ensures r < 64
    ensures !IsInfo(w) ==> r == 0
  {
    if !IsInfo(w) then 0 else (((w >> 56) & 0x3F) as bv6) as nat
  }

  /** HasExtendedTimestamp: an information word with code 4. */
  predicate HasExtendedTimestamp(w: bv64)
    ensures HasExtendedTimestamp(w) <==> w >> 62 == 2 && (w >> 52) & 0xF == 4
  {
    IsInfo(w) && InfoCode(w) == ExtendedTimestampCode
  }

  /** GetADCDataID: bits 55:54 of an ADC word. */
  function AdcDataId(w: bv64): (r: nat)
    ensures r < 4
    ensures !IsAdc(w) ==> r == 0
  {
    if !IsAdc(w) then 0 else (((w >> 54) & 0x03) as bv2) as nat
  }

  /** GetADCConversion: bits 47:32 of an ADC word. */
  function AdcConversion(w: bv64): (r: nat)
    ensures r < 0x1_0000
    ensures !IsAdc(w) ==> r == 0
  {
    if !IsAdc(w) then 0 else (((w >> 32) & 0xFFFF) as bv16) as nat
  }

  /** GetADCID: bits 59:48 of an ADC word. */
  function AdcId(w: bv64): (r: nat)
    ensures r < 0x1000
    ensures !IsAdc(w) ==> r == 0
  {
    if !IsAdc(w) then 0 else (((w >> 48) & 0xFFF) as bv12) as nat
  }

  /** GetADCChannel: bits 53:48 of an ADC word. */
  function AdcChannel(w: bv64): (r: nat)
    ensures r < 64
    ensures !IsAdc(w) ==> r == 0
  {
    if !IsAdc(w) then 0 else (((w >> 48) & 0x3F) as bv6) as nat
  }

  /** GetADCBE: bit 52 of an ADC word. */
  predicate AdcBE(w: bv64)
  {
    IsAdc(w) && (w >> 52) & 1 == 1
  }

  /** GetADCModule: bits 60:56 of an ADC word. */
  function AdcModule(w: bv64): (r: nat)
    ensures r < 32
    ensures !IsAdc(w) ==> r == 0
  {
    if !IsAdc(w) then 0 else (((w >> 56) & 0x1F) as bv5) as nat
  }

  /** IsQLong: an ADC word with data ID 0 (energy or long charge). */
  predicate IsQLong(w: bv64)
  {
    IsAdc(w) && AdcDataId(w) == 0
  }

  /** IsQShort: an ADC word with data ID 1 (short charge). */
  predicate IsQShort(w: bv64)
  {
    IsAdc(w) && AdcDataId(w) == 1
  }

  /** IsFineTiming: an ADC word with data ID 3. */
  predicate IsFineTiming(w: bv64)
  {
    IsAdc(w) && AdcDataId(w) == 3
  }

  /** GetTraceNSamples: bits 47:32 of a trace header. */
  function TraceNSamples(w: bv64): (r: nat)
    ensures r < 0x1_0000
    ensures !IsTraceHeader(w) ==> r == 0
  {
    if !IsTraceHeader(w) then 0 else (((w >> 32) & 0xFFFF) as bv16) as nat
  }

  /** GetTraceID: bits 60:48 of a trace header. */
  function TraceId(w: bv64): (r: nat)
    ensures r < 0x2000
    ensures !IsTraceHeader(w) ==> r == 0
  {
    if !IsTraceHeader(w) then 0 else (((w >> 48) & 0x1FFF) as bv13) as nat
  }

  /** GetTraceChannel: bits 53:48 of a trace header. */
  function TraceChannel(w: bv64): (r: nat)
    ensures r < 64
    ensures !IsTraceHeader(w) ==> r == 0
  {
    if !IsTraceHeader(w) then 0 else (((w >> 48) & 0x3F) as bv6) as nat
  }

  /** GetTraceBE: bit 52, but guarded by the ADC key as the source writes it. */
  predicate TraceBE(w: bv64)
  {
    IsAdc(w) && (w >> 52) & 1 == 1
  }

  /** GetTraceModule: bits 60:56 of a trace header. */
  function TraceModule(w: bv64): (r: nat)
    ensures r < 32
    ensures !IsTraceHeader(w) ==> r == 0
  {
    if !IsTraceHeader(w) then 0 else (((w >> 56) & 0x1F) as bv5) as nat
  }

  /** GetTraceRawFlag: bit 52 of a trace header. */
  predicate TraceRawFlag(w: bv64)
  {
    IsTraceHeader(w) && (w >> 52) & 1 == 1
  }

  // ---------------------------------------------------------------------------
  // Word builders: the layouts the accessors read, written out field by field.

  /** An information word from its fields. */
  function MakeInfo(moduleId: bv6, code: bv4, field: bv20, low: bv28): bv64
  {
    (2 as bv64 << 62) | ((moduleId as bv64) << 56) | ((code as bv64) << 52)
    | ((field as bv64) << 32) | (low as bv64)
  }

  /** An ADC word from its fields. */
  function MakeAdc(moduleId: bv5, dataId: bv2, channel: bv6, conversion: bv16, low: bv28): bv64
  {
    (3 as bv64 << 62) | ((moduleId as bv64) << 56) | ((dataId as bv64) << 54)
    | ((channel as bv64) << 48) | ((conversion as bv64) << 32) | (low as bv64)
  }

  /** A trace header from its fields; the raw flag is bit 4 of the channel
      field, so it is set by the channel given here. */
  function MakeTraceHeader(moduleId: bv5, channel: bv6, nsamples: bv16): bv64
  {
    (1 as bv64 << 62) | ((moduleId as bv64) << 56)
    | ((channel as bv64) << 48) | ((nsamples as bv64) << 32)
  }

  // ---------------------------------------------------------------------------
  // Properties.

  /** Every word has exactly one of the four keys. */
  lemma KeysPartition(w: bv64)
    ensures IsSample(w) || IsTraceHeader(w) || IsInfo(w) || IsAdc(w)
    ensures !(IsSample(w) && IsTraceHeader(w)) && !(IsSample(w) && IsInfo(w))
    ensures !(IsSample(w) && IsAdc(w)) && !(IsTraceHeader(w) && IsInfo(w))
    ensures !(IsTraceHeader(w) && IsAdc(w)) && !(IsInfo(w) && IsAdc(w))
  {
  }

  /** Information-word fields read back as built. */
  lemma InfoRoundTrip(moduleId: bv6, code: bv4, field: bv20, low: bv28)
    ensures IsInfo(MakeInfo(moduleId, code, field, low))
    ensures InfoModule(MakeInfo(moduleId, code, field, low)) == moduleId as nat
    ensures InfoCode(MakeInfo(moduleId, code, field, low)) == code as nat
    ensures InfoField(MakeInfo(moduleId, code, field, low)) == field as nat
    ensures LowTimestamp(MakeInfo(moduleId, code, field, low)) == low as nat
    ensures HasExtendedTimestamp(MakeInfo(moduleId, code, field, low)) <==> code == 4
  {
  }

  /** ADC-word fields read back as built. */
  lemma AdcRoundTrip(moduleId: bv5, dataId: bv2, channel: bv6, conversion: bv16, low: bv28)
    ensures IsAdc(MakeAdc(moduleId, dataId, channel, conversion, low))
    ensures AdcModule(MakeAdc(moduleId, dataId, channel, conversion, low)) == moduleId as nat
    ensures AdcDataId(MakeAdc(moduleId, dataId, channel, conversion, low)) == dataId as nat
    ensures AdcChannel(MakeAdc(moduleId, dataId, channel, conversion, low)) == channel as nat
    ensures AdcConversion(MakeAdc(moduleId, dataId, channel, conversion, low)) == conversion as nat
    ensures MakeAdc(moduleId, dataId, channel, conversion, low) & 0xFFFFFFF == low as bv64
  {
  }

  /** Trace-header fields read back as built. */
  lemma TraceHeaderRoundTrip(moduleId: bv5, channel: bv6, nsamples: bv16)
    ensures IsTraceHeader(MakeTraceHeader(moduleId, channel, nsamples))
    ensures TraceModule(MakeTraceHeader(moduleId, channel, nsamples)) == moduleId as nat
    ensures TraceChannel(MakeTraceHeader(moduleId, channel, nsamples)) == channel as nat
    ensures TraceRawFlag(MakeTraceHeader(moduleId, channel, nsamples)) <==> channel & 0x10 != 0
    ensures TraceNSamples(MakeTraceHeader(moduleId, channel, nsamples)) == nsamples as nat
  {
  }

  /** The 12-bit ADC ID is the low four module bits, the data ID and the
      channel side by side; the top module bit is outside it. */
  lemma AdcIdComposition(w: bv64)
    ensures AdcId(w) == (AdcModule(w) % 16) * 256 + AdcDataId(w) * 64 + AdcChannel(w)
  {
  }

  /** The baseline/energy bit is bit 4 of the channel field. */
  lemma AdcBEIsChannelBit(w: bv64)
    ensures AdcBE(w) <==> IsAdc(w) && (AdcChannel(w) / 16) % 2 == 1
  {
  }

  /** The trace channel is the low six bits of the trace ID, and the trace
      module its bits above the eighth. */
  lemma TraceIdComposition(w: bv64)
    ensures TraceChannel(w) == TraceId(w) % 64
    ensures TraceModule(w) == TraceId(w) / 256
  {
    if IsTraceHeader(w) {
      var id := ((w >> 48) & 0x1FFF) as bv13;
      ChannelOfId(w, id);
      ModuleOfId(w, id);
    }
  }

  lemma ChannelOfId(w: bv64, id: bv13)
    requires id == ((w >> 48) & 0x1FFF) as bv13
    ensures (((w >> 48) & 0x3F) as bv6) as nat == (id as nat) % 64
  {
    assert ((w >> 48) & 0x3F) as bv6 == (id & 0x3F) as bv6;
    LowBitsOfId(id);
  }

  lemma ModuleOfId(w: bv64, id: bv13)
    requires id == ((w >> 48) & 0x1FFF) as bv13
    ensures (((w >> 56) & 0x1F) as bv5) as nat == (id as nat) / 256
  {
    assert ((w >> 56) & 0x1F) as bv5 == (id >> 8) as bv5;
    HighBitsOfId(id);
  }

  lemma LowBitsOfId(id: bv13)
    ensures ((id & 0x3F) as bv6) as nat == (id as nat) % 64
  {
    SplitId(id);
    ModOfSum(((id >> 6) as bv7) as nat, ((id & 0x3F) as bv6) as nat);
  }

  lemma SplitId(id: bv13)
    ensures (id as nat) == ((id >> 6) as bv7) as nat * 64 + ((id & 0x3F) as bv6) as nat
  {
  }

  lemma ModOfSum(q: nat, r: nat)
    requires r < 64
    ensures (q * 64 + r) % 64 == r
  {
  }

  lemma HighBitsOfId(id: bv13)
    ensures ((id >> 8) as bv5) as nat == (id as nat) / 256
  {
  }

  /** The raw flag of a trace header is bit 4 of its channel. */
  lemma RawFlagIsChannelBit(w: bv64)
    ensures TraceRawFlag(w) <==> IsTraceHeader(w) && (TraceChannel(w) / 16) % 2 == 1
  {
  }

  /** GetTraceBE tests the ADC key, so it is false on every trace header and
      agrees with GetADCBE everywhere. */
  lemma TraceBEReadsAdcWords(w: bv64)
    ensures IsTraceHeader(w) ==> !TraceBE(w)
    ensures TraceBE(w) <==> AdcBE(w)
  {
  }

  /** The three ADC kinds are exclusive, and data ID 2 is none of them. */
  lemma AdcKinds(w: bv64)
    ensures IsQLong(w) || IsQShort(w) || IsFineTiming(w) <==> IsAdc(w) && AdcDataId(w) != 2
    ensures !(IsQLong(w) && IsQShort(w)) && !(IsQLong(w) && IsFineTiming(w))
    ensures !(IsQShort(w) && IsFineTiming(w))
  {
  }
}

=== FILE: wrappers.dfy ===
/** Failure-carrying results. The source signals failure with a null pointer or
    by throwing an integer error code; the model returns one of these instead. */
module Wrappers {

  /** A value that may be absent (the source's null pointer). */
  datatype Option<+T> = None | Some(value: T)

  /** Either a value or the error code the source would have thrown. */
  datatype Result<+T, +E> = Ok(value: T) | Err(error: E)
}
